=== FILE: README.md ===
# Ponder This solvers: sieve, prime pair sums, split sums, substitution lookup

A Dafny model of the core of four puzzle solvers. Each solver is proved
against a reference definition.

- **Prime table** (`prime_number_gen.cc`). The constructor checks the range. It marks 0 and 1, computes an integer square root, and runs the two Sieve of Eratosthenes passes. The table keeps a clear sentinel slot at `high + 1`. `begin()`, `operator++`, `end()` and `operator==` iterate over the primes of `[low, high]`. Modules `Primes` (number theory and the reference enumeration `PrimesIn`) and `Sieve`.
- **Prime pair sums** (`2025-12.cc`). It builds the first n odd primes, with a doubling retry, and the first n even numbers. `bruteForce` counts the prime sums over all pairs; `solve` counts the same pairs with a sliding window over the sorted primes. Modules `PairSumsSpec` (the reference f(n) and the counting argument) and `PairSums`.
- **Split sums** (`2026-01.cc`). `genAn` enumerates the cut patterns of the decimal digits of n and offers each sum to a callback. `AxContains` decides whether n is in A_x, with a power-of-ten shortcut. `bruteForce` and the threaded `solve` both sum the answer set. Modules `SplitSumsSpec` (A_n as the set of sums over all ways to cut, and the answer set) and `SplitSums`.
- **Substitution lookup** (`2025-11.py`). It covers the integer `Matrix` with its identity, zero and product, and the brute-force rewriting. It also covers `find_first_char` with its cycle shortcut, and `solve`. `solve` tabulates expansion lengths as row sums of matrix powers, skips the rounds that only move the first character, and descends to the character at position p. Modules `Matrices`, `Substitution` and `Locate`.
- **Tests.** The tests' concrete scenarios are restated as lemmas and methods in `SieveTests`, `PairSumsTests`, `SplitSumsTests` and `LocateTests`. `LocateFindings` holds the two inputs on which `solve` as written disagrees with `bruteforce`.

`solve` of 2025-11.py is modelled twice, as `Locate.SolveAsWritten` and `Locate.Solve`.
- `Locate.SolveAsWritten` follows the code. It builds a 0/1 transition matrix and stops the length table at the first level where every length is `>= p`.
- `Locate.Solve` is the corrected definition. It counts multiplicities in the matrix and uses the strict test `> p`. The headline theorem `Locate.SolveIsBruteForce` is proved about it.

The two defects are listed under Findings. Both halves of each are in the Dafny.

## Model

| member | source | states |
|---|---|---|
| Primes.PrimesInSpec | prime_number_gen_test.cc:8-26 | the reference enumeration `PrimesIn(lo, hi)` holds exactly the primes of [lo, hi) in strictly increasing order |
| Primes.PrimesInSplit | prime_number_gen.cc:64-83 | enumerating [lo, hi) equals enumerating [lo, mid) followed by [mid, hi) |
| Primes.CompositeHasSmallFactor | prime_number_gen.cc:37-43 | every composite n >= 2 has a divisor p with 2 <= p < n and p*p <= n (its least divisor), so a pass with p up to the square root reaches it |
| Primes.EnoughPrimes | 2025-12.cc:43-52 | for every k there is a bound below which at least k odd primes lie, so the doubling loop of `getFirstNOddPrimes` ends |
| Sieve.IntSqrt | prime_number_gen.cc:20-26 | starting from any over-guess, decrementing while the square exceeds n ends at the integer square root: r*r <= n < (r+1)*(r+1) |
| Sieve.MultipleNotPrime | prime_number_gen.cc:32-33 | every index p*p + k*p that a pass marks, with p >= 2, is not prime (soundness of a mark) |
| Sieve.CoverStep | prime_number_gen.cc:37-43 | after the second-pass iteration for p, every composite up to high with a factor below p + 1 is marked |
| Sieve.MarksExact | prime_number_gen.cc:16-44 | sound marks, marks on 0 and 1, and coverage of all factors up to the square root make the mark of i set exactly when i <= high and i is not prime; the sentinel slot stays clear |
| Sieve.MarkMultiples | prime_number_gen.cc:32-33 | the inner marking loop sets exactly the multiples of p from p*p up to the limit and leaves every other mark as it was |
| Sieve.FirstPass | prime_number_gen.cc:27-35 | the first pass keeps the marks sound (every set mark beyond 1 is a non-prime) and keeps 0 and 1 marked; it promises nothing about coverage, which the second pass provides on its own |
| Sieve.SecondPass | prime_number_gen.cc:36-44 | after the second pass every composite up to high with a factor up to the square root is marked, and the marks stay sound |
| Sieve.Construct | prime_number_gen.cc:6-46 | construction fails exactly when not 0 < low < high, and otherwise yields a table, carrying the given object id, whose mark of i is set iff i <= high and i is not prime |
| Sieve.IsPrimeAt | prime_number_gen.cc:60-62 | the query `!isNotPrime(n)` is exact on [0, high]: true iff n is prime |
| Sieve.ValidHasSentinel | prime_number_gen.cc:12 | a constructed table has slot high + 1, and it is clear |
| Sieve.ScanFrom | prime_number_gen.cc:69-72 | the forward scan stops at or before the sentinel, on a clear slot, having passed only set slots |
| Sieve.Begin | prime_number_gen.cc:64-74 | `begin()` is the first prime of [low, high], or the sentinel high + 1 if there is none |
| Sieve.Next | prime_number_gen.cc:52-58 | `operator++` moves to the next prime after the cursor, or to the sentinel, skipping only non-primes |
| Sieve.End | prime_number_gen.cc:76-83 | `end()` belongs to the table, lies past every number of the range, and sits on the clear sentinel slot, which the table reads as prime |
| Sieve.ItrEqAtEnd | prime_number_gen.cc:60-62 | `operator==` compares the cursor and the owning object's identity: an iterator of a table reached by `begin()` and `operator++` equals that table's `end()` iff no prime of the range is left at or after its cursor, and never equals the `end()` of another object |
| Sieve.Enumerate | prime_number_gen.cc:64-83 | iterating `begin()` to `end()` yields exactly the primes of [low, high], increasing |
| SieveTests.SmallRange | prime_number_gen_test.cc:8-16 | the table (1, 20) yields 2, 3, 5, 7, 11, 13, 17, 19 |
| SieveTests.RangeWithStart | prime_number_gen_test.cc:18-26 | the table (10, 30) yields 11, 13, 17, 19, 23, 29 |
| PairSumsSpec.FirstOddPrimesSpec | 2025-12.cc:26-55 | the first n odd primes are n increasing primes >= 3 with no odd prime missing below the last one |
| PairSumsSpec.FirstOddPrimesPrefix | 2025-12.cc:35-52 | any bound with at least n odd primes below it gives the same first n, so the bound the retry loop reaches does not matter |
| PairSumsSpec.RowCountIsPrimesAbove | 2025-12.cc:79-86 | for an odd prime p, the prime sums p + 2, ..., p + 2k are exactly the primes of (p, p + 2k] |
| PairSumsSpec.PartnersAreRowCount | 2025-12.cc:164-173 | the primes the window counts for the j-th odd prime are its brute-force row |
| PairSumsSpec.WindowTotalIsPartnerTotal | 2025-12.cc:164-173 | summing, per prime, the earlier primes among the first n within 2n below it counts the same pairs as summing, per small prime, the primes within 2n above it |
| PairSumsSpec.PartnerTotalIsPrimeSumCount | 2025-12.cc:67-89 | row by row, the partner counts of the first k odd primes equal the brute-force counts |
| PairSumsSpec.WindowTotalIsF | 2025-12.cc:154-175 | the sliding-window total over all odd primes up to the largest sum is f(n) |
| PairSums.TakeFirst | 2025-12.cc:36-40 | the range-for with `break` keeps the first n primes of the table, or all of them when there are fewer or n is 0 |
| PairSums.FirstNOddPrimes | 2025-12.cc:27-55 | `getFirstNOddPrimes(n)` returns the first n odd primes for n >= 1; for n = 0 it returns every odd prime up to the first bound |
| PairSums.FirstNEvenIntegers | 2025-12.cc:58-65 | `getFirstNEvenIntegers(n)` returns 2, 4, ..., 2n |
| PairSums.CountRow | 2025-12.cc:80-85 | the inner loop counts the e of the list with p + e prime, using sieve queries that stay inside the table |
| PairSums.BruteForce | 2025-12.cc:67-89 | `bruteForce(n)` is f(n): the number of pairs, one of the first n odd primes and one of the first n even numbers, whose sum is prime |
| PairSums.AdvanceLeft | 2025-12.cc:167-169 | the window start only moves forward, stays at most min(i, n), and ends at the first of the first n primes within 2n below primes[i] |
| PairSums.SlideWindow | 2025-12.cc:163-173 | the loop's count is the window total: for each prime, the primes among the first min(i, n) within 2n below it |
| PairSums.Solve | 2025-12.cc:154-175 | `solve(n)` equals f(n), and so equals `bruteForce(n)` |
| PairSumsTests.FirstOddPrimesFive | 2025-12.cc:91-99 | the first five odd primes are 3, 5, 7, 11, 13 |
| PairSumsTests.FirstEvenIntegersFive | 2025-12.cc:101-109 | the first five even numbers are 2, 4, 6, 8, 10 |
| PairSumsTests.BruteForceSmall | 2025-12.cc:111-144 | `bruteForce` gives 1, 3, 6, 11, 16 for n = 1 to 5 |
| PairSumsTests.SolveF5 | 2025-12.cc:177 | `solve(5)` is 16 |
| SplitSumsSpec.ValueOfDigits | 2026-01.cc:35-42 | reading the decimal digits back gives n |
| SplitSumsSpec.MaskSumsAreSplitSet | 2026-01.cc:43-56 | the sums over the 2^(d-1) cut patterns (bit i of the mask joins digits i and i + 1) are exactly the sums over all ways to cut the digit string |
| SplitSumsSpec.FirstOffersAt | 2026-01.cc:43-45 | the i-th sum the mask loop offers is that of cut pattern 2^(d-1) - 1 - i |
| SplitSumsSpec.MaskOrderIsSplitSet | 2026-01.cc:43-60 | the list of all pattern sums, in the loop's order, holds exactly the split sums |
| SplitSumsSpec.ShiftedContains | 2026-01.cc:65-82 | n is in A of n followed by k zeros, since cutting off the zeros leaves n |
| SplitSumsSpec.AnswersSpec | 2026-01.cc:169-191 | x is an answer for N iff some 1 <= n <= N and a in A_n give x = n * a with n in A_x |
| SplitSums.DigitsOf | 2026-01.cc:34-42 | the digits collected least significant first and reversed are the decimal digits of n |
| SplitSums.GenSplits | 2026-01.cc:43-61 | the mask loop offers one sum per cut pattern, in the order 2^(d-1) - 1 down to 0, and only split sums. It returns true iff the callback accepts some split sum, and stops right after the first accepted value. When it returns false it has offered all 2^(d-1) patterns, and so every split sum |
| SplitSums.CutLoop | 2026-01.cc:44-56 | one pass of the inner loop adds the parts cut by the mask, ends with `sum == 0`, and its total is a split sum |
| SplitSums.GenAn | 2026-01.cc:33-62 | on the decimal digits of n, `genAn` offers the sum of each cut pattern once, in the order 2^(d-1) - 1 down to 0, and every value offered is in A_n. It returns true iff the callback accepts some element of A_n, and stops at the first accepted value. When it returns false it has offered all 2^(d-1) patterns, and so every element of A_n |
| SplitSums.PushAnswers | 2026-01.cc:130-137 | run on each offered a in turn, the callback of `solve` pushes exactly the products n * a with n in A_(n*a) |
| SplitSums.FastPath | 2026-01.cc:65-82 | the shortcut holds iff x = n * 10^k for some 0 <= k <= 7 |
| SplitSums.AxContains | 2026-01.cc:64-87 | `AxContains(x, n)` is true iff n is in A_x |
| SplitSums.SplitSums | 2026-01.cc:161-167 | the accumulator callback collects exactly A_n |
| SplitSums.TryAll | 2026-01.cc:174-183 | the loop over A_n adds each n * a with n in A_(n*a) to the set of answers |
| SplitSums.AddAnswersOf | 2026-01.cc:171-183 | one round of `bruteForce`'s outer loop adds exactly the answers of n |
| SplitSums.BruteForce | 2026-01.cc:169-191 | the set `bruteForce(N)` accumulates is exactly the answer set, and the result is the sum of its elements |
| SplitSums.AnswersFor | 2026-01.cc:129-139 | the callback of one n in `solve` pushes exactly the answers of n |
| SplitSums.RunThread | 2026-01.cc:128-140 | thread id collects the answers of id + 1, id + 1 + T, ... up to N |
| SplitSums.ThreadsCover | 2026-01.cc:127-141 | the T threads together visit every n in [1, N] |
| SplitSums.UnionIsAnswers | 2026-01.cc:146-157 | the union of the per-n answers is the answer set |
| SplitSums.Merge | 2026-01.cc:146-157 | the de-duplicating merge sums each distinct answer of all threads once |
| SplitSums.MergeList | 2026-01.cc:148-155 | merging one thread's list adds exactly its elements to the set of distinct answers, and the total stays the sum of that set |
| SplitSums.Solve | 2026-01.cc:123-158 | `solve(N, T)` with T >= 1 threads is the sum of the answer set, the same as `bruteForce(N)`; with no threads it is 0 |
| SplitSumsTests.Walk123 | 2026-01.cc:91-92 | `genAn(123)` offers exactly {6, 15, 24, 123} |
| SplitSumsTests.Walk31658 | 2026-01.cc:94-95 | `genAn(31658)` offers exactly the fifteen listed sums |
| SplitSumsTests.Contains123 | 2026-01.cc:97-102 | the `AxContains` expectations for x = 123 hold |
| SplitSumsTests.Contains31658 | 2026-01.cc:104-120 | all seventeen `AxContains` expectations for x = 31658 hold: the fifteen listed split sums are in A_31658, and 31659 and 31657 are not |
| SplitSumsTests.SolveMatchesBruteForce | 2026-01.cc:193-197 | `bruteForce(N)` equals `solve(N, 31)` for every N |
| Matrices.Mul | 2025-11.py:36-46 | the product is defined iff the left matrix's row length equals the right's height (and every row read exists); ValueError exactly on the column/row mismatch |
| Matrices.MulLoops | 2025-11.py:36-46 | the triple loop computes the product entry by entry, raising where `__mul__` raises |
| Matrices.IdentityLeft | 2025-11.py:19-22 | the identity matrix is neutral on the left of a product |
| Matrices.IdentityRight | 2025-11.py:28-30 | the identity matrix is neutral on the right of a product |
| Matrices.ZeroLeft | 2025-11.py:32-34 | the zero matrix absorbs a product on the left |
| Matrices.MulSquare | 2025-11.py:118-120 | two square matrices of the same positive size always multiply, giving a square matrix |
| LocateTests.Multiplication | 2025-11.py:61-66 | the two products of `test_multiplication` |
| LocateTests.MismatchedShapes | 2025-11.py:37-38 | a 1x2 times a 1x2 matrix raises ValueError |
| Substitution.LastIndexSpec | 2025-11.py:104-107 | the id of a character is the position of its last rule, and 0 for a character without a rule |
| Substitution.LookupSpec | 2025-11.py:105-108 | the dictionary has a key iff some rule rewrites it, takes the last such rule's replacement, and raises KeyError otherwise |
| Substitution.RewriteIsStep | 2025-11.py:160 | one round rewrites every character by its replacement when all have rules, and raises KeyError otherwise |
| Substitution.RewriteLoop | 2025-11.py:160 | the join over the characters computes one round |
| Substitution.ExpandIsExp | 2025-11.py:159-160 | n rounds of rewriting succeed on closed rules and give the n-fold expansion |
| Substitution.BruteForce | 2025-11.py:144-162 | `bruteforce` is n rounds of rewriting |
| Substitution.ExpConcat | 2025-11.py:160 | the expansion of a concatenation is the concatenation of the expansions |
| Substitution.ExpCompose | 2025-11.py:159-160 | a + b rounds are a rounds followed by b rounds |
| Substitution.AfterPeriodic | 2025-11.py:85-86 | once the walk of first characters returns to c after a period, any number of rounds from c can be reduced modulo the period |
| Substitution.CycleShortcut | 2025-11.py:85-86 | when the walk meets a seen character, reducing the remaining rounds modulo the cycle length keeps the result |
| Substitution.FindFirstChar | 2025-11.py:76-89 | `find_first_char` ends on the character reached by following first characters n times from s0[0], raising IndexError on an empty string, IndexError on an empty replacement and KeyError on a character without a rule |
| Substitution.ExpFirst | 2025-11.py:76-89 | under non-erasing rules, the first character after k rounds is where the walk of first characters ends |
| Locate.CensusSum | 2025-11.py:121 | the counts of the ids of a string add up to its length |
| Locate.CensusStep | 2025-11.py:120 | multiplying the id counts of a string by the counting matrix gives the id counts after one round |
| Locate.PowerRow | 2025-11.py:117-121 | row id(c) of the k-th power of the counting matrix counts the ids of c's k-round expansion |
| Locate.LevelsExact | 2025-11.py:117-121 | every table entry `lens[k][id(c)]` is the length of c after k rounds |
| Locate.FirstPassSpec | 2025-11.py:119-123 | the table loop stops at the first level that passes the test, and runs to n + 1 when none does |
| Locate.StopLevelSpec | 2025-11.py:117-123 | the last level computed passes the stop test when it is at most n, and no earlier level passes |
| Locate.Pick | 2025-11.py:132-137 | the inner loop of the descent picks the character whose block holds p and makes p relative to that block |
| Locate.LevelSumIsLength | 2025-11.py:131 | the sum the descent asserts against is the expansion length of the current string |
| Locate.PickInExp | 2025-11.py:132-137 | position p of the expansion is position q of the picked character's replacement expanded one round less |
| Locate.DescendInside | 2025-11.py:131-138 | a round of the descent whose position is inside the row total lands, after the remaining rounds, on the character at that position of the expansion |
| Locate.DescendCorrect | 2025-11.py:130-139 | on an exact table the descent returns the character at p of the expansion, and fails its assertion exactly when p is past the end |
| Locate.ExpStartsWith | 2025-11.py:125-128 | the expansion of s0 after n rounds starts with the expansion, after k rounds, of the character reached by the first-character walk of n - k rounds |
| Locate.SkipBound | 2025-11.py:122-128 | with the strict test, the character the reduction jumps to has an expansion longer than p |
| Locate.ZeroRowStays | 2025-11.py:117-121 | a character whose rule erases it has an all-zero row in every power of the counting matrix |
| Locate.ErasingNeverStops | 2025-11.py:117-123 | when some rule erases its character, its length is 0 at every level, so the table never stops early and runs to n + 1 |
| Locate.SolveIsBruteForce | 2025-11.py:91-141 | for closed rules and non-empty s0, erasing rules included, the corrected `solve` returns character p of `bruteforce`'s string when p is inside it, and fails the assertion otherwise |
| Locate.AsWrittenCounts | 2025-11.py:109-115 | the 0/1 matrix the source builds equals the counting matrix when rules are for distinct characters, closed, and no replacement repeats a character |
| Locate.SolveAsWrittenAgrees | 2025-11.py:109-123 | under those conditions, `solve` as written and the corrected `solve` agree whenever the `>= p` and `> p` tests stop the table at the same level |
| Locate.ShortNeverStops | 2025-11.py:117-123 | if some character's expansion stays shorter than p for n rounds, neither stop test ever passes and the table runs to n + 1 |
| Locate.FirstLevelStops | 2025-11.py:117-123 | if every replacement is long enough for the test, the table stops at level 1 |
| Locate.StopsAt | 2025-11.py:117-123 | with one rule per character, if some character's expansion fails the test at every level before k and every rule's character passes it at level k, the table stops at level k |
| Locate.SolveAsWrittenNear | 2025-11.py:109-141 | when the `>= p` table reaches round n, `solve` as written returns character p of `bruteforce`'s string when p is inside it, and fails the assertion otherwise |
| Locate.SolveAsWrittenFar | 2025-11.py:109-141 | when the `>= p` table stops at a level top before round n, `solve` as written jumps to the character c the first-character walk reaches after n - top rounds, and returns character p of `bruteforce`'s string exactly when p is inside c's expansion after top rounds; otherwise its assertion fails |
| Locate.JumpDescent | 2025-11.py:125-139 | the descent from the character jumped to reads the expansion of s0 at p when p is inside that character's expansion, and fails its assertion otherwise |
| LocateTests.CatExpansion | 2025-11.py:190-191 | `bruteforce(CAT_TRANS, "CAT", 3)` is "TGCCACATCATTG" |
| LocateTests.CatPosition | 2025-11.py:183-194 | the corrected `solve(CAT_TRANS, "CAT", 3, p)` is character p of "TGCCACATCATTG" for every p below 13, so positions 12, 5, 6, 7 hold G, C, A, T |
| LocateTests.CatGoogol | 2025-11.py:188 | the corrected `solve(CAT_TRANS, "CAT", 10**100, 0)` is "C" |
| LocateTests.CatStopLevelAsWritten | 2025-11.py:117-123 | on CAT_TRANS with 3 rounds, the `>= p` table stops at level 1 for p <= 1, at level p for p = 2 and 3, and runs to level 4 from p = 4 on |
| LocateTests.CatPositionAsWritten | 2025-11.py:183-194 | `solve` as written, which the tests call, returns character p of "TGCCACATCATTG" for every p < 13 (so positions 12, 5, 6, 7 hold G, C, A, T, and p = 0..12 agree with `bruteforce`), and fails its assertion beyond |
| LocateTests.CatGoogolAsWritten | 2025-11.py:188 | `solve` as written on (CAT_TRANS, "CAT", 10**100, 0) returns "C" |
| LocateTests.CatFirstChar | 2025-11.py:76-89 | `find_first_char` on "CAT" after 10**100 rounds ends on "C" |
| LocateFindings.DoublingAsWritten | 2025-11.py:112-115 | with the rule A -> AA, one round from "A" gives "AA", but `solve` as written fails its assertion on position 1 |
| LocateFindings.DoublingFixed | 2025-11.py:91-141 | the corrected `solve` returns "A" at that position |
| LocateFindings.FibonacciAsWritten | 2025-11.py:122-128 | with A -> B and B -> AB, two rounds from "B" give "BAB", but `solve` as written fails its assertion on position 1 |
| LocateFindings.FibonacciFixed | 2025-11.py:91-141 | the corrected `solve` returns "A" at that position |

## Left out

- Threads and OpenMP. The second sieve pass and the per-thread partition of `solve` in 2026-01.cc are modelled sequentially. Marking is idempotent, so pass order does not matter. The thread partition is kept as a sequence of per-thread answer lists.
- Floating point. The `std::sqrt` guesses in prime_number_gen.cc are replaced by an integer square root from an over-guess. The `n * log(n) * 2` first bound of `getFirstNOddPrimes` becomes a parameter of at least 100.
- Machine integers. Everything is unbounded; no 64-bit or `int` overflow is modelled. This covers `uint64_t` sums and products, `1 << (nd - 1)` and the 20-digit buffer of `genAn`, and the `int` loop counters of `solve`.
- The word-packed bit array of the prime table is modelled as one boolean per index. `new`/`memset`/`delete` are left out, and prime_number_gen.h is not part of this model.
- Logging, printing, gflags, gtest/benchmark harnesses, `main`, and `Matrix.__str__`/`__repr__` are left out.
- The counting tests (168 primes below 1000, 9592 below 100000) are left out. The large CAT and RABBIT tests are also left out, as is `test_large_power`. Those tests call `solve` as written. Locate.SolveIsBruteForce is about the corrected `solve`, and Locate.SolveAsWrittenAgrees carries it over only when the two stop tests stop the table at the same level. The CAT and RABBIT rules meet the hypotheses of Locate.SolveAsWrittenNear and Locate.SolveAsWrittenFar. Those lemmas reduce each large case to the brute-force string when the table reaches round n. Otherwise they reduce it to the condition p < Length(c, top), for the stop level top and the character c that the first-character walk reaches. That condition is not discharged for the n and p of those tests.
- `Matrix(Matrix)` is left out. It is an aliasing copy with no behaviour of its own.
- The 256-entry `ord` table of `solve` is modelled as a lookup over all characters. The IndexError Python raises for a character code of 256 or more is not modelled.
- `std::function` callbacks are modelled as functions `nat -> bool`. Side effects of a callback are modelled by the values it was offered.
- Sieve.Construct: the model allocates `high + 2` slots, where the source allocates `high / 64 + 2` words. Both include the sentinel slot `high + 1`.
- PairSums.BruteForce, PairSums.Solve: these require n >= 1. For n = 0 the source reads `back()` of an empty vector.
- SplitSums.GenAn: this requires n >= 1. For n = 0 the source shifts by -1.
- SplitSums.AxContains: this requires x >= 1 and n >= 1. For n = 0 the source divides by zero, and x = 0 reaches `genAn(0)`.
- Sieve.Construct: the object's address, which `operator==` compares, is a parameter `id`. Allocation, and so distinct addresses for distinct objects, is not modelled.
- PairSums.FirstNOddPrimes: for n = 0 the source's first bound `n * log(n) * 2` is NaN, and converting it to `uint64_t` is undefined. The n = 0 clause of the contract describes only the model, where the bound is a parameter.
- Sieve.IntSqrt: this requires an over-guess (n < (guess + 1)^2). The source's floating-point guess plus 2 is assumed to be one.
- Locate.SolveIsBruteForce: this requires closed rules and a non-empty s0. Closed means every character a rule produces has a rule of its own. A character without a rule reads row 0 of the table through the `id_map` default of 0. `bruteforce` raises KeyError once it meets such a character, and so does `solve` when its descent or its first-character walk does. The theorem also leaves out inputs whose rule-less character is never reached from s0, such as the rules A -> "A" and B -> "C" from "A". There both `solve` and `bruteforce` succeed and agree. With an empty s0 the source raises IndexError or fails an assertion. The theorem is not stated for any of these inputs. Negative p is not modelled, since p is a `nat`.
- Locate.Solve: when the rules list a character twice, the corrected counting matrix keeps a row for the overridden rule. The source's 0/1 matrix leaves that row empty, so the two can stop the table at different levels. Locate.AsWrittenCounts therefore requires distinct characters.
- The source comment of 2026-01.cc lists A_123 as {15, 24, 123}. The code and its test include 6, the sum of the digits, and the model follows the code.

## Findings

| source | as written | input that shows it | evidently intended | confidence | as-written member | corrected member |
|---|---|---|---|---|---|---|
| 2025-11.py:112-115 | the transition matrix gets a 1 for each link, so a replacement that repeats a character is counted once | rules (A -> AA), s0 = "A", n = 1, p = 1: `bruteforce` gives "AA", but the table gives A length 1 and the descent's assertion fails | entry (i, j) counts the characters with id j in the replacement of rule i, so row sums of powers are expansion lengths | not executed | LocateFindings.DoublingAsWritten | LocateFindings.DoublingFixed |
| 2025-11.py:122 | the table stops once every length is `>= p`, and the rounds before it are replaced by the first-character walk | rules (A -> B, B -> AB), s0 = "B", n = 2, p = 1: level 1 has lengths 1 and 2, the walk jumps to "A" of length 1, and the assertion fails although "BAB"[1] is "A" | the stop test is `> p`, so the character jumped to has an expansion long enough to hold position p | not executed | LocateFindings.FibonacciAsWritten | LocateFindings.FibonacciFixed |

=== FILE: locate.dfy ===
/** `solve` of 2025-11.py: the character at position `p` after `n` rounds,
    found without building the string. Row `i` of the `k`-th power of the
    transition matrix sums to the length of character `i`'s expansion after
    `k` rounds; the solver tabulates those lengths, skips the rounds that only
    move the first character, and then descends one round at a time into
    the character whose expansion holds position `p`. */
module Locate {
  import opened Wrappers
  import opened Matrices
  import opened Substitution

  /** How many characters of `s` have id `j`. */
  function Count(rules: Rules, s: string, j: nat): nat {
    if |s| == 0 then 0
    else (if Index(rules, s[0]) == j then 1 else 0) + Count(rules, s[1..], j)
  }

  /** The numbers of characters of `s` with each id. */
  function Census(rules: Rules, s: string): (v: seq<int>)
    ensures |v| == |rules|
  {
    seq(|rules|, j requires 0 <= j < |rules| => Count(rules, s, j))
  }

  /** The transition matrix with multiplicities: entry `(i, j)` counts the
      characters with id `j` in the replacement of rule `i`. */
  function Transitions(rules: Rules): (m: Matrix)
    ensures Shape(m, |rules|, |rules|)
  {
    seq(|rules|, i requires 0 <= i < |rules| => Census(rules, rules[i].to))
  }

  /** Some rule for a character with id `i` produces a character with id `j`. */
  predicate Linked(rules: Rules, i: nat, j: nat) {
    exists r, k :: 0 <= r < |rules| && 0 <= k < |rules[r].to| &&
      Index(rules, rules[r].from) == i && Index(rules, rules[r].to[k]) == j
  }

  /** The matrix the source builds: a one wherever a link exists, whatever
      the number of such characters. */
  function TransitionsAsWritten(rules: Rules): (m: Matrix)
    ensures Shape(m, |rules|, |rules|)
  {
    seq(|rules|, i requires 0 <= i < |rules| =>
      seq(|rules|, j requires 0 <= j < |rules| => if Linked(rules, i, j) then 1 else 0))
  }

  /** `ma` after `k` rounds of `ma = ma * A`. */
  function Power(adj: Matrix, k: nat): (m: Matrix)
    requires |adj| >= 1 && Shape(adj, |adj|, |adj|)
    ensures Shape(m, |adj|, |adj|)
  {
    if k == 0 then Identity(|adj|)
    else
      MulSquare(Power(adj, k - 1), adj, |adj|);
      Times(Power(adj, k - 1), adj)
  }

  /** `lens[0..k]`: row sums of the first `k + 1` powers. */
  function Levels(adj: Matrix, k: nat): (lens: seq<seq<int>>)
    requires |adj| >= 1 && Shape(adj, |adj|, |adj|)
    ensures |lens| == k + 1
    ensures forall t :: 0 <= t <= k ==> |lens[t]| == |adj|
  {
    seq(k + 1, t requires 0 <= t <= k => RowSums(Power(adj, t)))
  }

  /** The stop test on a fresh row of lengths: every length reaches `p`
      (`>= p`, as written) or passes it (`> p`). */
  predicate AllAbove(row: seq<int>, p: nat, strict: bool) {
    forall t :: 0 <= t < |row| ==> if strict then row[t] > p else row[t] >= p
  }

  /** Level `t` of the table passes the stop test. */
  predicate Passes(adj: Matrix, t: nat, p: nat, strict: bool) {
    |adj| >= 1 && Shape(adj, |adj|, |adj|) && AllAbove(RowSums(Power(adj, t)), p, strict)
  }

  /** The first of the levels `k` to `n` that passes, and `n + 1` when none does. */
  function FirstPass(pass: nat -> bool, n: nat, k: nat): (top: nat)
    requires 1 <= k <= n + 1
    ensures k <= top <= n + 1
    decreases n + 1 - k
  {
    if pass(k) || k == n + 1 then k else FirstPass(pass, n, k + 1)
  }

  lemma {:induction false} FirstPassSpec(pass: nat -> bool, n: nat, k: nat)
    requires 1 <= k <= n + 1
    ensures FirstPass(pass, n, k) <= n ==> pass(FirstPass(pass, n, k))
    ensures forall t :: k <= t < FirstPass(pass, n, k) ==> !pass(t)
    decreases n + 1 - k
  {
    if !(pass(k) || k == n + 1) {
      FirstPassSpec(pass, n, k + 1);
    }
  }

  /** The last level the table loop computes, trying levels `k` to `n + 1`. */
  function StopLevel(adj: Matrix, n: nat, p: nat, strict: bool, k: nat): (top: nat)
    requires |adj| >= 1 && Shape(adj, |adj|, |adj|)
    requires 1 <= k <= n + 1
    ensures k <= top <= n + 1
  {
    FirstPass((t: nat) => Passes(adj, t, p, strict), n, k)
  }

  /** The table loop stops at the first level that passes the test, and runs
      to level `n + 1` when none does. */
  lemma StopLevelSpec(adj: Matrix, n: nat, p: nat, strict: bool, k: nat)
    requires |adj| >= 1 && Shape(adj, |adj|, |adj|)
    requires 1 <= k <= n + 1
    ensures var top := StopLevel(adj, n, p, strict, k);
      && (top <= n ==> AllAbove(RowSums(Power(adj, top)), p, strict))
      && forall t :: k <= t < top ==> !AllAbove(RowSums(Power(adj, t)), p, strict)
  {
    var pass := (t: nat) => Passes(adj, t, p, strict);
    FirstPassSpec(pass, n, k);
    var top := FirstPass(pass, n, k);
    assert top <= n ==> pass(top);
    forall t | k <= t < top
      ensures !AllAbove(RowSums(Power(adj, t)), p, strict)
    {
      assert !pass(t);
    }
  }

  /** `sum(lens[n][get_id(ch)] for ch in s)`. */
  function LevelSum(rules: Rules, row: seq<int>, s: string): int
    requires |rules| >= 1 && |row| == |rules|
  {
    if |s| == 0 then 0 else row[Index(rules, s[0])] + LevelSum(rules, row, s[1..])
  }

  /** The inner `for` loop of the descent: the position in `s` of the
      character whose block holds `p`, and `p` made relative to that block. */
  function Pick(rules: Rules, row: seq<int>, s: string, p: nat): (r: (nat, nat))
    requires |rules| >= 1 && |row| == |rules|
    requires p < LevelSum(rules, row, s)
    ensures r.0 < |s| && r.1 < row[Index(rules, s[r.0])]
    ensures p == LevelSum(rules, row, s[..r.0]) + r.1
  {
    if p < row[Index(rules, s[0])] then
      assert s[..0] == [];
      (0, p)
    else
      var (i, q) := Pick(rules, row, s[1..], p - row[Index(rules, s[0])]);
      assert s[..i + 1][0] == s[0] && s[..i + 1][1..] == s[1..][..i];
      (i + 1, q)
  }

  /** Every row of the table is indexed by character ids. */
  predicate Table(rules: Rules, lens: seq<seq<int>>) {
    |rules| >= 1 && forall k :: 0 <= k < |lens| ==> |lens[k]| == |rules|
  }

  /** The descent (`while n > 0`) and the final `s0[p]`, with the source's
      two assertions. */
  function Descend(rules: Rules, lens: seq<seq<int>>, s: string, n: nat, p: nat): Result<char>
    requires Table(rules, lens) && n < |lens|
    decreases n
  {
    if n == 0 then
      if p < |s| then Ok(s[p]) else Err(AssertionError)
    else if p >= LevelSum(rules, lens[n], s) then Err(AssertionError)
    else
      var (i, q) := Pick(rules, lens[n], s, p);
      var img :- Lookup(rules, s[i]);
      Descend(rules, lens, img, n - 1, q)
  }

  /** `solve` with the transition matrix and the stop test as parameters. */
  function SolveWith(rules: Rules, s0: string, n: nat, p: nat, adj: Matrix, strict: bool): Result<char>
    requires Shape(adj, |rules|, |rules|)
  {
    if |rules| == 0 then Err(IndexError)
    else
      var top := StopLevel(adj, n, p, strict, 1);
      var lens := Levels(adj, top);
      if n >= top + 1 then
        if |s0| == 0 then Err(IndexError)
        else
          var c :- FirstCharAfter(rules, s0[0], n - top);
          Descend(rules, lens, [c], top, p)
      else Descend(rules, lens, s0, n, p)
  }

  /** `solve` as written: a 0/1 transition matrix and the `>= p` stop test. */
  function SolveAsWritten(rules: Rules, s0: string, n: nat, p: nat): Result<char> {
    SolveWith(rules, s0, n, p, TransitionsAsWritten(rules), false)
  }

  /** `solve` as intended: multiplicities in the matrix and a strict stop test. */
  function Solve(rules: Rules, s0: string, n: nat, p: nat): Result<char> {
    SolveWith(rules, s0, n, p, Transitions(rules), true)
  }

  // ---------------------------------------------------------------------
  // The transition matrix counts expansion lengths.

  lemma {:induction false} CountConcat(rules: Rules, a: string, b: string, j: nat)
    ensures Count(rules, a + b, j) == Count(rules, a, j) + Count(rules, b, j)
  {
    if |a| > 0 {
      assert (a + b)[0] == a[0] && (a + b)[1..] == a[1..] + b;
      CountConcat(rules, a[1..], b, j);
    } else {
      assert a + b == b;
    }
  }

  /** The census of one more character adds a row of the identity. */
  lemma CensusCons(rules: Rules, s: string)
    requires |rules| >= 1 && |s| >= 1
    ensures forall j :: 0 <= j < |rules| ==>
              Census(rules, s)[j] == Identity(|rules|)[Index(rules, s[0])][j] + Census(rules, s[1..])[j]
  {
  }

  /** Row sums of a census count the characters. */
  lemma {:induction false} CensusSum(rules: Rules, s: string)
    requires |rules| >= 1
    ensures Sum(Census(rules, s)) == |s|
  {
    var n := |rules|;
    if |s| == 0 {
      assert Census(rules, s) == seq(n, t => 0);
      SumZeros(n);
    } else {
      CensusCons(rules, s);
      CensusSum(rules, s[1..]);
      SumAdd(Identity(n)[Index(rules, s[0])], Census(rules, s[1..]), Census(rules, s));
      SumUnit(n, Index(rules, s[0]), n);
      assert Identity(n)[Index(rules, s[0])][..n] == Identity(n)[Index(rules, s[0])];
    }
  }

  /** A census times the transition matrix is the census one round later. */
  lemma {:induction false} CensusStep(rules: Rules, s: string, j: nat)
    requires |rules| >= 1 && j < |rules| && Covers(rules, s)
    ensures Dot(Census(rules, s), Transitions(rules), j, |rules|) == Count(rules, Step(rules, s), j)
  {
    var n := |rules|;
    var adj := Transitions(rules);
    if |s| == 0 {
      assert Census(rules, s) == seq(n, t => 0);
      DotZeroRow(n, adj, j, n);
    } else {
      var i := Index(rules, s[0]);
      assert Covers(rules, s[1..]) by {
        assert forall k :: 0 <= k < |s| - 1 ==> s[1..][k] == s[k + 1];
      }
      CensusCons(rules, s);
      CensusStep(rules, s[1..], j);
      DotAdd(Identity(n)[i], Census(rules, s[1..]), Census(rules, s), adj, j, n);
      DotUnit(n, i, adj, j, n);
      assert Image(rules, s[0]) == rules[i].to;
      CountConcat(rules, Image(rules, s[0]), Step(rules, s[1..]), j);
    }
  }

  // ---------------------------------------------------------------------
  // When the 0/1 matrix is right.

  /** No two rules rewrite the same character. */
  predicate DistinctFroms(rules: Rules) {
    forall a, b :: 0 <= a < b < |rules| ==> rules[a].from != rules[b].from
  }

  /** No replacement holds a character twice. */
  predicate NoRepeats(rules: Rules) {
    forall r, k1, k2 :: 0 <= r < |rules| && 0 <= k1 < k2 < |rules[r].to| ==>
      rules[r].to[k1] != rules[r].to[k2]
  }

  /** With one rule per character, a rule's character has that rule's id. */
  lemma IndexOfRule(rules: Rules, i: nat)
    requires DistinctFroms(rules) && i < |rules|
    ensures Index(rules, rules[i].from) == i
  {
    LastIndexSpec(rules, rules[i].from, |rules|);
  }

  /** Characters that have rules have distinct ids. */
  lemma IndexInjective(rules: Rules, c: char, d: char)
    requires Defined(rules, c) && Defined(rules, d) && Index(rules, c) == Index(rules, d)
    ensures c == d
  {
  }

  /** A character with id `j` is counted exactly when one occurs. */
  lemma {:induction false} CountPositive(rules: Rules, s: string, j: nat)
    ensures Count(rules, s, j) > 0 <==> exists k :: 0 <= k < |s| && Index(rules, s[k]) == j
  {
    if |s| > 0 {
      CountPositive(rules, s[1..], j);
      if exists k :: 0 <= k < |s| && Index(rules, s[k]) == j {
        var k :| 0 <= k < |s| && Index(rules, s[k]) == j;
        if k > 0 {
          assert s[1..][k - 1] == s[k];
        }
      }
      if exists k :: 0 <= k < |s| - 1 && Index(rules, s[1..][k]) == j {
        var k :| 0 <= k < |s| - 1 && Index(rules, s[1..][k]) == j;
        assert s[k + 1] == s[1..][k];
      }
    }
  }

  /** A string of distinct characters that all have rules counts each id at
      most once. */
  lemma {:induction false} CountAtMostOne(rules: Rules, s: string, j: nat)
    requires Covers(rules, s)
    requires forall k1, k2 :: 0 <= k1 < k2 < |s| ==> s[k1] != s[k2]
    ensures Count(rules, s, j) <= 1
  {
    if |s| > 0 {
      var t := s[1..];
      assert Covers(rules, t) by {
        assert forall k :: 0 <= k < |t| ==> t[k] == s[k + 1];
      }
      assert forall k1, k2 :: 0 <= k1 < k2 < |t| ==> t[k1] == s[k1 + 1] && t[k2] == s[k2 + 1];
      CountAtMostOne(rules, t, j);
      if Index(rules, s[0]) == j && Count(rules, t, j) > 0 {
        CountPositive(rules, t, j);
        var k :| 0 <= k < |t| && Index(rules, t[k]) == j;
        assert t[k] == s[k + 1];
        IndexInjective(rules, s[0], t[k]);
        assert false;
      }
    }
  }

  /** A link from id `i` to id `j` is a character with id `j` in rule `i`. */
  lemma LinkedInRule(rules: Rules, i: nat, j: nat)
    requires DistinctFroms(rules) && i < |rules|
    ensures Linked(rules, i, j) <==> exists k :: 0 <= k < |rules[i].to| && Index(rules, rules[i].to[k]) == j
  {
    IndexOfRule(rules, i);
    if Linked(rules, i, j) {
      var r, k :| 0 <= r < |rules| && 0 <= k < |rules[r].to| &&
        Index(rules, rules[r].from) == i && Index(rules, rules[r].to[k]) == j;
      IndexOfRule(rules, r);
    }
  }

  /** With one rule per character, closed rules and no character repeated
      in a replacement, the 0/1 matrix the source builds is the matrix of
      multiplicities. */
  lemma AsWrittenCounts(rules: Rules)
    requires DistinctFroms(rules) && Closed(rules) && NoRepeats(rules)
    ensures TransitionsAsWritten(rules) == Transitions(rules)
  {
    var n := |rules|;
    forall i, j | 0 <= i < n && 0 <= j < n
      ensures TransitionsAsWritten(rules)[i][j] == Transitions(rules)[i][j]
    {
      var to := rules[i].to;
      assert Covers(rules, to);
      LinkedInRule(rules, i, j);
      CountPositive(rules, to, j);
      CountAtMostOne(rules, to, j);
      assert Transitions(rules)[i][j] == Count(rules, to, j);
    }
    SameEntries(TransitionsAsWritten(rules), Transitions(rules), n, n);
  }

  /** Row `id(c)` of the `k`-th power is the census of `c`'s expansion. */
  lemma {:induction false} PowerRow(rules: Rules, c: char, k: nat)
    requires Closed(rules) && Defined(rules, c)
    ensures |rules| >= 1 && Covers(rules, [c])
    ensures Power(Transitions(rules), k)[Index(rules, c)] == Census(rules, Exp(rules, [c], k))
  {
    if k == 0 {
      PowerRowBase(rules, c);
    } else {
      PowerRow(rules, c, k - 1);
      PowerRowStep(rules, c, k);
    }
  }

  lemma PowerRowBase(rules: Rules, c: char)
    requires Closed(rules) && Defined(rules, c)
    ensures |rules| >= 1 && Covers(rules, [c])
    ensures Power(Transitions(rules), 0)[Index(rules, c)] == Census(rules, Exp(rules, [c], 0))
  {
    assert Covers(rules, [c]);
    UnitCensus(rules, c);
  }

  /** A one-character word has a single character, of its own id. */
  lemma UnitCensus(rules: Rules, c: char)
    requires Defined(rules, c)
    ensures Identity(|rules|)[Index(rules, c)] == Census(rules, [c])
  {
    var n := |rules|;
    var i := Index(rules, c);
    assert [c][1..] == [];
    forall j | 0 <= j < n
      ensures Identity(n)[i][j] == Census(rules, [c])[j]
    {
      assert Count(rules, [c], j) == (if i == j then 1 else 0) + Count(rules, [], j);
    }
  }

  lemma PowerRowStep(rules: Rules, c: char, k: nat)
    requires Closed(rules) && Defined(rules, c) && k >= 1
    requires |rules| >= 1 && Covers(rules, [c])
    requires Power(Transitions(rules), k - 1)[Index(rules, c)] == Census(rules, Exp(rules, [c], k - 1))
    ensures Power(Transitions(rules), k)[Index(rules, c)] == Census(rules, Exp(rules, [c], k))
  {
    var n := |rules|;
    var adj := Transitions(rules);
    var i := Index(rules, c);
    var prev := Exp(rules, [c], k - 1);
    ExpLast(rules, [c], k - 1);
    MulSquare(Power(adj, k - 1), adj, n);
    forall j | 0 <= j < n
      ensures Power(adj, k)[i][j] == Census(rules, Exp(rules, [c], k))[j]
    {
      CensusStep(rules, prev, j);
    }
  }

  /** The length of `c`'s expansion after `k` rounds. */
  ghost function Length(rules: Rules, c: char, k: nat): nat
    requires Closed(rules) && Defined(rules, c)
  {
    assert Covers(rules, [c]);
    |Exp(rules, [c], k)|
  }

  /** Table rows `0..top` give each character's expansion length. */
  ghost predicate Exact(rules: Rules, lens: seq<seq<int>>, top: nat)
    requires Closed(rules)
  {
    && Table(rules, lens) && top < |lens|
    && forall k, c {:trigger Length(rules, c, k)} :: 0 <= k <= top && Defined(rules, c) ==>
         lens[k][Index(rules, c)] == Length(rules, c, k)
  }

  /** The row sums of the powers of the counting matrix are the expansion
      lengths. */
  lemma LevelsExact(rules: Rules, top: nat)
    requires Closed(rules) && |rules| >= 1
    ensures Exact(rules, Levels(Transitions(rules), top), top)
  {
    var lens := Levels(Transitions(rules), top);
    forall k, c | 0 <= k <= top && Defined(rules, c)
      ensures lens[k][Index(rules, c)] == Length(rules, c, k)
    {
      PowerRow(rules, c, k);
      CensusSum(rules, Exp(rules, [c], k));
      assert lens[k] == RowSums(Power(Transitions(rules), k));
      assert lens[k][Index(rules, c)] == Sum(Power(Transitions(rules), k)[Index(rules, c)]);
    }
  }

  // ---------------------------------------------------------------------
  // The descent finds the character.

  lemma {:induction false} LevelSumIsLength(rules: Rules, lens: seq<seq<int>>, top: nat, s: string, k: nat)
    requires Closed(rules) && Exact(rules, lens, top) && k <= top && Covers(rules, s)
    ensures LevelSum(rules, lens[k], s) == |Exp(rules, s, k)|
  {
    if |s| == 0 {
      ExpEmpty(rules, k);
    } else {
      assert s == [s[0]] + s[1..];
      CoversConcat(rules, [s[0]], s[1..]);
      ExpConcat(rules, [s[0]], s[1..], k);
      LevelSumIsLength(rules, lens, top, s[1..], k);
      assert lens[k][Index(rules, s[0])] == Length(rules, s[0], k);
    }
  }

  /** With an exact table, the descent returns the character at `p`, and
      fails its assertion exactly when `p` is past the end. */
  lemma {:induction false} DescendCorrect(rules: Rules, lens: seq<seq<int>>, top: nat, s: string, n: nat, p: nat)
    requires Closed(rules) && Exact(rules, lens, top) && n <= top && Covers(rules, s)
    ensures Descend(rules, lens, s, n, p) ==
              if p < |Exp(rules, s, n)| then Ok(Exp(rules, s, n)[p]) else Err(AssertionError)
    decreases n, 1
  {
    if n == 0 {
      assert Exp(rules, s, n) == s;
      assert Descend(rules, lens, s, n, p) == if p < |s| then Ok(s[p]) else Err(AssertionError);
    } else {
      LevelSumIsLength(rules, lens, top, s, n);
      if p < LevelSum(rules, lens[n], s) {
        DescendInside(rules, lens, top, s, n, p);
      } else {
        DescendPast(rules, lens, s, n, p);
      }
    }
  }

  /** A round of the descent with `p` inside the expansion lands on the
      character the expansion has at `p`. */
  lemma {:induction false} DescendInside(rules: Rules, lens: seq<seq<int>>, top: nat, s: string, n: nat, p: nat)
    requires Closed(rules) && Exact(rules, lens, top) && 1 <= n <= top && Covers(rules, s)
    requires p < LevelSum(rules, lens[n], s)
    ensures p < |Exp(rules, s, n)|
    ensures Descend(rules, lens, s, n, p) == Ok(Exp(rules, s, n)[p])
    decreases n, 0
  {
    var (i, q) := Pick(rules, lens[n], s, p);
    ImageCovered(rules, s[i]);
    DescendCorrect(rules, lens, top, Image(rules, s[i]), n - 1, q);
    DescendLands(rules, lens, top, s, n, p, i, q);
  }

  /** The round of the descent and the rest of it put together. */
  lemma DescendLands(rules: Rules, lens: seq<seq<int>>, top: nat, s: string, n: nat, p: nat, i: nat, q: nat)
    requires Closed(rules) && Exact(rules, lens, top) && 1 <= n <= top && Covers(rules, s)
    requires p < LevelSum(rules, lens[n], s)
    requires Pick(rules, lens[n], s, p) == (i, q) && i < |s| && Defined(rules, s[i])
    requires Covers(rules, Image(rules, s[i]))
    requires Descend(rules, lens, Image(rules, s[i]), n - 1, q) ==
               if q < |Exp(rules, Image(rules, s[i]), n - 1)| then Ok(Exp(rules, Image(rules, s[i]), n - 1)[q])
               else Err(AssertionError)
    ensures p < |Exp(rules, s, n)|
    ensures Descend(rules, lens, s, n, p) == Ok(Exp(rules, s, n)[p])
  {
    var i', q' := PickInExp(rules, lens, top, s, n, p);
    DescendInto(rules, lens, s, n, p, i, q, Ok(Exp(rules, s, n)[p]));
  }

  lemma DescendPast(rules: Rules, lens: seq<seq<int>>, s: string, n: nat, p: nat)
    requires Table(rules, lens) && 1 <= n < |lens|
    requires p >= LevelSum(rules, lens[n], s)
    ensures Descend(rules, lens, s, n, p) == Err(AssertionError)
  {
  }

  /** One round of the descent, when `p` falls inside the expansion. */
  lemma DescendInto(rules: Rules, lens: seq<seq<int>>, s: string, n: nat, p: nat, i: nat, q: nat, r: Result<char>)
    requires Table(rules, lens) && 1 <= n < |lens|
    requires p < LevelSum(rules, lens[n], s)
    requires Pick(rules, lens[n], s, p) == (i, q) && i < |s| && Defined(rules, s[i])
    requires Descend(rules, lens, Image(rules, s[i]), n - 1, q) == r
    ensures Descend(rules, lens, s, n, p) == r
  {
  }

  /** The block `Pick` chooses: position `p` of the expansion is position
      `q` of the chosen character's replacement expanded one round less. */
  lemma PickInExp(rules: Rules, lens: seq<seq<int>>, top: nat, s: string, n: nat, p: nat)
    returns (i: nat, q: nat)
    requires Closed(rules) && Exact(rules, lens, top) && 1 <= n <= top && Covers(rules, s)
    requires p < LevelSum(rules, lens[n], s)
    ensures Pick(rules, lens[n], s, p) == (i, q)
    ensures i < |s| && Defined(rules, s[i]) && Covers(rules, Image(rules, s[i]))
    ensures p < |Exp(rules, s, n)|
    ensures q < |Exp(rules, Image(rules, s[i]), n - 1)|
    ensures Exp(rules, s, n)[p] == Exp(rules, Image(rules, s[i]), n - 1)[q]
  {
    var r := Pick(rules, lens[n], s, p);
    i, q := r.0, r.1;
    var c := s[i];
    var before, after := s[..i], s[i + 1..];
    assert s == before + [c] + after;
    CoversConcat(rules, before + [c], after);
    CoversConcat(rules, before, [c]);
    ExpConcat(rules, before + [c], after, n);
    ExpConcat(rules, before, [c], n);
    LevelSumIsLength(rules, lens, top, before, n);
    LevelSumIsLength(rules, lens, top, s, n);
    assert lens[n][Index(rules, c)] == Length(rules, c, n);
    ExpSingle(rules, c, n - 1);
    ImageCovered(rules, c);
    assert n - 1 + 1 == n;
  }

  /** The expansion of a string starts with the expansion of the character
      its first-character walk reaches. */
  lemma ExpStartsWith(rules: Rules, s: string, n: nat, k: nat) returns (c: char)
    requires Closed(rules) && Growing(rules) && Covers(rules, s) && |s| >= 1 && k <= n
    ensures FirstCharAfter(rules, s[0], n - k) == Ok(c) && Defined(rules, c)
    ensures Covers(rules, [c])
    ensures |Exp(rules, [c], k)| <= |Exp(rules, s, n)|
    ensures Exp(rules, s, n)[..|Exp(rules, [c], k)|] == Exp(rules, [c], k)
  {
    var m := n - k;
    ExpFirst(rules, s, m);
    var mid := Exp(rules, s, m);
    c := mid[0];
    ExpSplitsAtFirst(rules, s, m, k);
    assert m + k == n;
    var ec := Exp(rules, [c], k);
    assert Exp(rules, s, n) == ec + Exp(rules, mid[1..], k);
    assert Exp(rules, s, n)[..|ec|] == ec;
  }

  /** Expanding in two goes, the second from the first character of the
      intermediate string and from the rest of it. */
  lemma ExpSplitsAtFirst(rules: Rules, s: string, m: nat, k: nat)
    requires Closed(rules) && Covers(rules, s) && |Exp(rules, s, m)| >= 1
    ensures var mid := Exp(rules, s, m); Covers(rules, [mid[0]]) && Covers(rules, mid[1..])
    ensures var mid := Exp(rules, s, m);
      Exp(rules, s, m + k) == Exp(rules, [mid[0]], k) + Exp(rules, mid[1..], k)
  {
    var mid := Exp(rules, s, m);
    assert mid == [mid[0]] + mid[1..];
    CoversConcat(rules, [mid[0]], mid[1..]);
    ExpCompose(rules, s, m, k);
    ExpConcat(rules, [mid[0]], mid[1..], k);
  }

  /** `solve`, corrected, agrees with the brute force on every position:
      the character when `p` is inside the expansion, the assertion failure
      when it is past the end. */
  lemma SolveIsBruteForce(rules: Rules, s0: string, n: nat, p: nat)
    requires Closed(rules) && Covers(rules, s0) && |s0| >= 1
    ensures Expand(rules, s0, n) == Ok(Exp(rules, s0, n))
    ensures Solve(rules, s0, n, p) ==
              if p < |Exp(rules, s0, n)| then Ok(Exp(rules, s0, n)[p]) else Err(AssertionError)
  {
    ExpandIsExp(rules, s0, n);
    assert Defined(rules, s0[0]);
    if !Growing(rules) {
      var t :| 0 <= t < |rules| && |rules[t].to| == 0;
      ErasingNeverStops(rules, n, p, t);
      SolveNear(rules, s0, n, p);
    } else if n >= StopLevel(Transitions(rules), n, p, true, 1) + 1 {
      SolveFar(rules, s0, n, p);
    } else {
      SolveNear(rules, s0, n, p);
    }
  }

  /** A row of zeros stays a row of zeros in every positive power. */
  lemma {:induction false} ZeroRowStays(adj: Matrix, i: nat, k: nat)
    requires |adj| >= 1 && Shape(adj, |adj|, |adj|) && i < |adj| && k >= 1
    requires adj[i] == seq(|adj|, t => 0)
    ensures Power(adj, k)[i] == seq(|adj|, t => 0)
  {
    var n := |adj|;
    MulSquare(Power(adj, k - 1), adj, n);
    if k > 1 {
      ZeroRowStays(adj, i, k - 1);
    }
    forall j | 0 <= j < n
      ensures Power(adj, k)[i][j] == 0
    {
      if k == 1 {
        DotUnit(n, i, adj, j, n);
      } else {
        DotZeroRow(n, adj, j, n);
      }
    }
  }

  /** With an erasing rule, its row of lengths is 0 at every level, so the
      strict stop test never passes and the table runs to level `n + 1`. */
  lemma ErasingNeverStops(rules: Rules, n: nat, p: nat, t: nat)
    requires t < |rules| && |rules[t].to| == 0
    ensures StopLevel(Transitions(rules), n, p, true, 1) == n + 1
  {
    var adj := Transitions(rules);
    var m := |rules|;
    assert adj[t] == seq(m, j => 0) by {
      assert forall j :: 0 <= j < m ==> adj[t][j] == Count(rules, [], j);
    }
    forall k | 1 <= k <= n
      ensures RowSums(Power(adj, k))[t] == 0
    {
      ZeroRowStays(adj, t, k);
      SumZeros(m);
    }
    StopLevelSpec(adj, n, p, true, 1);
  }

  // ---------------------------------------------------------------------
  // `solve` as written.

  /** The two stop tests lead to the same answer whenever they stop at the
      same level and the source's 0/1 matrix is the counting matrix. */
  lemma SolveAsWrittenAgrees(rules: Rules, s0: string, n: nat, p: nat)
    requires DistinctFroms(rules) && Closed(rules) && NoRepeats(rules) && |rules| >= 1
    requires StopLevel(Transitions(rules), n, p, false, 1) == StopLevel(Transitions(rules), n, p, true, 1)
    ensures SolveAsWritten(rules, s0, n, p) == Solve(rules, s0, n, p)
  {
    AsWrittenCounts(rules);
  }

  /** `solve` as written, when its `>= p` table reaches round `n`, descends
      from `s0` and reads the brute-force string. */
  lemma SolveAsWrittenNear(rules: Rules, s0: string, n: nat, p: nat)
    requires DistinctFroms(rules) && Closed(rules) && NoRepeats(rules) && Covers(rules, s0) && |s0| >= 1
    requires |rules| >= 1 && n < StopLevel(Transitions(rules), n, p, false, 1) + 1
    ensures SolveAsWritten(rules, s0, n, p) ==
              if p < |Exp(rules, s0, n)| then Ok(Exp(rules, s0, n)[p]) else Err(AssertionError)
  {
    AsWrittenCounts(rules);
    var adj := Transitions(rules);
    var top := StopLevel(adj, n, p, false, 1);
    var lens := Levels(adj, top);
    LevelsExact(rules, top);
    DescendCorrect(rules, lens, top, s0, n, p);
    assert SolveAsWritten(rules, s0, n, p) == Descend(rules, lens, s0, n, p);
  }

  /** `solve` as written, when its `>= p` table stops at a level `top`
      before round `n`: it jumps to the character `c` that the first
      character reaches after `n - top` rounds, and answers correctly
      exactly when `p` falls inside `c`'s expansion after `top` rounds. */
  lemma SolveAsWrittenFar(rules: Rules, s0: string, n: nat, p: nat) returns (c: char)
    requires DistinctFroms(rules) && Closed(rules) && NoRepeats(rules) && Growing(rules)
    requires Covers(rules, s0) && |s0| >= 1
    requires |rules| >= 1 && n >= StopLevel(Transitions(rules), n, p, false, 1) + 1
    ensures var top := StopLevel(Transitions(rules), n, p, false, 1);
      && FirstCharAfter(rules, s0[0], n - top) == Ok(c) && Defined(rules, c)
      && Length(rules, c, top) <= |Exp(rules, s0, n)|
      && SolveAsWritten(rules, s0, n, p) ==
           if p < Length(rules, c, top) then Ok(Exp(rules, s0, n)[p]) else Err(AssertionError)
  {
    assert Defined(rules, s0[0]);
    AsWrittenCounts(rules);
    var top := StopLevel(Transitions(rules), n, p, false, 1);
    c := ExpStartsWith(rules, s0, n, top);
    JumpDescent(rules, s0, n, top, p, c);
    SolveWithUnfolds(rules, s0, n, p, false);
  }

  /** The descent from the character `c` the first-character walk reaches,
      whose expansion after `top` rounds starts the expansion of `s0`. */
  lemma JumpDescent(rules: Rules, s0: string, n: nat, top: nat, p: nat, c: char)
    requires Closed(rules) && |rules| >= 1 && Covers(rules, s0) && Defined(rules, c)
    requires Length(rules, c, top) <= |Exp(rules, s0, n)|
    requires Exp(rules, s0, n)[..Length(rules, c, top)] == Exp(rules, [c], top)
    ensures Descend(rules, Levels(Transitions(rules), top), [c], top, p) ==
              if p < Length(rules, c, top) then Ok(Exp(rules, s0, n)[p]) else Err(AssertionError)
  {
    var lens := Levels(Transitions(rules), top);
    LevelsExact(rules, top);
    var e, ec := Exp(rules, s0, n), Exp(rules, [c], top);
    DescendCorrect(rules, lens, top, [c], top, p);
    if p < |ec| {
      assert e[..|ec|][p] == e[p];
    }
  }

  /** The two ways `solve` proceeds once the table of the counting matrix is built. */
  lemma SolveWithUnfolds(rules: Rules, s0: string, n: nat, p: nat, strict: bool)
    requires |rules| >= 1 && |s0| >= 1
    ensures var adj := Transitions(rules);
      var top := StopLevel(adj, n, p, strict, 1);
      var lens := Levels(adj, top);
      && (n >= top + 1 && FirstCharAfter(rules, s0[0], n - top).Ok? ==>
            SolveWith(rules, s0, n, p, adj, strict) == Descend(rules, lens, [FirstCharAfter(rules, s0[0], n - top).value], top, p))
      && (n < top + 1 ==> SolveWith(rules, s0, n, p, adj, strict) == Descend(rules, lens, s0, n, p))
  {
  }

  /** With one rule per character, the table loop stops at level `k` when
      some character `c` fails the test at every level before `k` and the
      expansion of every rule's character passes it at level `k`. */
  lemma StopsAt(rules: Rules, n: nat, p: nat, strict: bool, k: nat, c: char)
    requires DistinctFroms(rules) && Closed(rules) && Defined(rules, c) && 1 <= k <= n
    requires forall t :: 1 <= t < k ==> if strict then Length(rules, c, t) <= p else Length(rules, c, t) < p
    requires forall i :: 0 <= i < |rules| ==>
      && Defined(rules, rules[i].from)
      && (if strict then Length(rules, rules[i].from, k) > p else Length(rules, rules[i].from, k) >= p)
    ensures |rules| >= 1
    ensures StopLevel(Transitions(rules), n, p, strict, 1) == k
  {
    var adj := Transitions(rules);
    forall t | 1 <= t < k
      ensures !AllAbove(RowSums(Power(adj, t)), p, strict)
    {
      LengthRow(rules, c, t);
    }
    forall i | 0 <= i < |rules|
      ensures if strict then RowSums(Power(adj, k))[i] > p else RowSums(Power(adj, k))[i] >= p
    {
      IndexOfRule(rules, i);
      LengthRow(rules, rules[i].from, k);
    }
    assert AllAbove(RowSums(Power(adj, k)), p, strict);
    StopLevelSpec(adj, n, p, strict, 1);
  }

  /** Entry `id(c)` of a row of the table is the length of `c`'s expansion. */
  lemma LengthRow(rules: Rules, c: char, k: nat)
    requires Closed(rules) && Defined(rules, c)
    ensures |rules| >= 1 && |RowSums(Power(Transitions(rules), k))| == |rules|
    ensures RowSums(Power(Transitions(rules), k))[Index(rules, c)] == Length(rules, c, k)
  {
    PowerRow(rules, c, k);
    CensusSum(rules, Exp(rules, [c], k));
  }

  /** When some character's expansion stays shorter than `p` up to round `n`,
      neither stop test passes before level `n + 1`. */
  lemma ShortNeverStops(rules: Rules, n: nat, p: nat, strict: bool, c: char)
    requires Closed(rules) && Defined(rules, c)
    requires forall k :: 1 <= k <= n ==> Length(rules, c, k) < p
    ensures |rules| >= 1
    ensures StopLevel(Transitions(rules), n, p, strict, 1) == n + 1
  {
    assert Covers(rules, [c]);
    var adj := Transitions(rules);
    forall k | 1 <= k <= n
      ensures RowSums(Power(adj, k))[Index(rules, c)] < p
    {
      PowerRow(rules, c, k);
      CensusSum(rules, Exp(rules, [c], k));
      assert Length(rules, c, k) < p;
    }
    StopLevelSpec(adj, n, p, strict, 1);
  }

  /** When every replacement is longer than `p` (or at least `p` long, for
      the test as written), both tests pass at the first level. */
  lemma FirstLevelStops(rules: Rules, n: nat, p: nat, strict: bool)
    requires |rules| >= 1 && n >= 1
    requires forall t :: 0 <= t < |rules| ==> if strict then |rules[t].to| > p else |rules[t].to| >= p
    ensures StopLevel(Transitions(rules), n, p, strict, 1) == 1
  {
    var adj := Transitions(rules);
    var m := |rules|;
    IdentityLeft(adj, m, m);
    assert Power(adj, 1) == adj;
    forall t | 0 <= t < m
      ensures RowSums(Power(adj, 1))[t] == |rules[t].to|
    {
      CensusSum(rules, rules[t].to);
    }
    assert Passes(adj, 1, p, strict);
  }

  /** `solve` when the table stops before round `n`: the rounds left over
      only move the first character. */
  lemma SolveFar(rules: Rules, s0: string, n: nat, p: nat)
    requires Closed(rules) && Growing(rules) && Covers(rules, s0) && |s0| >= 1
    requires |rules| >= 1 && n >= StopLevel(Transitions(rules), n, p, true, 1) + 1
    ensures Solve(rules, s0, n, p) ==
              if p < |Exp(rules, s0, n)| then Ok(Exp(rules, s0, n)[p]) else Err(AssertionError)
  {
    assert Defined(rules, s0[0]);
    var adj := Transitions(rules);
    var top := StopLevel(adj, n, p, true, 1);
    var lens := Levels(adj, top);
    LevelsExact(rules, top);
    var c := ExpStartsWith(rules, s0, n, top);
    var e, ec := Exp(rules, s0, n), Exp(rules, [c], top);
    assert e[..|ec|] == ec;
    SkipBound(rules, n, p, c);
    assert p < |e| && e[p] == ec[p] by {
      assert e[..|ec|][p] == e[p];
    }
    DescendCorrect(rules, lens, top, [c], top, p);
    SolveWithUnfolds(rules, s0, n, p, true);
    assert Solve(rules, s0, n, p) == Ok(e[p]);
  }

  /** `solve` when the table reaches round `n`: the descent starts from `s0`. */
  lemma SolveNear(rules: Rules, s0: string, n: nat, p: nat)
    requires Closed(rules) && Covers(rules, s0) && |s0| >= 1
    requires |rules| >= 1 && n < StopLevel(Transitions(rules), n, p, true, 1) + 1
    ensures Solve(rules, s0, n, p) ==
              if p < |Exp(rules, s0, n)| then Ok(Exp(rules, s0, n)[p]) else Err(AssertionError)
  {
    assert Defined(rules, s0[0]);
    var adj := Transitions(rules);
    var top := StopLevel(adj, n, p, true, 1);
    var lens := Levels(adj, top);
    LevelsExact(rules, top);
    DescendCorrect(rules, lens, top, s0, n, p);
    SolveWithUnfolds(rules, s0, n, p, true);
  }

  /** When the table loop stops early, every expansion at the last level
      already reaches past `p`. */
  lemma SkipBound(rules: Rules, n: nat, p: nat, c: char)
    requires Closed(rules) && Defined(rules, c) && |rules| >= 1
    requires StopLevel(Transitions(rules), n, p, true, 1) <= n
    ensures Covers(rules, [c])
    ensures p < |Exp(rules, [c], StopLevel(Transitions(rules), n, p, true, 1))|
  {
    var adj := Transitions(rules);
    var top := StopLevel(adj, n, p, true, 1);
    StopLevelSpec(adj, n, p, true, 1);
    PowerRow(rules, c, top);
    CensusSum(rules, Exp(rules, [c], top));
    assert RowSums(Power(adj, top))[Index(rules, c)] > p;
  }
}

=== FILE: locate_findings.dfy ===
/** Two inputs on which `solve` of 2025-11.py, as written, parts from
    `bruteforce`, and the corrected solver on the same inputs. */
module LocateFindings {
  import opened Wrappers
  import opened Matrices
  import opened Substitution
  import opened Locate

  /** One rule whose replacement repeats its character. */
  const Doubling: Rules := [Rule('A', "AA")]

  lemma DoublingFacts(rules: Rules)
    requires rules == Doubling
    ensures Index(rules, 'A') == 0 && Defined(rules, 'A') && Image(rules, 'A') == "AA"
    ensures Closed(rules) && Growing(rules) && Covers(rules, "A")
  {
  }

  /** As written: one round of `A -> AA` has two characters, but the 0/1
      matrix gives `A` length one, so the descent's assertion fails on
      position 1. */
  lemma DoublingAsWritten(rules: Rules)
    requires rules == Doubling
    ensures Expand(rules, "A", 1) == Ok("AA")
    ensures SolveAsWritten(rules, "A", 1, 1) == Err(AssertionError)
  {
    DoublingFacts(rules);
    assert Step(rules, "A") == "AA";
    ExpandIsExp(rules, "A", 1);
    DoublingMatrix(rules);
    DoublingStuck(rules, TransitionsAsWritten(rules));
  }

  /** The 0/1 matrix of `Doubling` is the one-by-one matrix `[[1]]`. */
  lemma DoublingMatrix(rules: Rules)
    requires rules == Doubling
    ensures TransitionsAsWritten(rules) == [[1]]
  {
    DoublingFacts(rules);
    assert Linked(rules, 0, 0) by {
      assert rules[0].to[0] == 'A';
    }
    var adj := TransitionsAsWritten(rules);
    assert adj[0][0] == 1;
    SameEntries(adj, [[1]], 1, 1);
  }

  /** Any single rule for `A` run on the matrix `[[1]]` with the `>= p` test
      stops at level 1 and rejects position 1 of one round from "A". */
  lemma DoublingStuck(rules: Rules, adj: Matrix)
    requires |rules| == 1 && Index(rules, 'A') == 0 && Defined(rules, 'A')
    requires adj == [[1]]
    ensures SolveWith(rules, "A", 1, 1, adj, false) == Err(AssertionError)
  {
    IdentityLeft(adj, 1, 1);
    assert Power(adj, 1) == [[1]];
    assert Sum([1]) == 1;
    assert RowSums([[1]]) == [1];
    assert StopLevel(adj, 1, 1, false, 1) == 1;
    var lens := Levels(adj, 1);
    assert lens[1] == [1];
    assert LevelSum(rules, [1], "A") == 1;
  }

  /** Corrected: the solver with multiplicities finds the second `A`. */
  lemma DoublingFixed(rules: Rules)
    requires rules == Doubling
    ensures Solve(rules, "A", 1, 1) == Ok('A')
  {
    DoublingFacts(rules);
    assert Step(rules, "A") == "AA";
    SolveIsBruteForce(rules, "A", 1, 1);
  }

  /** `A -> B`, `B -> AB`: lengths 1 and 2 after one round. */
  const Fibonacci: Rules := [Rule('A', "B"), Rule('B', "AB")]

  lemma FibonacciFacts(rules: Rules)
    requires rules == Fibonacci
    ensures Index(rules, 'A') == 0 && Defined(rules, 'A') && Image(rules, 'A') == "B"
    ensures Index(rules, 'B') == 1 && Defined(rules, 'B') && Image(rules, 'B') == "AB"
    ensures Closed(rules) && Growing(rules) && Covers(rules, "B")
    ensures Exp(rules, "B", 2) == "BAB"
  {
    assert LastIndex(rules, 'A', 1) == 0;
    assert Index(rules, 'A') == 0;
    assert Step(rules, "B") == "AB";
    assert Step(rules, "AB") == "BAB";
  }

  /** As written: after one round every length is at least `p = 1`, so the
      table stops at level 1 and the first character is carried through the
      other round; that character, `A`, has length 1, and the descent's
      assertion fails on position 1 although `BAB` has an `A` there. */
  lemma FibonacciAsWritten(rules: Rules)
    requires rules == Fibonacci
    ensures Expand(rules, "B", 2) == Ok("BAB")
    ensures SolveAsWritten(rules, "B", 2, 1) == Err(AssertionError)
  {
    FibonacciFacts(rules);
    ExpandIsExp(rules, "B", 2);
    FibonacciMatrix(rules);
    FibonacciStuck(rules, TransitionsAsWritten(rules));
  }

  /** The 0/1 matrix of `Fibonacci`. */
  lemma FibonacciMatrix(rules: Rules)
    requires rules == Fibonacci
    ensures TransitionsAsWritten(rules) == [[0, 1], [1, 1]]
  {
    FibonacciFacts(rules);
    assert Linked(rules, 0, 1) by {
      assert rules[0].to[0] == 'B';
    }
    assert Linked(rules, 1, 0) by {
      assert rules[1].to[0] == 'A';
    }
    assert Linked(rules, 1, 1) by {
      assert rules[1].to[1] == 'B';
    }
    var adj := TransitionsAsWritten(rules);
    forall i, j | 0 <= i < 2 && 0 <= j < 2
      ensures adj[i][j] == [[0, 1], [1, 1]][i][j]
    {
    }
    SameEntries(adj, [[0, 1], [1, 1]], 2, 2);
  }

  /** With the `>= p` test the matrix `[[0, 1], [1, 1]]` stops the table at
      level 1, where the lengths are 1 and 2. */
  lemma FibonacciLevels(adj: Matrix)
    requires adj == [[0, 1], [1, 1]]
    ensures StopLevel(adj, 2, 1, false, 1) == 1 && Levels(adj, 1)[1] == [1, 2]
  {
    IdentityLeft(adj, 2, 2);
    assert Power(adj, 1) == adj;
    assert Sum([0, 1]) == 1 && Sum([1, 1]) == 2;
    assert RowSums(adj) == [1, 2];
  }

  /** Any rules that send `B` to a word starting with `A`, with ids 0 for
      `A` and 1 for `B`, fail position 1 after two rounds from "B" on that
      matrix and test. */
  lemma FibonacciStuck(rules: Rules, adj: Matrix)
    requires |rules| == 2 && Index(rules, 'A') == 0 && Index(rules, 'B') == 1
    requires Defined(rules, 'B') && |Image(rules, 'B')| >= 1 && Image(rules, 'B')[0] == 'A'
    requires adj == [[0, 1], [1, 1]]
    ensures SolveWith(rules, "B", 2, 1, adj, false) == Err(AssertionError)
  {
    FibonacciLevels(adj);
    var lens := Levels(adj, 1);
    assert FirstCharAfter(rules, 'B', 1) == Ok('A');
    assert LevelSum(rules, [1, 2], "A") == 1;
  }

  /** Corrected: the strict test keeps level 2 and the descent finds `A`. */
  lemma FibonacciFixed(rules: Rules)
    requires rules == Fibonacci
    ensures Solve(rules, "B", 2, 1) == Ok('A')
  {
    FibonacciFacts(rules);
    SolveIsBruteForce(rules, "B", 2, 1);
  }
}

=== FILE: locate_tests.dfy ===
/** The scenarios of 2025-11.py's tests that the verifier can decide. */
module LocateTests {
  import opened Wrappers
  import opened Matrices
  import opened Substitution
  import opened Locate

  /** `test_multiplication`, on the loops. */
  method Multiplication() returns (r1: Result<Matrix>, r2: Result<Matrix>)
    ensures r1 == Ok([[5], [2]])
    ensures r2 == Ok([[19, 22], [43, 50]])
  {
    var a1, b1: Matrix := [[1, 3], [0, 2]], [[2], [1]];
    var a2, b2: Matrix := [[1, 2], [3, 4]], [[5, 6], [7, 8]];
    r1 := MulLoops(a1, b1);
    r2 := MulLoops(a2, b2);
    forall i, j | 0 <= i < 2 && 0 <= j < 1
      ensures Times(a1, b1)[i][j] == [[5], [2]][i][j]
    {
      DotTwo(a1[i], b1, j);
    }
    SameEntries(Times(a1, b1), [[5], [2]], 2, 1);
    forall i, j | 0 <= i < 2 && 0 <= j < 2
      ensures Times(a2, b2)[i][j] == [[19, 22], [43, 50]][i][j]
    {
      DotTwo(a2[i], b2, j);
    }
    SameEntries(Times(a2, b2), [[19, 22], [43, 50]], 2, 2);
  }

  lemma DotTwo(u: seq<int>, b: Matrix, j: nat)
    requires |u| >= 2 && |b| >= 2 && j < |b[0]| && j < |b[1]|
    ensures Dot(u, b, j, 2) == u[0] * b[0][j] + u[1] * b[1][j]
  {
    assert Dot(u, b, j, 1) == u[0] * b[0][j];
  }

  /** A product whose shapes do not match raises ValueError. */
  method MismatchedShapes() returns (r: Result<Matrix>)
    ensures r == Err(ValueError)
  {
    r := MulLoops([[1, 2]], [[1, 2]]);
  }

  const CatRules: Rules := [Rule('C', "TG"), Rule('A', "C"), Rule('T', "CA"), Rule('G', "T")]

  /** What the CAT expansion needs of the rules: every letter is defined,
      with the images of `CatRules`. */
  predicate CatLike(rules: Rules) {
    && Closed(rules)
    && Defined(rules, 'C') && Image(rules, 'C') == "TG"
    && Defined(rules, 'A') && Image(rules, 'A') == "C"
    && Defined(rules, 'T') && Image(rules, 'T') == "CA"
    && Defined(rules, 'G') && Image(rules, 'G') == "T"
  }

  lemma CatImages(rules: Rules)
    requires rules == CatRules
    ensures CatLike(rules)
  {
    assert LastIndex(rules, 'C', 1) == 0;
    assert LastIndex(rules, 'C', 2) == 0;
    assert LastIndex(rules, 'C', 3) == 0;
    assert Index(rules, 'C') == 0;
    assert LastIndex(rules, 'A', 2) == 1;
    assert LastIndex(rules, 'A', 3) == 1;
    assert Index(rules, 'A') == 1;
    assert LastIndex(rules, 'T', 3) == 2;
    assert Index(rules, 'T') == 2;
    assert Index(rules, 'G') == 3;
  }

  lemma CatWellFormed(rules: Rules)
    requires rules == CatRules
    ensures Closed(rules) && Growing(rules) && Covers(rules, "CAT")
  {
    CatImages(rules);
  }

  /** `bruteforce(CAT_TRANS, "CAT", 3)`. */
  lemma CatExpansion(rules: Rules)
    requires rules == CatRules
    ensures Closed(rules) && Covers(rules, "CAT")
    ensures Exp(rules, "CAT", 3) == "TGCCACATCATTG"
    ensures Expand(rules, "CAT", 3) == Ok("TGCCACATCATTG")
  {
    CatWellFormed(rules);
    CatImages(rules);
    CatWord(rules);
    ExpandIsExp(rules, "CAT", 3);
  }

  /** Letter by letter: the third rounds of C, A and T are TGCCA, CAT and CATTG. */
  lemma CatWord(rules: Rules)
    requires CatLike(rules)
    ensures Covers(rules, "CAT") && Exp(rules, "CAT", 3) == "TGCCACATCATTG"
  {
    CatLevel3(rules);
    Pair(rules, 'A', 'T', 3);
    var tail := Exp(rules, ['A', 'T'], 3);
    assert tail == "CATCATTG";
    ExpConcat(rules, ['C'], ['A', 'T'], 3);
    assert ['C'] + ['A', 'T'] == "CAT";
  }

  /** A two-letter word expands letter by letter. */
  lemma Pair(rules: Rules, c: char, d: char, k: nat)
    requires Closed(rules) && Defined(rules, c) && Defined(rules, d)
    ensures Covers(rules, [c]) && Covers(rules, [d]) && Covers(rules, [c, d])
    ensures Exp(rules, [c, d], k) == Exp(rules, [c], k) + Exp(rules, [d], k)
  {
    assert [c] + [d] == [c, d];
    ExpConcat(rules, [c], [d], k);
  }

  /** The first round of each letter is its image. */
  lemma CatLevel1(rules: Rules)
    requires CatLike(rules)
    ensures Covers(rules, "C") && Covers(rules, "A") && Covers(rules, "T") && Covers(rules, "G")
    ensures Exp(rules, "C", 1) == "TG" && Exp(rules, "A", 1) == "C"
    ensures Exp(rules, "T", 1) == "CA" && Exp(rules, "G", 1) == "T"
  {
    ExpSingle(rules, 'C', 0);
    ExpSingle(rules, 'A', 0);
    ExpSingle(rules, 'T', 0);
    ExpSingle(rules, 'G', 0);
  }

  /** The second round of each letter. */
  lemma CatLevel2(rules: Rules)
    requires CatLike(rules)
    ensures Covers(rules, "C") && Covers(rules, "A") && Covers(rules, "T") && Covers(rules, "G")
    ensures Exp(rules, "C", 2) == "CAT" && Exp(rules, "A", 2) == "TG"
    ensures Exp(rules, "T", 2) == "TGC" && Exp(rules, "G", 2) == "CA"
  {
    CatLevel1(rules);
    ExpSingle(rules, 'C', 1);
    ExpSingle(rules, 'A', 1);
    ExpSingle(rules, 'T', 1);
    ExpSingle(rules, 'G', 1);
    Pair(rules, 'T', 'G', 1);
    Pair(rules, 'C', 'A', 1);
  }

  /** The third round of each letter. */
  lemma CatLevel3(rules: Rules)
    requires CatLike(rules)
    ensures Covers(rules, "C") && Covers(rules, "A") && Covers(rules, "T") && Covers(rules, "G")
    ensures Exp(rules, "C", 3) == "TGCCA" && Exp(rules, "A", 3) == "CAT"
    ensures Exp(rules, "T", 3) == "CATTG" && Exp(rules, "G", 3) == "TGC"
  {
    CatLevel2(rules);
    ExpSingle(rules, 'C', 2);
    ExpSingle(rules, 'A', 2);
    ExpSingle(rules, 'T', 2);
    ExpSingle(rules, 'G', 2);
    Pair(rules, 'T', 'G', 2);
    Pair(rules, 'C', 'A', 2);
  }

  /** `test_cat_small`: `solve` on the third round of `"CAT"` reads the
      brute-force string, so positions 12, 5, 6 and 7 hold G, C, A and T. */
  lemma CatPosition(rules: Rules, p: nat)
    requires rules == CatRules
    ensures Solve(rules, "CAT", 3, p) ==
              if p < 13 then Ok("TGCCACATCATTG"[p]) else Err(AssertionError)
  {
    CatExpansion(rules);
    CatWellFormed(rules);
    SolveIsBruteForce(rules, "CAT", 3, p);
  }

  /** Ten to the hundredth, the round count of the last `test_cat_small` case. */
  const Googol: nat := 10000000000000000000000000000000000000000000000000000000000000000000000000000000000000000000000000000

  /** Under `CatRules` the first character alternates C, T, C, ... */
  lemma {:induction false} CatFirstEven(rules: Rules, m: nat)
    requires rules == CatRules
    ensures FirstCharAfter(rules, 'C', 2 * m) == Ok('C')
  {
    if m > 0 {
      CatImages(rules);
      CatFirstEven(rules, m - 1);
      assert FirstCharAfter(rules, 'T', 2 * m - 1) == FirstCharAfter(rules, 'C', 2 * (m - 1));
    }
  }

  /** `solve(CAT_TRANS, "CAT", 10**100, 0) == "C"`. */
  lemma CatGoogol(rules: Rules)
    requires rules == CatRules
    ensures Solve(rules, "CAT", Googol, 0) == Ok('C')
  {
    CatWellFormed(rules);
    SolveIsBruteForce(rules, "CAT", Googol, 0);
    ExpFirst(rules, "CAT", Googol);
    CatFirstEven(rules, Googol / 2);
  }

  /** `CatRules` has one rule per letter and no letter twice in a replacement,
      so the source's 0/1 matrix is the counting matrix. */
  lemma CatShape(rules: Rules)
    requires rules == CatRules
    ensures |rules| == 4 && DistinctFroms(rules) && NoRepeats(rules) && Closed(rules)
    ensures forall t :: 0 <= t < |rules| ==> |rules[t].to| >= 1
  {
    CatImages(rules);
  }

  /** The lengths of A's first three rounds are 1, 2 and 3. */
  lemma CatShortA(rules: Rules, p: nat)
    requires CatLike(rules) && p >= 4
    ensures Defined(rules, 'A')
    ensures forall k :: 1 <= k <= 3 ==> Length(rules, 'A', k) < p
  {
    CatLevel1(rules);
    CatLevel2(rules);
    CatLevel3(rules);
    forall k | 1 <= k <= 3
      ensures Length(rules, 'A', k) < p
    {
      assert Length(rules, 'A', k) == |Exp(rules, "A", k)| <= 3;
    }
  }

  /** The level at which the `>= p` table loop stops for `"CAT"` and three
      rounds: level 1 for p <= 1 (every replacement is at least one long),
      level p for p = 2 and 3 (A's expansion is the shortest, of length t
      at level t), and never before level 4 from p = 4 on. */
  lemma CatStopLevelAsWritten(rules: Rules, p: nat)
    requires rules == CatRules
    ensures |rules| >= 1
    ensures StopLevel(Transitions(rules), 3, p, false, 1) == if p <= 1 then 1 else if p <= 3 then p else 4
  {
    CatShape(rules);
    CatImages(rules);
    if p <= 1 {
      FirstLevelStops(rules, 3, p, false);
    } else if p <= 3 {
      CatStopsEarly(rules, p);
    } else {
      CatShortA(rules, p);
      ShortNeverStops(rules, 3, p, false, 'A');
    }
  }

  /** The lengths of the first two rounds: A's is 1 at level 1, and every
      letter's reaches 2 at level 2. */
  lemma CatLengths2(rules: Rules, p: nat)
    requires rules == CatRules && p == 2
    ensures Closed(rules) && Defined(rules, 'A')
    ensures forall t :: 1 <= t < p ==> Length(rules, 'A', t) < p
    ensures forall i :: 0 <= i < |rules| ==>
      && Defined(rules, rules[i].from)
      && Length(rules, rules[i].from, p) >= p
  {
    CatImages(rules);
    CatLevel1(rules);
    CatLevel2(rules);
    assert rules[0].from == 'C' && rules[1].from == 'A' && rules[2].from == 'T' && rules[3].from == 'G';
    assert Length(rules, 'A', 1) == 1;
    assert Length(rules, 'C', 2) == 3 && Length(rules, 'A', 2) == 2;
    assert Length(rules, 'T', 2) == 3 && Length(rules, 'G', 2) == 2;
  }

  /** The lengths of the first three rounds: A's is 1 and 2 at levels 1
      and 2, and every letter's reaches 3 at level 3. */
  lemma CatLengths3(rules: Rules, p: nat)
    requires rules == CatRules && p == 3
    ensures Closed(rules) && Defined(rules, 'A')
    ensures forall t :: 1 <= t < p ==> Length(rules, 'A', t) < p
    ensures forall i :: 0 <= i < |rules| ==>
      && Defined(rules, rules[i].from)
      && Length(rules, rules[i].from, p) >= p
  {
    CatImages(rules);
    CatLevel1(rules);
    CatLevel2(rules);
    CatLevel3(rules);
    assert rules[0].from == 'C' && rules[1].from == 'A' && rules[2].from == 'T' && rules[3].from == 'G';
    assert Length(rules, 'A', 1) == 1 && Length(rules, 'A', 2) == 2;
    assert Length(rules, 'C', 3) == 5 && Length(rules, 'A', 3) == 3;
    assert Length(rules, 'T', 3) == 5 && Length(rules, 'G', 3) == 3;
  }

  /** For p = 2 and 3 the `>= p` table stops at level p. */
  lemma CatStopsEarly(rules: Rules, p: nat)
    requires rules == CatRules && 2 <= p <= 3
    ensures |rules| >= 1 && StopLevel(Transitions(rules), 3, p, false, 1) == p
  {
    CatShape(rules);
    if p == 2 {
      CatLengths2(rules, p);
    } else {
      CatLengths3(rules, p);
    }
    StopsAt(rules, 3, p, false, p, 'A');
  }

  /** `test_cat_small` at round 3, on `solve` as written: every position
      reads the brute-force string (so positions 12, 5, 6 and 7 hold G, C, A
      and T), and past its end the assertion fails. Positions 0 to 3 go
      through a table cut short at level 1, 2 or 3; from 4 on the table runs
      to level 4 under both stop tests. */
  lemma CatPositionAsWritten(rules: Rules, p: nat)
    requires rules == CatRules
    ensures SolveAsWritten(rules, "CAT", 3, p) ==
              if p < 13 then Ok("TGCCACATCATTG"[p]) else Err(AssertionError)
  {
    CatShape(rules);
    CatImages(rules);
    CatExpansion(rules);
    CatStopLevelAsWritten(rules, p);
    if p >= 4 {
      CatShortA(rules, p);
      ShortNeverStops(rules, 3, p, true, 'A');
      SolveAsWrittenAgrees(rules, "CAT", 3, p);
      CatPosition(rules, p);
    } else if p == 3 {
      SolveAsWrittenNear(rules, "CAT", 3, p);
    } else {
      CatFarAsWritten(rules, p);
    }
  }

  /** Positions 0 to 2 on `solve` as written: the walk lands on C (after two
      rounds) or on T (after one), whose expansion at the stop level holds p. */
  lemma CatFarAsWritten(rules: Rules, p: nat)
    requires rules == CatRules && p <= 2
    ensures Closed(rules) && Covers(rules, "CAT")
    ensures p < |Exp(rules, "CAT", 3)|
    ensures SolveAsWritten(rules, "CAT", 3, p) == Ok(Exp(rules, "CAT", 3)[p])
  {
    CatShape(rules);
    CatWellFormed(rules);
    CatImages(rules);
    CatStopLevelAsWritten(rules, p);
    CatLevel1(rules);
    CatLevel2(rules);
    var c := SolveAsWrittenFar(rules, "CAT", 3, p);
    if p <= 1 {
      CatFirstEven(rules, 1);
      assert c == 'C' && Length(rules, c, 1) == 2;
    } else {
      assert FirstCharAfter(rules, 'C', 1) == FirstCharAfter(rules, 'T', 0);
      assert c == 'T' && Length(rules, c, 2) == 3;
    }
  }

  /** `solve(CAT_TRANS, "CAT", 10**100, 0) == "C"`, on `solve` as written:
      both stop tests pass at the first level. */
  lemma CatGoogolAsWritten(rules: Rules)
    requires rules == CatRules
    ensures SolveAsWritten(rules, "CAT", Googol, 0) == Ok('C')
  {
    CatShape(rules);
    FirstLevelStops(rules, Googol, 0, false);
    FirstLevelStops(rules, Googol, 0, true);
    SolveAsWrittenAgrees(rules, "CAT", Googol, 0);
    CatGoogol(rules);
  }

  /** `find_first_char` follows the C, T cycle instead of ten to the hundredth rounds. */
  method CatFirstChar() returns (r: Result<char>)
    ensures r == Ok('C')
  {
    r := FindFirstChar(CatRules, "CAT", Googol);
    CatFirstEven(CatRules, Googol / 2);
  }
}

=== FILE: matrices.dfy ===
/** The integer matrices of 2025-11.py: identity and zero matrices and the
    product, which raises on mismatched shapes. A matrix is its list of rows. */
module Matrices {
  import opened Wrappers

  type Matrix = seq<seq<int>>

  /** `m` has `rows` rows of `cols` entries each. */
  predicate Shape(m: Matrix, rows: nat, cols: nat) {
    |m| == rows && forall i :: 0 <= i < rows ==> |m[i]| == cols
  }

  /** `Matrix(n)`: ones on the diagonal, zeros elsewhere. */
  function Identity(n: nat): (m: Matrix)
    ensures Shape(m, n, n)
  {
    seq(n, i => seq(n, j => if i == j then 1 else 0))
  }

  /** `Matrix.zero(n)`. */
  function Zero(n: nat): (m: Matrix)
    ensures Shape(m, n, n)
  {
    seq(n, i => seq(n, j => 0))
  }

  /** Sum of all entries of a row (Python's `sum(row)`). */
  function Sum(v: seq<int>): int {
    if |v| == 0 then 0 else Sum(v[..|v| - 1]) + v[|v| - 1]
  }

  /** `sum(row) for row in m`. */
  function RowSums(m: Matrix): (r: seq<int>)
    ensures |r| == |m|
  {
    seq(|m|, i requires 0 <= i < |m| => Sum(m[i]))
  }

  /** The first `k` terms of row `u` times column `j` of `b`. */
  function Dot(u: seq<int>, b: Matrix, j: nat, k: nat): int
    requires k <= |u| && k <= |b|
    requires forall t :: 0 <= t < k ==> j < |b[t]|
  {
    if k == 0 then 0 else Dot(u, b, j, k - 1) + u[k - 1] * b[k - 1][j]
  }

  /** Every entry the product reads exists: `b` has a row, each row of `a`
      is as long as `b` is high, and each row of `b` is as long as its first. */
  predicate Fits(a: Matrix, b: Matrix) {
    && |b| >= 1
    && (forall i :: 0 <= i < |a| ==> |a[i]| >= |b|)
    && (forall k :: 0 <= k < |b| ==> |b[k]| >= |b[0]|)
  }

  /** The product of two matrices that fit. */
  function Times(a: Matrix, b: Matrix): (c: Matrix)
    requires Fits(a, b)
    ensures Shape(c, |a|, |b[0]|)
    ensures forall i, j :: 0 <= i < |a| && 0 <= j < |b[0]| ==> c[i][j] == Dot(a[i], b, j, |b|)
  {
    seq(|a|, i requires 0 <= i < |a| => seq(|b[0]|, j requires 0 <= j < |b[0]| => Dot(a[i], b, j, |b|)))
  }

  /** `a * b` (`Matrix.__mul__`): the first row of `a` must be as long as
      `b` is high, else ValueError; every other missing entry the loops read
      is an IndexError. */
  function Mul(a: Matrix, b: Matrix): (r: Result<Matrix>)
    ensures r.Ok? <==> |a| >= 1 && |a[0]| == |b| && Fits(a, b)
    ensures r == Err(ValueError) <==> |a| >= 1 && |a[0]| != |b|
    ensures r.Err? ==> r.error in {ValueError, IndexError}
    ensures r.Ok? ==> Shape(r.value, |a|, |b[0]|)
  {
    if |a| == 0 then Err(IndexError)
    else if |a[0]| != |b| then Err(ValueError)
    else if Fits(a, b) then Ok(Times(a, b))
    else Err(IndexError)
  }

  /** Matrices of the same shape are equal when their entries are. */
  lemma SameEntries(x: Matrix, y: Matrix, rows: nat, cols: nat)
    requires Shape(x, rows, cols) && Shape(y, rows, cols)
    requires forall i, j :: 0 <= i < rows && 0 <= j < cols ==> x[i][j] == y[i][j]
    ensures x == y
  {
    forall i | 0 <= i < rows
      ensures x[i] == y[i]
    {
    }
  }

  /** Two square matrices of the same positive size always multiply. */
  lemma MulSquare(a: Matrix, b: Matrix, n: nat)
    requires n >= 1 && Shape(a, n, n) && Shape(b, n, n)
    ensures Mul(a, b) == Ok(Times(a, b))
    ensures Shape(Times(a, b), n, n)
  {
  }

  /** The loops of `Matrix.__mul__`, raising where the source raises. */
  method MulLoops(a: Matrix, b: Matrix) returns (r: Result<Matrix>)
    ensures r == Mul(a, b)
  {
    if |a| == 0 {
      return Err(IndexError);
    }
    if |a[0]| != |b| {
      return Err(ValueError);
    }
    if |b| == 0 {
      return Err(IndexError);
    }
    var rows, inner, cols := |a|, |a[0]|, |b[0]|;
    var res: Matrix := seq(rows, i => seq(cols, j => 0));
    var i := 0;
    while i < rows
      invariant 0 <= i <= rows
      invariant Shape(res, rows, cols)
      invariant forall t :: 0 <= t < i ==> |a[t]| >= inner
      invariant i >= 1 ==> forall k :: 0 <= k < inner ==> |b[k]| >= cols
      invariant forall t, j :: 0 <= t < i && 0 <= j < cols ==> res[t][j] == Dot(a[t], b, j, inner)
      invariant forall t, j :: i <= t < rows && 0 <= j < cols ==> res[t][j] == 0
    {
      var k := 0;
      while k < inner
        invariant 0 <= k <= inner
        invariant Shape(res, rows, cols)
        invariant k <= |a[i]|
        invariant forall q :: 0 <= q < k ==> |b[q]| >= cols
        invariant i >= 1 ==> forall q :: 0 <= q < inner ==> |b[q]| >= cols
        invariant forall t, j :: 0 <= t < i && 0 <= j < cols ==> res[t][j] == Dot(a[t], b, j, inner)
        invariant forall t, j :: i < t < rows && 0 <= j < cols ==> res[t][j] == 0
        invariant forall j :: 0 <= j < cols ==> res[i][j] == Dot(a[i], b, j, k)
      {
        if k >= |a[i]| {
          assert |a[i]| < |b|;
          return Err(IndexError);
        }
        var ik := a[i][k];
        var j := 0;
        while j < cols
          invariant 0 <= j <= cols
          invariant Shape(res, rows, cols)
          invariant j <= |b[k]|
          invariant forall t, q :: 0 <= t < i && 0 <= q < cols ==> res[t][q] == Dot(a[t], b, q, inner)
          invariant forall t, q :: i < t < rows && 0 <= q < cols ==> res[t][q] == 0
          invariant forall q :: 0 <= q < j ==> res[i][q] == Dot(a[i], b, q, k + 1)
          invariant forall q :: j <= q < cols ==> res[i][q] == Dot(a[i], b, q, k)
        {
          if j >= |b[k]| {
            assert |b[k]| < |b[0]|;
            return Err(IndexError);
          }
          res := res[i := res[i][j := res[i][j] + ik * b[k][j]]];
          j := j + 1;
        }
        k := k + 1;
      }
      i := i + 1;
    }
    assert Fits(a, b);
    SameEntries(res, Times(a, b), rows, cols);
    return Ok(res);
  }

  /** Row `i` of the identity picks out row `i` of `b`. */
  lemma {:induction false} DotUnit(n: nat, i: nat, b: Matrix, j: nat, k: nat)
    requires i < n && k <= n && k <= |b|
    requires forall t :: 0 <= t < k ==> j < |b[t]|
    ensures Dot(Identity(n)[i], b, j, k) == if i < k then b[i][j] else 0
  {
    if k > 0 {
      DotUnit(n, i, b, j, k - 1);
    }
  }

  /** Column `j` of the identity picks out entry `j` of the row. */
  lemma {:induction false} DotIdentity(u: seq<int>, n: nat, j: nat, k: nat)
    requires j < n && k <= |u| && k <= n
    ensures Dot(u, Identity(n), j, k) == if j < k then u[j] else 0
  {
    if k > 0 {
      DotIdentity(u, n, j, k - 1);
    }
  }

  /** The identity is neutral on the left. */
  lemma IdentityLeft(m: Matrix, n: nat, cols: nat)
    requires n >= 1 && Shape(m, n, cols)
    ensures Fits(Identity(n), m) && Times(Identity(n), m) == m
  {
    forall i, j | 0 <= i < n && 0 <= j < cols
      ensures Times(Identity(n), m)[i][j] == m[i][j]
    {
      DotUnit(n, i, m, j, n);
    }
    SameEntries(Times(Identity(n), m), m, n, cols);
  }

  /** The identity is neutral on the right. */
  lemma IdentityRight(m: Matrix, rows: nat, n: nat)
    requires n >= 1 && Shape(m, rows, n)
    ensures Fits(m, Identity(n)) && Times(m, Identity(n)) == m
  {
    forall i, j | 0 <= i < rows && 0 <= j < n
      ensures Times(m, Identity(n))[i][j] == m[i][j]
    {
      DotIdentity(m[i], n, j, n);
    }
    SameEntries(Times(m, Identity(n)), m, rows, n);
  }

  lemma {:induction false} DotZeroRow(n: nat, b: Matrix, j: nat, k: nat)
    requires k <= n && k <= |b|
    requires forall t :: 0 <= t < k ==> j < |b[t]|
    ensures Dot(seq(n, t => 0), b, j, k) == 0
  {
    if k > 0 {
      DotZeroRow(n, b, j, k - 1);
    }
  }

  /** The zero matrix absorbs on the left. */
  lemma ZeroLeft(m: Matrix, n: nat, cols: nat)
    requires n >= 1 && Shape(m, n, cols)
    ensures Fits(Zero(n), m) && Times(Zero(n), m) == seq(n, i => seq(cols, j => 0))
  {
    forall i, j | 0 <= i < n && 0 <= j < cols
      ensures Times(Zero(n), m)[i][j] == 0
    {
      assert Zero(n)[i] == seq(n, t => 0);
      DotZeroRow(n, m, j, n);
    }
    SameEntries(Times(Zero(n), m), seq(n, i => seq(cols, j => 0)), n, cols);
  }

  /** `Dot` is additive in its row. */
  lemma {:induction false} DotAdd(u: seq<int>, v: seq<int>, w: seq<int>, b: Matrix, j: nat, k: nat)
    requires k <= |u| && k <= |v| && k <= |w| && k <= |b|
    requires forall t :: 0 <= t < k ==> j < |b[t]| && w[t] == u[t] + v[t]
    ensures Dot(w, b, j, k) == Dot(u, b, j, k) + Dot(v, b, j, k)
  {
    if k > 0 {
      DotAdd(u, v, w, b, j, k - 1);
      assert w[k - 1] * b[k - 1][j] == u[k - 1] * b[k - 1][j] + v[k - 1] * b[k - 1][j];
    }
  }

  /** `Sum` is additive. */
  lemma {:induction false} SumAdd(u: seq<int>, v: seq<int>, w: seq<int>)
    requires |u| == |v| == |w|
    requires forall t :: 0 <= t < |w| ==> w[t] == u[t] + v[t]
    ensures Sum(w) == Sum(u) + Sum(v)
  {
    if |w| > 0 {
      var n := |w| - 1;
      SumAdd(u[..n], v[..n], w[..n]);
    }
  }

  /** A row of the identity sums to one. */
  lemma {:induction false} SumUnit(n: nat, i: nat, k: nat)
    requires i < n && k <= n
    ensures Sum(Identity(n)[i][..k]) == if i < k then 1 else 0
  {
    if k > 0 {
      SumUnit(n, i, k - 1);
      assert Identity(n)[i][..k][..k - 1] == Identity(n)[i][..k - 1];
    }
  }

  /** All zeros sum to zero. */
  lemma {:induction false} SumZeros(n: nat)
    ensures Sum(seq(n, t => 0)) == 0
  {
    if n > 0 {
      assert seq(n, t => 0)[..n - 1] == seq(n - 1, t => 0);
      SumZeros(n - 1);
    }
  }
}

=== FILE: pair_sums.dfy ===
/** The December 2025 puzzle (2025-12.cc): f(n) counts the prime sums p + e
    with p among the first n odd primes and e among 2, 4, ..., 2n. Two
    computations of f(n): the brute force over all n * n pairs, and the
    sliding window over the sorted primes up to the largest sum. */
module PairSums {
  import opened Wrappers
  import opened Primes
  import opened Sieve
  import opened PairSumsSpec

  /** The range-for over a generator with an early `break` once n primes are
      collected. With n == 0 the size never equals n, so every prime of the
      range is collected. */
  method TakeFirst(s: Sieve, n: nat) returns (r: seq<nat>)
    requires Valid(s)
    ensures r == Taken(PrimesIn(s.low, s.high + 1), n)
  {
    r := [];
    var it := Begin(s);
    SkipNonPrimes(s.low, it.current, s.high + 1);
    while !ItrEq(it, End(s))
      invariant it.gen == s && s.low <= it.current <= s.high + 1
      invariant it.current <= s.high ==> IsPrime(it.current)
      invariant r + PrimesIn(it.current, s.high + 1) == PrimesIn(s.low, s.high + 1)
      invariant n >= 1 ==> |r| < n
      decreases s.high + 1 - it.current
    {
      var c := it.current;
      var next := Next(it);
      EnumerateStep(r, s.low, c, next.current, s.high + 1);
      r := r + [c];
      if |r| == n {
        ghost var all := PrimesIn(s.low, s.high + 1);
        assert (r + PrimesIn(next.current, s.high + 1))[..|r|] == r;
        assert r == all[..n];
        return;
      }
      it := next;
    }
    EnumerateDone(r, s.low, s.high + 1);
  }

  /** What `TakeFirst` keeps of the list `all`: its first n entries, or all of
      it when it is shorter or n is 0. */
  function Taken(all: seq<nat>, n: nat): seq<nat>
  {
    if 1 <= n <= |all| then all[..n] else all
  }

  /** `getFirstNOddPrimes`: sieve [3, bound] and take the first n primes,
      doubling the bound until there are n of them. The first bound comes
      from a floating-point estimate and is a parameter here (at least 100). */
  method FirstNOddPrimes(n: nat, initialBound: nat) returns (r: seq<nat>)
    requires initialBound >= 100
    ensures n >= 1 ==> r == FirstOddPrimes(n)
    ensures n == 0 ==> r == PrimesIn(3, initialBound + 1)
  {
    var bound := initialBound;
    var g := Construct(3, bound, 0);
    r := TakeFirst(g.value, n);
    ghost var enough := EnoughPrimes(n);
    while |r| < n
      invariant bound >= initialBound
      invariant n == 0 ==> bound == initialBound
      invariant r == Taken(PrimesIn(3, bound + 1), n)
      decreases enough - bound
    {
      if enough <= bound {
        PrimesInMonotone(3, enough + 1, bound + 1);
      }
      bound := bound * 2;
      r := [];
      g := Construct(3, bound, 0);
      r := TakeFirst(g.value, n);
    }
    if n >= 1 {
      FirstOddPrimesPrefix(bound + 1, n);
    }
  }

  /** `getFirstNEvenIntegers`: 2, 4, ..., 2n. */
  method FirstNEvenIntegers(n: nat) returns (r: seq<nat>)
    ensures |r| == n
    ensures forall k :: 0 <= k < n ==> r[k] == 2 * (k + 1)
    ensures r == Evens(n)
  {
    r := [];
    for i := 1 to n + 1
      invariant |r| == i - 1
      invariant forall k :: 0 <= k < |r| ==> r[k] == 2 * (k + 1)
    {
      r := r + [2 * i];
    }
  }

  /** The inner loop of `bruteForce`: how many of p + e, e in es, the sieve
      reports prime. */
  method CountRow(sieve: Sieve, p: nat, es: seq<nat>) returns (count: nat)
    requires Valid(sieve)
    requires forall j :: 0 <= j < |es| ==> p + es[j] <= sieve.high
    ensures count == RowCount(p, es)
  {
    count := 0;
    for j := 0 to |es|
      invariant count == RowCount(p, es[..j])
    {
      var sum := p + es[j];
      if IsPrimeAt(sieve, sum) {
        count := count + 1;
      }
      assert es[..j + 1][..j] == es[..j];
    }
    assert es[..|es|] == es;
  }

  /** `bruteForce`: test every sum p + e against a sieve of [2, maxSum + 1]. */
  method BruteForce(n: nat, initialBound: nat) returns (count: nat)
    requires n >= 1 && initialBound >= 100
    ensures count == PrimeSumCount(FirstOddPrimes(n), Evens(n))
  {
    var oddPrimes := FirstNOddPrimes(n, initialBound);
    var evenInts := FirstNEvenIntegers(n);
    assert |oddPrimes| == n && StrictlyIncreasing(oddPrimes) by {
      FirstOddPrimesSpec(n);
    }
    var maxSum := oddPrimes[n - 1] + evenInts[n - 1];
    var g := Construct(2, maxSum + 1, 0);
    var sieve := g.value;
    count := 0;
    for i := 0 to n
      invariant count == PrimeSumCount(oddPrimes[..i], evenInts)
    {
      var p := oddPrimes[i];
      if i < n - 1 {
        assert oddPrimes[i] < oddPrimes[n - 1];
      }
      var row := CountRow(sieve, p, evenInts);
      count := count + row;
      assert oddPrimes[..i + 1][..i] == oddPrimes[..i];
    }
    assert oddPrimes[..n] == oddPrimes;
  }

  /** The inner `while` of `solve`: move l past the primes among the first n
      that lie more than 2n below primes[i]. The subtraction never wraps
      around because l <= i and the list is increasing. */
  method AdvanceLeft(primes: seq<nat>, n: nat, i: nat, l0: nat) returns (l: nat)
    requires StrictlyIncreasing(primes) && i < |primes| && l0 <= n && l0 <= i
    requires forall j :: 0 <= j < l0 ==> primes[i] - primes[j] > 2 * n
    ensures l0 <= l <= n && l <= i
    ensures forall j :: 0 <= j < l ==> primes[i] - primes[j] > 2 * n
    ensures forall j :: l <= j < Min(i, n) ==> primes[i] - primes[j] <= 2 * n
  {
    var p := primes[i];
    l := l0;
    while l < n && p - primes[l] > n * 2
      invariant l0 <= l <= n && l <= i
      invariant forall j :: 0 <= j < l ==> p - primes[j] > 2 * n
    {
      l := l + 1;
    }
    forall j | l <= j < Min(i, n)
      ensures p - primes[j] <= 2 * n
    {
      assert primes[l] <= primes[j];
    }
  }

  /** `solve`: list the primes of [3, maxSum] and, for each of them, count the
      primes among the first n that lie within 2n below it. Every pair it
      counts is an odd prime q of the first n and an odd prime above it by at
      most 2n, that is, a prime sum q + e. */
  method Solve(n: nat, initialBound: nat) returns (count: nat)
    requires n >= 1 && initialBound >= 100
    ensures count == PrimeSumCount(FirstOddPrimes(n), Evens(n))
  {
    var smallPrimes := FirstNOddPrimes(n, initialBound);
    var maxSum := smallPrimes[n - 1] + n * 2;
    var g := Construct(3, maxSum, 0);
    var primes := Enumerate(g.value);
    WindowTotalIsF(n, maxSum);
    count := SlideWindow(primes, n);
  }

  /** The counting loop of `solve`: for each `primes[i]`, the primes among
      the first `min(i, n)` within `2n` below it, found with a window start
      that only moves forward. */
  method SlideWindow(primes: seq<nat>, n: nat) returns (count: nat)
    requires StrictlyIncreasing(primes)
    ensures count == WindowTotal(primes, n, |primes|, 2 * n)
  {
    count := 0;
    if |primes| == 0 {
      return;
    }
    var l := 0;
    for i := 1 to |primes|
      invariant l <= n && l <= i - 1
      invariant forall j :: 0 <= j < l ==> primes[i - 1] - primes[j] > 2 * n
      invariant count == WindowTotal(primes, n, i, 2 * n)
    {
      assert primes[i - 1] < primes[i];
      l := AdvanceLeft(primes, n, i, l);
      ColCountWindow(primes, i, Min(i, n), l, 2 * n);
      count := count + (Min(i, n) - l);
    }
  }
}

=== FILE: pair_sums_spec.dfy ===
/** Reference definitions for the December 2025 puzzle (2025-12.cc): the first
    n odd primes, the first n positive even numbers, the brute-force count f(n)
    of prime pair sums, and the counting argument showing that the sliding
    window of `solve` counts the same pairs. */
module PairSumsSpec {
  import opened Primes

  // ---------------------------------------------------------------------------
  // The inputs of the puzzle

  /** The n smallest primes that are at least 3, in increasing order: the
      first n entries of the list of odd primes up to any bound that has at
      least n of them (Euclid's argument shows there is one). */
  ghost function FirstOddPrimes(n: nat): (r: seq<nat>)
    ensures |r| == n
    ensures exists b :: 3 <= b && n <= |PrimesIn(3, b)| && r == PrimesIn(3, b)[..n]
  {
    EnoughPrimesExist(n);
    var b: nat :| 3 <= b && n <= |PrimesIn(3, b)|;
    PrimesIn(3, b)[..n]
  }

  /** Two bounds with at least n odd primes below them agree on the first n. */
  lemma SamePrefix(b1: nat, b2: nat, n: nat)
    requires 3 <= b1 <= b2 && n <= |PrimesIn(3, b1)|
    ensures n <= |PrimesIn(3, b2)|
    ensures PrimesIn(3, b1)[..n] == PrimesIn(3, b2)[..n]
  {
    PrimesInMonotone(3, b1, b2);
    assert PrimesIn(3, b2)[..n] == PrimesIn(3, b2)[..|PrimesIn(3, b1)|][..n];
  }

  /** 2, 4, ..., 2n. */
  function Evens(n: nat): seq<nat>
  {
    seq(n, i => 2 * (i + 1))
  }

  /** Any list of all odd primes up to a bound starts with the same first n. */
  lemma FirstOddPrimesPrefix(b: nat, n: nat)
    requires 3 <= b && n <= |PrimesIn(3, b)|
    ensures PrimesIn(3, b)[..n] == FirstOddPrimes(n)
  {
    var b' :| 3 <= b' && n <= |PrimesIn(3, b')| && FirstOddPrimes(n) == PrimesIn(3, b')[..n];
    if b <= b' {
      SamePrefix(b, b', n);
    } else {
      SamePrefix(b', b, n);
    }
  }

  /** `FirstOddPrimes(n)` has n entries, strictly increasing, each a prime >= 3,
      and no prime between 3 and its last entry is missing. */
  lemma FirstOddPrimesSpec(n: nat)
    ensures |FirstOddPrimes(n)| == n
    ensures StrictlyIncreasing(FirstOddPrimes(n))
    ensures forall i :: 0 <= i < n ==> 3 <= FirstOddPrimes(n)[i] && IsPrime(FirstOddPrimes(n)[i])
    ensures n >= 1 ==> PrimesIn(3, FirstOddPrimes(n)[n - 1] + 1) == FirstOddPrimes(n)
    ensures n >= 1 ==> forall q :: 3 <= q <= FirstOddPrimes(n)[n - 1] && IsPrime(q) ==> q in FirstOddPrimes(n)
  {
    FirstOddPrimesArePrimes(n);
    if n >= 1 {
      FirstOddPrimesUpTo(n);
      var r := FirstOddPrimes(n);
      assert forall q :: 3 <= q <= r[n - 1] && IsPrime(q) ==> q in r by {
        PrimesInSpec(3, r[n - 1] + 1);
      }
    }
  }

  /** The entries are increasing odd primes. */
  lemma FirstOddPrimesArePrimes(n: nat)
    ensures StrictlyIncreasing(FirstOddPrimes(n))
    ensures forall i :: 0 <= i < n ==> 3 <= FirstOddPrimes(n)[i] && IsPrime(FirstOddPrimes(n)[i])
  {
    var r := FirstOddPrimes(n);
    var g :| 3 <= g && n <= |PrimesIn(3, g)| && r == PrimesIn(3, g)[..n];
    var all := PrimesIn(3, g);
    PrimesInSpec(3, g);
    forall i | 0 <= i < n
      ensures 3 <= r[i] && IsPrime(r[i])
    {
      assert r[i] == all[i] && all[i] in all;
    }
  }

  /** The entries are all the odd primes up to the last one. */
  lemma FirstOddPrimesUpTo(n: nat)
    requires n >= 1
    ensures PrimesIn(3, FirstOddPrimes(n)[n - 1] + 1) == FirstOddPrimes(n)
  {
    var r := FirstOddPrimes(n);
    var g :| 3 <= g && n <= |PrimesIn(3, g)| && r == PrimesIn(3, g)[..n];
    PrefixUpTo(3, g, n - 1);
    assert PrimesIn(3, g)[..n] == r;
  }

  // ---------------------------------------------------------------------------
  // Brute-force count

  /** Number of e in es with p + e prime. */
  function RowCount(p: nat, es: seq<nat>): nat
    decreases |es|
  {
    if es == [] then 0
    else RowCount(p, es[..|es| - 1]) + (if IsPrime(p + es[|es| - 1]) then 1 else 0)
  }

  /** Number of pairs (p, e), p from ps and e from es, with p + e prime. */
  function PrimeSumCount(ps: seq<nat>, es: seq<nat>): nat
    decreases |ps|
  {
    if ps == [] then 0
    else PrimeSumCount(ps[..|ps| - 1], es) + RowCount(ps[|ps| - 1], es)
  }

  /** f(n) of the puzzle. */
  ghost function F(n: nat): nat
  {
    PrimeSumCount(FirstOddPrimes(n), Evens(n))
  }

  // ---------------------------------------------------------------------------
  // Sliding-window counting over the sorted list Q of primes

  /** j is a partner of i: j comes before i and Q[i] - Q[j] <= w. */
  predicate Near(q: seq<nat>, j: nat, i: nat, w: nat)
    requires j < |q| && i < |q|
  {
    j < i && q[i] - q[j] <= w
  }

  /** Number of partners j < c of i. */
  function ColCount(q: seq<nat>, i: nat, c: nat, w: nat): nat
    requires i < |q| && c <= |q|
  {
    if c == 0 then 0 else ColCount(q, i, c - 1, w) + (if Near(q, c - 1, i, w) then 1 else 0)
  }

  /** Number of i < m of which j is a partner. */
  function Partners(q: seq<nat>, j: nat, m: nat, w: nat): nat
    requires j < |q| && m <= |q|
  {
    if m == 0 then 0 else Partners(q, j, m - 1, w) + (if Near(q, j, m - 1, w) then 1 else 0)
  }

  /** What `solve` accumulates: for each i < m, the partners among the first min(i, n). */
  function WindowTotal(q: seq<nat>, n: nat, m: nat, w: nat): nat
    requires m <= |q|
  {
    if m == 0 then 0 else WindowTotal(q, n, m - 1, w) + ColCount(q, m - 1, Min(m - 1, n), w)
  }

  /** Partners counted per row j < k. */
  function PartnerTotal(q: seq<nat>, k: nat, m: nat, w: nat): nat
    requires k <= |q| && m <= |q|
  {
    if k == 0 then 0 else PartnerTotal(q, k - 1, m, w) + Partners(q, k - 1, m, w)
  }

  function Min(a: nat, b: nat): nat
  {
    if a <= b then a else b
  }

  /** When the partners of i below c are exactly [l, c), there are c - l of them. */
  lemma {:induction false} ColCountWindow(q: seq<nat>, i: nat, c: nat, l: nat, w: nat)
    requires i < |q| && l <= c <= |q|
    requires forall j :: 0 <= j < l ==> !Near(q, j, i, w)
    requires forall j :: l <= j < c ==> Near(q, j, i, w)
    ensures ColCount(q, i, c, w) == c - l
  {
    if c > l {
      ColCountWindow(q, i, c - 1, l, w);
    } else if c > 0 {
      ColCountNone(q, i, c, w);
    }
  }

  lemma {:induction false} ColCountNone(q: seq<nat>, i: nat, c: nat, w: nat)
    requires i < |q| && c <= |q|
    requires forall j :: 0 <= j < c ==> !Near(q, j, i, w)
    ensures ColCount(q, i, c, w) == 0
  {
    if c > 0 {
      ColCountNone(q, i, c - 1, w);
    }
  }

  lemma {:induction false} PartnerTotalEmpty(q: seq<nat>, k: nat, w: nat)
    requires k <= |q|
    ensures PartnerTotal(q, k, 0, w) == 0
  {
    if k > 0 {
      PartnerTotalEmpty(q, k - 1, w);
    }
  }

  /** Adding column m to every row adds the partners of m among the first min(m, k) rows. */
  lemma {:induction false} PartnerTotalStep(q: seq<nat>, k: nat, m: nat, w: nat)
    requires k <= |q| && m < |q|
    ensures PartnerTotal(q, k, m + 1, w) == PartnerTotal(q, k, m, w) + ColCount(q, m, Min(m, k), w)
  {
    if k > 0 {
      PartnerTotalStep(q, k - 1, m, w);
    }
  }

  /** Counting the pairs (j, i) by column i or by row j gives the same total. */
  lemma {:induction false} WindowTotalIsPartnerTotal(q: seq<nat>, n: nat, m: nat, w: nat)
    requires n <= |q| && m <= |q|
    ensures WindowTotal(q, n, m, w) == PartnerTotal(q, n, m, w)
  {
    if m == 0 {
      PartnerTotalEmpty(q, n, w);
    } else {
      WindowTotalIsPartnerTotal(q, n, m - 1, w);
      PartnerTotalStep(q, n, m - 1, w);
    }
  }

  /** Partners of j when they are exactly the indices in [a, b). */
  lemma {:induction false} PartnersInterval(q: seq<nat>, j: nat, m: nat, a: nat, b: nat, w: nat)
    requires j < |q| && m <= |q| && a <= b
    requires forall i :: 0 <= i < |q| ==> (Near(q, j, i, w) <==> a <= i < b)
    ensures Partners(q, j, m, w) == if m <= a then 0 else if m <= b then m - a else b - a
  {
    if m > 0 {
      PartnersInterval(q, j, m - 1, a, b, w);
    }
  }

  /** When q is x + y + z with x ending at q[j], y inside (q[j], q[j] + w] and z
      beyond q[j] + w, the partners of j are exactly the indices of y. */
  lemma NearWindow(q: seq<nat>, x: seq<nat>, y: seq<nat>, z: seq<nat>, j: nat, w: nat)
    requires q == x + (y + z) && |x| == j + 1
    requires forall e :: e in y ==> q[j] < e <= q[j] + w
    requires forall e :: e in z ==> q[j] + w < e
    ensures forall i :: 0 <= i < |q| ==> (Near(q, j, i, w) <==> j + 1 <= i < j + 1 + |y|)
  {
    forall i | 0 <= i < |q|
      ensures Near(q, j, i, w) <==> j + 1 <= i < j + 1 + |y|
    {
      if i <= j {
      } else if i < j + 1 + |y| {
        assert q[i] == y[i - j - 1];
        assert y[i - j - 1] in y;
      } else {
        assert q[i] == z[i - j - 1 - |y|];
        assert z[i - j - 1 - |y|] in z;
      }
    }
  }

  /** In the list of the primes of [lo, top], the partners of j within
      distance w are the primes of (q[j], q[j] + w]. */
  lemma PartnersArePrimesAbove(lo: nat, top: nat, j: nat, w: nat)
    requires j < |PrimesIn(lo, top + 1)|
    requires PrimesIn(lo, top + 1)[j] + w <= top
    ensures Partners(PrimesIn(lo, top + 1), j, |PrimesIn(lo, top + 1)|, w)
              == |PrimesIn(PrimesIn(lo, top + 1)[j] + 1, PrimesIn(lo, top + 1)[j] + w + 1)|
  {
    var x, y, z := SplitAround(lo, top, j, w);
    PartnersOfSplit(PrimesIn(lo, top + 1), x, y, z, j, w);
  }

  /** The primes of [lo, top] cut after their element number j and again
      after distance w from it. */
  lemma SplitAround(lo: nat, top: nat, j: nat, w: nat) returns (x: seq<nat>, y: seq<nat>, z: seq<nat>)
    requires j < |PrimesIn(lo, top + 1)|
    requires PrimesIn(lo, top + 1)[j] + w <= top
    ensures PrimesIn(lo, top + 1) == x + (y + z) && |x| == j + 1
    ensures y == PrimesIn(PrimesIn(lo, top + 1)[j] + 1, PrimesIn(lo, top + 1)[j] + w + 1)
    ensures forall e :: e in y ==> PrimesIn(lo, top + 1)[j] < e <= PrimesIn(lo, top + 1)[j] + w
    ensures forall e :: e in z ==> PrimesIn(lo, top + 1)[j] + w < e
  {
    var q := PrimesIn(lo, top + 1);
    var v := q[j];
    assert lo <= v by {
      PrimesInBounds(lo, top + 1);
      assert v in q;
    }
    PrefixUpTo(lo, top + 1, j);
    x, y, z := PrimesIn(lo, v + 1), PrimesIn(v + 1, v + w + 1), PrimesIn(v + w + 1, top + 1);
    ThreePieces(lo, v + 1, v + w + 1, top + 1);
  }

  /** The primes of [lo, hi) split at a and at b. */
  lemma ThreePieces(lo: nat, a: nat, b: nat, hi: nat)
    requires lo <= a <= b <= hi
    ensures PrimesIn(lo, hi) == PrimesIn(lo, a) + (PrimesIn(a, b) + PrimesIn(b, hi))
    ensures forall e :: e in PrimesIn(a, b) ==> a <= e < b
    ensures forall e :: e in PrimesIn(b, hi) ==> b <= e
  {
    PrimesInSplit(lo, a, hi);
    PrimesInSplit(a, b, hi);
    PrimesInBounds(a, b);
    PrimesInBounds(b, hi);
  }

  /** The primes of [a, b) lie in [a, b). */
  lemma PrimesInBounds(a: nat, b: nat)
    ensures forall e :: e in PrimesIn(a, b) ==> a <= e < b
  {
    PrimesInSpec(a, b);
  }

  /** When q is x + y + z with x ending at q[j], y inside (q[j], q[j] + w] and z
      beyond q[j] + w, j has one partner per element of y. */
  lemma PartnersOfSplit(q: seq<nat>, x: seq<nat>, y: seq<nat>, z: seq<nat>, j: nat, w: nat)
    requires q == x + (y + z) && |x| == j + 1
    requires forall e :: e in y ==> q[j] < e <= q[j] + w
    requires forall e :: e in z ==> q[j] + w < e
    ensures Partners(q, j, |q|, w) == |y|
  {
    NearWindow(q, x, y, z, j, w);
    PartnersInterval(q, j, |q|, j + 1, j + 1 + |y|, w);
  }

  /** For odd p, the prime sums p + 2, ..., p + 2k are the primes of (p, p + 2k]. */
  lemma {:induction false} RowCountIsPrimesAbove(p: nat, k: nat)
    requires p >= 3 && p % 2 == 1
    ensures RowCount(p, Evens(k)) == |PrimesIn(p + 1, p + 2 * k + 1)|
  {
    if k > 0 {
      RowCountIsPrimesAbove(p, k - 1);
      RowCountStep(p, k);
      PrimesAboveStep(p, k);
    }
  }

  /** The k-th even number adds one to the row when p + 2k is prime. */
  lemma RowCountStep(p: nat, k: nat)
    requires k >= 1
    ensures RowCount(p, Evens(k)) == RowCount(p, Evens(k - 1)) + (if IsPrime(p + 2 * k) then 1 else 0)
  {
    assert Evens(k)[..k - 1] == Evens(k - 1);
  }

  /** Between p + 2k - 1 and p + 2k + 1 only the odd number p + 2k can be prime. */
  lemma PrimesAboveStep(p: nat, k: nat)
    requires p >= 3 && p % 2 == 1 && k >= 1
    ensures |PrimesIn(p + 1, p + 2 * k + 1)|
              == |PrimesIn(p + 1, p + 2 * (k - 1) + 1)| + (if IsPrime(p + 2 * k) then 1 else 0)
  {
    PrimesInSplit(p + 1, p + 2 * k - 1, p + 2 * k + 1);
    EvenNotPrime(p + 2 * k - 1);
    assert PrimesIn(p + 2 * k - 1, p + 2 * k + 1)
        == (if IsPrime(p + 2 * k) then [p + 2 * k] else []) + PrimesIn(p + 2 * k + 1, p + 2 * k + 1);
  }

  /** Row by row, the partner counts of the first k primes are their brute-force counts. */
  lemma {:induction false} PartnerTotalIsPrimeSumCount(n: nat, top: nat, k: nat)
    requires 1 <= n && k <= n
    requires top == FirstOddPrimes(n)[n - 1] + 2 * n
    requires n <= |PrimesIn(3, top + 1)| && PrimesIn(3, top + 1)[..n] == FirstOddPrimes(n)
    ensures PartnerTotal(PrimesIn(3, top + 1), k, |PrimesIn(3, top + 1)|, 2 * n)
              == PrimeSumCount(FirstOddPrimes(n)[..k], Evens(n))
  {
    if k > 0 {
      var q := PrimesIn(3, top + 1);
      var ps := FirstOddPrimes(n);
      PartnerTotalIsPrimeSumCount(n, top, k - 1);
      assert q[k - 1] == q[..n][k - 1] == ps[k - 1];
      assert q[n - 1] == q[..n][n - 1] == ps[n - 1];
      IncreasingUpTo(top, k - 1, n);
      PartnersAreRowCount(top, k - 1, n);
      assert ps[..k][..k - 1] == ps[..k - 1];
    }
  }

  /** The odd primes up to top are increasing. */
  lemma IncreasingUpTo(top: nat, i: nat, m: nat)
    requires i < m <= |PrimesIn(3, top + 1)|
    ensures PrimesIn(3, top + 1)[i] <= PrimesIn(3, top + 1)[m - 1]
  {
    PrimesInSpec(3, top + 1);
  }

  /** The partners of the j-th odd prime p in the window of width 2n are its
      brute-force row: the primes among p + 2, ..., p + 2n. */
  lemma PartnersAreRowCount(top: nat, j: nat, n: nat)
    requires j < |PrimesIn(3, top + 1)|
    requires PrimesIn(3, top + 1)[j] + 2 * n <= top
    ensures Partners(PrimesIn(3, top + 1), j, |PrimesIn(3, top + 1)|, 2 * n)
              == RowCount(PrimesIn(3, top + 1)[j], Evens(n))
  {
    var q := PrimesIn(3, top + 1);
    var p := q[j];
    assert 3 <= p && IsPrime(p) by {
      PrimesInSpec(3, top + 1);
      assert p in q;
    }
    PartnersArePrimesAbove(3, top, j, 2 * n);
    OddPrime(p);
    RowCountIsPrimesAbove(p, n);
  }

  /** The sliding-window total over all odd primes up to the largest possible
      sum is f(n). */
  lemma WindowTotalIsF(n: nat, top: nat)
    requires n >= 1
    requires top == FirstOddPrimes(n)[n - 1] + 2 * n
    ensures n <= |PrimesIn(3, top + 1)|
    ensures PrimesIn(3, top + 1)[..n] == FirstOddPrimes(n)
    ensures WindowTotal(PrimesIn(3, top + 1), n, |PrimesIn(3, top + 1)|, 2 * n) == F(n)
  {
    var ps := FirstOddPrimes(n);
    FirstOddPrimesSpec(n);
    PrimesInMonotone(3, ps[n - 1] + 1, top + 1);
    FirstOddPrimesPrefix(top + 1, n);
    var q := PrimesIn(3, top + 1);
    WindowTotalIsPartnerTotal(q, n, |q|, 2 * n);
    PartnerTotalIsPrimeSumCount(n, top, n);
    assert ps[..n] == ps;
  }
}

=== FILE: pair_sums_tests.dfy ===
/** The small cases of the December 2025 puzzle worked out in 2025-12.cc:
    the first five odd primes and even numbers, f(1) .. f(5). */
module PairSumsTests {
  import opened Primes
  import opened PairSumsSpec
  import opened PairSums
  import opened SieveTests

  lemma FirstFive()
    ensures PrimesIn(3, 14) == [3, 5, 7, 11, 13]
    ensures Evens(5) == [2, 4, 6, 8, 10]
  {
    PrimesBelow30Chunks();
    PrimesInSplit(1, 3, 6);
    PrimesInSplit(3, 6, 11);
    PrimesInSplit(3, 11, 16);
    PrimesInSplit(3, 14, 16);
    PrimesBelow30();
    CompositesBelow30();
    assert PrimesIn(14, 16) == [];
    assert PrimesIn(3, 14) == [3, 5, 7, 11, 13];
  }

  lemma FirstK(k: nat)
    requires 1 <= k <= 5
    ensures FirstOddPrimes(k) == [3, 5, 7, 11, 13][..k]
  {
    FirstFive();
    FirstOddPrimesPrefix(14, k);
  }

  lemma RowStep(p: nat, k: nat)
    ensures RowCount(p, Evens(k + 1)) == RowCount(p, Evens(k)) + (if IsPrime(p + 2 * (k + 1)) then 1 else 0)
  {
    assert Evens(k + 1)[..k] == Evens(k);
  }

  lemma Row3()
    ensures RowCount(3, Evens(1)) == 1
    ensures RowCount(3, Evens(2)) == 2
    ensures RowCount(3, Evens(3)) == 2
    ensures RowCount(3, Evens(4)) == 3
    ensures RowCount(3, Evens(5)) == 4
  {
    PrimesBelow30();
    CompositesBelow30();
    assert Evens(0) == [];
    RowStep(3, 0);
    RowStep(3, 1);
    RowStep(3, 2);
    RowStep(3, 3);
    RowStep(3, 4);
  }

  lemma Row5()
    ensures RowCount(5, Evens(1)) == 1
    ensures RowCount(5, Evens(2)) == 1
    ensures RowCount(5, Evens(3)) == 2
    ensures RowCount(5, Evens(4)) == 3
    ensures RowCount(5, Evens(5)) == 3
  {
    PrimesBelow30();
    CompositesBelow30();
    assert Evens(0) == [];
    RowStep(5, 0);
    RowStep(5, 1);
    RowStep(5, 2);
    RowStep(5, 3);
    RowStep(5, 4);
  }

  lemma Row7()
    ensures RowCount(7, Evens(1)) == 0
    ensures RowCount(7, Evens(2)) == 1
    ensures RowCount(7, Evens(3)) == 2
    ensures RowCount(7, Evens(4)) == 2
    ensures RowCount(7, Evens(5)) == 3
  {
    PrimesBelow30();
    CompositesBelow30();
    assert Evens(0) == [];
    RowStep(7, 0);
    RowStep(7, 1);
    RowStep(7, 2);
    RowStep(7, 3);
    RowStep(7, 4);
  }

  lemma Row11()
    ensures RowCount(11, Evens(1)) == 1
    ensures RowCount(11, Evens(2)) == 1
    ensures RowCount(11, Evens(3)) == 2
    ensures RowCount(11, Evens(4)) == 3
    ensures RowCount(11, Evens(5)) == 3
  {
    PrimesBelow30();
    CompositesBelow30();
    assert Evens(0) == [];
    RowStep(11, 0);
    RowStep(11, 1);
    RowStep(11, 2);
    RowStep(11, 3);
    RowStep(11, 4);
  }

  lemma Row13()
    ensures RowCount(13, Evens(1)) == 0
    ensures RowCount(13, Evens(2)) == 1
    ensures RowCount(13, Evens(3)) == 2
    ensures RowCount(13, Evens(4)) == 2
    ensures RowCount(13, Evens(5)) == 3
  {
    PrimesBelow30();
    CompositesBelow30();
    assert Evens(0) == [];
    RowStep(13, 0);
    RowStep(13, 1);
    RowStep(13, 2);
    RowStep(13, 3);
    RowStep(13, 4);
  }

  lemma SumStep(ps: seq<nat>, p: nat, es: seq<nat>)
    ensures PrimeSumCount(ps + [p], es) == PrimeSumCount(ps, es) + RowCount(p, es)
  {
    assert (ps + [p])[..|ps|] == ps;
  }

  lemma F1()
    ensures F(1) == 1
  {
    FirstK(1);
    assert [3, 5, 7, 11, 13][..1] == [3];
    assert PrimeSumCount([], Evens(1)) == 0;
    Row3();
    SumStep([], 3, Evens(1));
    assert [] + [3] == [3];
    assert PrimeSumCount([3], Evens(1)) == 1;
  }

  lemma F2()
    ensures F(2) == 3
  {
    FirstK(2);
    assert [3, 5, 7, 11, 13][..2] == [3, 5];
    assert PrimeSumCount([], Evens(2)) == 0;
    Row3();
    SumStep([], 3, Evens(2));
    assert [] + [3] == [3];
    assert PrimeSumCount([3], Evens(2)) == 2;
    Row5();
    SumStep([3], 5, Evens(2));
    assert [3] + [5] == [3, 5];
    assert PrimeSumCount([3, 5], Evens(2)) == 3;
  }

  lemma F3()
    ensures F(3) == 6
  {
    FirstK(3);
    assert [3, 5, 7, 11, 13][..3] == [3, 5, 7];
    assert PrimeSumCount([], Evens(3)) == 0;
    Row3();
    SumStep([], 3, Evens(3));
    assert [] + [3] == [3];
    assert PrimeSumCount([3], Evens(3)) == 2;
    Row5();
    SumStep([3], 5, Evens(3));
    assert [3] + [5] == [3, 5];
    assert PrimeSumCount([3, 5], Evens(3)) == 4;
    Row7();
    SumStep([3, 5], 7, Evens(3));
    assert [3, 5] + [7] == [3, 5, 7];
    assert PrimeSumCount([3, 5, 7], Evens(3)) == 6;
  }

  lemma F4()
    ensures F(4) == 11
  {
    FirstK(4);
    assert [3, 5, 7, 11, 13][..4] == [3, 5, 7, 11];
    assert PrimeSumCount([], Evens(4)) == 0;
    Row3();
    SumStep([], 3, Evens(4));
    assert [] + [3] == [3];
    assert PrimeSumCount([3], Evens(4)) == 3;
    Row5();
    SumStep([3], 5, Evens(4));
    assert [3] + [5] == [3, 5];
    assert PrimeSumCount([3, 5], Evens(4)) == 6;
    Row7();
    SumStep([3, 5], 7, Evens(4));
    assert [3, 5] + [7] == [3, 5, 7];
    assert PrimeSumCount([3, 5, 7], Evens(4)) == 8;
    Row11();
    SumStep([3, 5, 7], 11, Evens(4));
    assert [3, 5, 7] + [11] == [3, 5, 7, 11];
    assert PrimeSumCount([3, 5, 7, 11], Evens(4)) == 11;
  }

  lemma F5()
    ensures F(5) == 16
  {
    FirstK(5);
    assert [3, 5, 7, 11, 13][..5] == [3, 5, 7, 11, 13];
    assert PrimeSumCount([], Evens(5)) == 0;
    Row3();
    SumStep([], 3, Evens(5));
    assert [] + [3] == [3];
    assert PrimeSumCount([3], Evens(5)) == 4;
    Row5();
    SumStep([3], 5, Evens(5));
    assert [3] + [5] == [3, 5];
    assert PrimeSumCount([3, 5], Evens(5)) == 7;
    Row7();
    SumStep([3, 5], 7, Evens(5));
    assert [3, 5] + [7] == [3, 5, 7];
    assert PrimeSumCount([3, 5, 7], Evens(5)) == 10;
    Row11();
    SumStep([3, 5, 7], 11, Evens(5));
    assert [3, 5, 7] + [11] == [3, 5, 7, 11];
    assert PrimeSumCount([3, 5, 7, 11], Evens(5)) == 13;
    Row13();
    SumStep([3, 5, 7, 11], 13, Evens(5));
    assert [3, 5, 7, 11] + [13] == [3, 5, 7, 11, 13];
    assert PrimeSumCount([3, 5, 7, 11, 13], Evens(5)) == 16;
  }

  /** f(n) for n = 1 .. 5, as listed beside the brute-force tests. */
  lemma SmallValues()
    ensures F(1) == 1 && F(2) == 3 && F(3) == 6 && F(4) == 11 && F(5) == 16
  {
    F1();
    F2();
    F3();
    F4();
    F5();
  }

  method FirstOddPrimesFive() returns (primes: seq<nat>)
    ensures primes == [3, 5, 7, 11, 13]
  {
    primes := FirstNOddPrimes(5, 100);
    FirstK(5);
    assert [3, 5, 7, 11, 13][..5] == [3, 5, 7, 11, 13];
  }

  method FirstEvenIntegersFive() returns (evens: seq<nat>)
    ensures evens == [2, 4, 6, 8, 10]
  {
    evens := FirstNEvenIntegers(5);
  }

  method BruteForceSmall() returns (f1: nat, f2: nat, f3: nat, f4: nat, f5: nat)
    ensures f1 == 1 && f2 == 3 && f3 == 6 && f4 == 11 && f5 == 16
  {
    f1 := BruteForce(1, 100);
    f2 := BruteForce(2, 100);
    f3 := BruteForce(3, 100);
    f4 := BruteForce(4, 100);
    f5 := BruteForce(5, 100);
    SmallValues();
  }

  method SolveF5() returns (f5: nat)
    ensures f5 == 16
  {
    f5 := Solve(5, 100);
    SmallValues();
  }
}

=== FILE: primes.dfy ===
/** Elementary number theory shared by the sieve and the puzzle solvers:
    divisibility, primality, the ordered list of primes in a range (the
    brute-force reference every sieve result is compared against), the least
    divisor of a number, and Euclid's bound that guarantees a prime beyond any
    given number. */
module Primes {

  /** `d` divides `n` (with `d` positive). */
  predicate Divides(d: nat, n: nat) {
    d > 0 && n % d == 0
  }

  /** Trial-division definition of a prime. */
  predicate IsPrime(n: nat) {
    n >= 2 && forall d :: 2 <= d < n ==> !Divides(d, n)
  }

  predicate StrictlyIncreasing(s: seq<nat>) {
    forall i, j :: 0 <= i < j < |s| ==> s[i] < s[j]
  }

  /** Reference enumeration: the primes in the half-open range [lo, hi), increasing. */
  function PrimesIn(lo: nat, hi: nat): seq<nat>
    decreases hi - lo
  {
    if lo >= hi then []
    else (if IsPrime(lo) then [lo] else []) + PrimesIn(lo + 1, hi)
  }

  // ---------------------------------------------------------------------------
  // Division facts

  lemma MulAtLeast(d: int, k: int)
    requires d > 0 && k >= 1
    ensures d * k >= d
  {
    assert d * k == d * (k - 1) + d;
  }

  lemma DivModUnique(a: int, d: int, q: int, r: int)
    requires d > 0 && 0 <= r < d && a == d * q + r
    ensures a % d == r && a / d == q
  {
    var q', r' := a / d, a % d;
    assert a == d * q' + r' && 0 <= r' < d;
    if q > q' {
      var k := q - q';
      assert d * q == d * q' + d * k;
      MulAtLeast(d, k);
      assert false;
    } else if q < q' {
      var k := q' - q;
      assert d * q' == d * q + d * k;
      MulAtLeast(d, k);
      assert false;
    }
  }

  lemma DividesMul(d: nat, k: nat)
    requires d > 0
    ensures Divides(d, d * k)
  {
    DivModUnique(d * k, d, k, 0);
  }

  lemma DividesSelf(n: nat)
    requires n > 0
    ensures Divides(n, n)
  {
    DivModUnique(n, n, 1, 0);
  }

  lemma DividesTrans(a: nat, b: nat, c: nat)
    requires Divides(a, b) && Divides(b, c)
    ensures Divides(a, c)
  {
    var x, y := b / a, c / b;
    assert b == a * x;
    assert c == b * y;
    assert c == a * (x * y);
    DivModUnique(c, a, x * y, 0);
  }

  lemma NotDividesSucc(d: nat, a: nat)
    requires d >= 2 && Divides(d, a)
    ensures !Divides(d, a + 1)
  {
    var x := a / d;
    assert a == d * x;
    DivModUnique(a + 1, d, x, 1);
  }

  lemma SquareMono(a: nat, b: nat)
    requires a <= b
    ensures a * a <= b * b
  {
    assert a * a <= a * b;
    assert a * b <= b * b;
  }

  /** Any even number from 4 upwards is composite. */
  lemma EvenNotPrime(m: nat)
    requires m >= 4 && m % 2 == 0
    ensures !IsPrime(m)
  {
    assert Divides(2, m);
  }

  /** Primes other than 2 are odd. */
  lemma OddPrime(p: nat)
    requires IsPrime(p) && p >= 3
    ensures p % 2 == 1
  {
    assert !Divides(2, p);
  }

  // ---------------------------------------------------------------------------
  // The reference enumeration

  /** `PrimesIn` holds exactly the primes of the range, strictly increasing. */
  lemma {:induction false} PrimesInSpec(lo: nat, hi: nat)
    ensures forall x :: x in PrimesIn(lo, hi) <==> lo <= x < hi && IsPrime(x)
    ensures StrictlyIncreasing(PrimesIn(lo, hi))
    decreases hi - lo
  {
    if lo < hi {
      PrimesInSpec(lo + 1, hi);
      var head := if IsPrime(lo) then [lo] else [];
      var rest := PrimesIn(lo + 1, hi);
      assert PrimesIn(lo, hi) == head + rest;
      forall i, j | 0 <= i < j < |head + rest|
        ensures (head + rest)[i] < (head + rest)[j]
      {
        if i < |head| {
          assert (head + rest)[j] == rest[j - |head|];
          assert rest[j - |head|] in rest;
        }
      }
    }
  }

  /** Enumerating a range piecewise gives the same list. */
  lemma {:induction false} PrimesInSplit(lo: nat, mid: nat, hi: nat)
    requires lo <= mid <= hi
    ensures PrimesIn(lo, hi) == PrimesIn(lo, mid) + PrimesIn(mid, hi)
    decreases mid - lo
  {
    if lo < mid {
      PrimesInSplit(lo + 1, mid, hi);
    }
  }

  /** A stretch without primes contributes nothing. */
  lemma NoPrimesIn(lo: nat, hi: nat)
    requires forall k :: lo <= k < hi ==> !IsPrime(k)
    ensures PrimesIn(lo, hi) == []
  {
    PrimesInSpec(lo, hi);
    if PrimesIn(lo, hi) != [] {
      assert PrimesIn(lo, hi)[0] in PrimesIn(lo, hi);
    }
  }

  /** Skipping a prime-free stretch does not change the enumeration. */
  lemma SkipNonPrimes(a: nat, b: nat, hi: nat)
    requires a <= b <= hi
    requires forall k :: a <= k < b ==> !IsPrime(k)
    ensures PrimesIn(a, hi) == PrimesIn(b, hi)
  {
    PrimesInSplit(a, b, hi);
    NoPrimesIn(a, b);
  }

  /** Raising the upper end never loses primes. */
  lemma PrimesInMonotone(lo: nat, b1: nat, b2: nat)
    requires lo <= b1 <= b2
    ensures |PrimesIn(lo, b1)| <= |PrimesIn(lo, b2)|
    ensures PrimesIn(lo, b2)[..|PrimesIn(lo, b1)|] == PrimesIn(lo, b1)
  {
    PrimesInSplit(lo, b1, b2);
  }

  /** The primes of [lo, Q[j]] are exactly the first j+1 entries of Q. */
  lemma PrefixUpTo(lo: nat, hi: nat, j: nat)
    requires j < |PrimesIn(lo, hi)|
    ensures PrimesIn(lo, hi)[j] + 1 <= hi
    ensures PrimesIn(lo, PrimesIn(lo, hi)[j] + 1) == PrimesIn(lo, hi)[..j + 1]
  {
    var q := PrimesIn(lo, hi);
    PrimesInSpec(lo, hi);
    assert q[j] in q;
    var m := q[j] + 1;
    PrimesInSplit(lo, m, hi);
    var x, y := PrimesIn(lo, m), PrimesIn(m, hi);
    PrimesInSpec(lo, m);
    PrimesInSpec(m, hi);
    assert q == x + y;
    assert q[j] in x;
    var idx :| 0 <= idx < |x| && x[idx] == q[j];
    assert q[idx] == x[idx];
    assert idx == j;
    var t := |x| - 1;
    assert x[t] in x;
    assert q[t] == x[t];
    assert t <= j;
    assert x == q[..|x|];
  }

  // ---------------------------------------------------------------------------
  // Trial division, the executable form of IsPrime

  /** No d' in [d, n) divides n. */
  predicate NoDivisorFrom(n: nat, d: nat)
    requires d >= 1
    decreases n - d
  {
    d >= n || (n % d != 0 && NoDivisorFrom(n, d + 1))
  }

  lemma {:induction false} NoDivisorFromSpec(n: nat, d: nat)
    requires d >= 1
    ensures NoDivisorFrom(n, d) <==> forall k :: d <= k < n ==> !Divides(k, n)
    decreases n - d
  {
    if d < n {
      NoDivisorFromSpec(n, d + 1);
      if NoDivisorFrom(n, d) {
        forall k | d <= k < n
          ensures !Divides(k, n)
        {
          if k == d {
            assert n % d != 0;
          }
        }
      } else if n % d == 0 {
        assert Divides(d, n);
      }
    }
  }

  lemma PrimeByTrial(n: nat)
    requires n >= 2 && NoDivisorFrom(n, 2)
    ensures IsPrime(n)
  {
    NoDivisorFromSpec(n, 2);
  }

  // ---------------------------------------------------------------------------
  // Least divisor

  /** The least divisor of `n` that is at least `d`, found by trial division. */
  function LeastDivisorFrom(n: nat, d: nat): (r: nat)
    requires 2 <= d <= n
    ensures d <= r <= n && Divides(r, n)
    ensures forall k :: d <= k < r ==> !Divides(k, n)
    decreases n - d
  {
    DividesSelf(n);
    if Divides(d, n) then d else LeastDivisorFrom(n, d + 1)
  }

  function LeastDivisor(n: nat): nat
    requires n >= 2
  {
    LeastDivisorFrom(n, 2)
  }

  /** The least divisor above 1 is prime. */
  lemma LeastDivisorIsPrime(n: nat)
    requires n >= 2
    ensures IsPrime(LeastDivisor(n))
  {
    var r := LeastDivisor(n);
    forall k | 2 <= k < r
      ensures !Divides(k, r)
    {
      if Divides(k, r) {
        DividesTrans(k, r, n);
      }
    }
  }

  /** A composite `n` has a divisor `r` with r*r <= n: the least one. */
  lemma CompositeHasSmallFactor(n: nat)
    requires n >= 2 && !IsPrime(n)
    ensures 2 <= LeastDivisor(n) < n
    ensures LeastDivisor(n) * LeastDivisor(n) <= n
    ensures Divides(LeastDivisor(n), n)
  {
    var r := LeastDivisor(n);
    var d :| 2 <= d < n && Divides(d, n);
    assert r <= d;
    var q := n / r;
    assert n == r * q;
    CofactorAtLeastTwo(n, r, q);
    DivModUnique(n, q, r, 0);
    assert Divides(q, n);
    assert r <= q;
    MulLeft(r, r, q);
  }

  /** The cofactor of a proper divisor is at least 2. */
  lemma CofactorAtLeastTwo(n: nat, r: nat, q: nat)
    requires 1 <= r < n && n == r * q
    ensures q >= 2
  {
    if q <= 1 {
      MulLeft(r, q, 1);
    }
  }

  lemma MulLeft(a: nat, b: nat, c: nat)
    requires b <= c
    ensures a * b <= a * c
  {
    assert a * c == a * b + a * (c - b);
  }

  // ---------------------------------------------------------------------------
  // Euclid: there is always a further prime

  function Factorial(n: nat): (r: nat)
    ensures r >= 1
  {
    if n == 0 then 1 else n * Factorial(n - 1)
  }

  lemma {:induction false} DividesFactorial(d: nat, n: nat)
    requires 1 <= d <= n
    ensures Divides(d, Factorial(n))
  {
    if d == n {
      DividesMul(n, Factorial(n - 1));
    } else {
      DividesFactorial(d, n - 1);
      DividesMul(Factorial(n - 1), n);
      assert Factorial(n) == Factorial(n - 1) * n;
      DividesTrans(d, Factorial(n - 1), Factorial(n));
    }
  }

  /** A prime larger than `x`: the least divisor of x! + 1. */
  function PrimeAbove(x: nat): nat
  {
    LeastDivisor(Factorial(x) + 1)
  }

  lemma PrimeAboveSpec(x: nat)
    ensures IsPrime(PrimeAbove(x)) && PrimeAbove(x) > x
  {
    var m := Factorial(x) + 1;
    var r := LeastDivisor(m);
    LeastDivisorIsPrime(m);
    if r <= x {
      DividesFactorial(r, x);
      NotDividesSucc(r, Factorial(x));
      assert false;
    }
  }

  /** A bound with at least `k` primes in [3, b]: Euclid's argument,
      repeated `k` times. */
  lemma {:induction false} EnoughPrimes(k: nat) returns (b: nat)
    ensures b >= 2 && |PrimesIn(3, b + 1)| >= k
  {
    if k == 0 {
      b := 2;
    } else {
      var b0 := EnoughPrimes(k - 1);
      b := PrimeAbove(b0);
      PrimeAboveSpec(b0);
      MorePrimes(3, b0 + 1, b + 1, b);
    }
  }

  /** Some bound has at least `k` primes in [3, b). */
  lemma EnoughPrimesExist(k: nat)
    ensures exists b :: 3 <= b && k <= |PrimesIn(3, b)|
  {
    var b := EnoughPrimes(k);
    assert 3 <= b + 1 && k <= |PrimesIn(3, b + 1)|;
  }

  /** Extending a range past one more prime enumerates one more. */
  lemma MorePrimes(lo: nat, mid: nat, hi: nat, x: nat)
    requires lo <= mid <= x < hi && IsPrime(x)
    ensures |PrimesIn(lo, hi)| >= |PrimesIn(lo, mid)| + 1
  {
    PrimesInSplit(lo, mid, hi);
    PrimeInRange(mid, hi, x);
  }

  /** A range holding a prime enumerates at least one. */
  lemma PrimeInRange(lo: nat, hi: nat, x: nat)
    requires lo <= x < hi && IsPrime(x)
    ensures |PrimesIn(lo, hi)| >= 1
  {
    PrimesInSpec(lo, hi);
    assert x in PrimesIn(lo, hi);
  }
}

=== FILE: sieve.dfy ===
/** The prime table of prime_number_gen.cc: a Sieve of Eratosthenes over
    [0, high] with a sentinel slot at high+1, and a forward iterator over the
    primes of [low, high].  The word-packed bit array of the source is modelled
    as one boolean per index. */
module Sieve {
  import opened Wrappers
  import opened Primes

  /** A constructed table.  `id` stands for the object's address, which
      iterators compare; `notPrime[i]` is the "not prime" bit of index i;
      the slot at `high + 1` is the iteration sentinel. */
  datatype Sieve = Sieve(id: nat, low: nat, high: nat, notPrime: seq<bool>)

  /** What construction establishes: the bounds passed the range checks and
      the bit of i is set exactly when i <= high and i is not prime. */
  predicate Valid(s: Sieve) {
    && 0 < s.low < s.high
    && |s.notPrime| == s.high + 2
    && forall i :: 0 <= i < |s.notPrime| ==> (s.notPrime[i] <==> i <= s.high && !IsPrime(i))
  }

  /** Integer square root by decrementing an over-guess until its square fits. */
  method IntSqrt(n: nat, guess: nat) returns (r: nat)
    requires n < (guess + 1) * (guess + 1)
    ensures r * r <= n < (r + 1) * (r + 1)
  {
    r := guess;
    while r * r > n
      invariant n < (r + 1) * (r + 1)
      decreases r
    {
      r := r - 1;
    }
  }

  // ---------------------------------------------------------------------------
  // Marking

  /** Marked indices are composites, 0 or 1, and never beyond `high`. */
  ghost predicate SoundMarks(marks: seq<bool>, high: nat) {
    forall i :: 0 <= i < |marks| && marks[i] ==> i <= high && !IsPrime(i)
  }

  /** Every i <= high with a divisor q in [2, p) and q*q <= i is marked. */
  ghost predicate CoveredBelow(marks: seq<bool>, p: nat, high: nat)
    requires high < |marks|
  {
    forall q: nat, i: nat :: 2 <= q < p && Divides(q, i) && q * q <= i <= high ==> marks[i]
  }

  lemma MultipleNotPrime(p: nat, i: nat)
    requires 2 <= p && p * p <= i && Divides(p, i)
    ensures !IsPrime(i)
  {
    MulAtLeast(p, p);
    assert p * p >= 2 * p;
  }

  lemma NoMultipleBetween(p: nat, n: nat, i: nat)
    requires p > 0 && n % p == 0 && n < i < n + p
    ensures !Divides(p, i)
  {
    DivModUnique(i, p, n / p, i - n);
  }

  /** Inner loop of both passes: set p*p, p*p+p, ... up to `limit`. */
  method MarkMultiples(marks: array<bool>, p: nat, limit: nat)
    requires 2 <= p && limit < marks.Length
    modifies marks
    ensures forall i :: 0 <= i < marks.Length ==>
              (marks[i] <==> old(marks[i]) || (p * p <= i <= limit && Divides(p, i)))
  {
    var n := p * p;
    DividesMul(p, p);
    while n <= limit
      invariant n >= p * p && Divides(p, n)
      invariant forall i :: 0 <= i < marks.Length ==>
                  (marks[i] <==> old(marks[i]) || (p * p <= i < n && i <= limit && Divides(p, i)))
      decreases limit + 1 - n
    {
      forall i | n < i < n + p
        ensures !Divides(p, i)
      {
        NoMultipleBetween(p, n, i);
      }
      marks[n] := true;
      DivModUnique(n + p, p, n / p + 1, 0);
      n := n + p;
    }
  }

  /** First pass: each unmarked p <= bound marks its multiples up to sqrtHigh. */
  method FirstPass(marks: array<bool>, high: nat, sqrtHigh: nat, bound: nat)
    requires marks.Length == high + 2 && sqrtHigh <= high && bound <= high + 1
    requires marks[0] && marks[1] && SoundMarks(marks[..], high)
    modifies marks
    ensures marks[0] && marks[1] && SoundMarks(marks[..], high)
  {
    var p := 2;
    while p <= bound
      invariant 2 <= p
      invariant marks[0] && marks[1]
      invariant SoundMarks(marks[..], high)
    {
      if !marks[p] {
        ghost var before := marks[..];
        MarkMultiples(marks, p, sqrtHigh);
        forall i | 0 <= i < marks.Length && marks[i]
          ensures i <= high && !IsPrime(i)
        {
          if !before[i] {
            MultipleNotPrime(p, i);
          }
        }
      }
      p := p + 1;
    }
  }

  /** One step of the second pass keeps every multiple of p (from p*p) covered:
      either p was unmarked and has just marked them, or p is composite and its
      least divisor covered them earlier. */
  lemma CoverStep(before: seq<bool>, after: seq<bool>, p: nat, high: nat)
    requires 2 <= p <= high && |before| == |after| == high + 2
    requires SoundMarks(before, high) && CoveredBelow(before, p, high)
    requires forall i :: 0 <= i < |after| ==>
               (after[i] <==> before[i] || (!before[p] && p * p <= i <= high && Divides(p, i)))
    ensures CoveredBelow(after, p + 1, high)
  {
    forall q: nat, i: nat | 2 <= q < p + 1 && Divides(q, i) && q * q <= i <= high
      ensures after[i]
    {
      if q == p && before[p] {
        CompositeHasSmallFactor(p);
        var d := LeastDivisor(p);
        DividesTrans(d, p, i);
        MulAtLeast(p, p);
      }
    }
  }

  /** Second pass: every still-unmarked p <= sqrtHigh marks its multiples up to high. */
  method SecondPass(marks: array<bool>, high: nat, sqrtHigh: nat)
    requires marks.Length == high + 2 && 2 <= high && sqrtHigh <= high
    requires marks[0] && marks[1] && SoundMarks(marks[..], high)
    modifies marks
    ensures marks[0] && marks[1] && SoundMarks(marks[..], high)
    ensures CoveredBelow(marks[..], sqrtHigh + 1, high)
  {
    var p := 2;
    while p <= sqrtHigh
      invariant 2 <= p <= sqrtHigh + 2
      invariant p <= sqrtHigh + 1 || sqrtHigh < 2
      invariant marks[0] && marks[1]
      invariant SoundMarks(marks[..], high)
      invariant CoveredBelow(marks[..], p, high)
    {
      ghost var before := marks[..];
      if !marks[p] {
        MarkMultiples(marks, p, high);
        forall i | 0 <= i < marks.Length && marks[i]
          ensures i <= high && !IsPrime(i)
        {
          if !before[i] {
            MultipleNotPrime(p, i);
          }
        }
      }
      CoverStep(before, marks[..], p, high);
      p := p + 1;
    }
  }

  /** After both passes the table is exact on [0, high] and the sentinel is clear. */
  lemma MarksExact(marks: seq<bool>, high: nat, sqrtHigh: nat)
    requires |marks| == high + 2 && sqrtHigh * sqrtHigh <= high < (sqrtHigh + 1) * (sqrtHigh + 1)
    requires marks[0] && marks[1] && SoundMarks(marks, high)
    requires CoveredBelow(marks, sqrtHigh + 1, high)
    ensures forall i :: 0 <= i < |marks| ==> (marks[i] <==> i <= high && !IsPrime(i))
  {
    forall i | 0 <= i < |marks|
      ensures marks[i] <==> i <= high && !IsPrime(i)
    {
      if 2 <= i <= high && !IsPrime(i) {
        CompositeHasSmallFactor(i);
        var d := LeastDivisor(i);
        if d > sqrtHigh {
          SquareMono(sqrtHigh + 1, d);
        }
      }
    }
  }

  /** The constructor: range checks, then the two marking passes.  `id` is
      the address the new object gets, which the caller supplies. */
  method Construct(low: nat, high: nat, id: nat) returns (r: Result<Sieve>)
    ensures r.Ok? <==> 0 < low < high
    ensures r.Err? ==> r.error == RangeCheckFailed
    ensures r.Ok? ==> r.value.id == id && r.value.low == low && r.value.high == high && Valid(r.value)
  {
    if !(high > low) || !(low > 0) {
      return Err(RangeCheckFailed);
    }
    var marks := new bool[high + 2](_ => false);
    marks[0] := true;
    marks[1] := true;

    // The source starts from a floating-point estimate; any over-guess works.
    var sqrtHigh := IntSqrt(high, high);
    var ss := IntSqrt(sqrtHigh, sqrtHigh);
    var sqrtSqrtHigh := ss + 1;
    if ss >= 1 {
      MulAtLeast(ss, ss);
    }
    if sqrtHigh >= 1 {
      MulAtLeast(sqrtHigh, sqrtHigh);
    }
    FirstPass(marks, high, sqrtHigh, sqrtSqrtHigh);
    SecondPass(marks, high, sqrtHigh);
    MarksExact(marks[..], high, sqrtHigh);
    return Ok(Sieve(id, low, high, marks[..]));
  }

  // ---------------------------------------------------------------------------
  // Queries and iteration

  /** `isPrime(n)`: the bit of n is clear.  Exact on the whole table [0, high]. */
  function IsPrimeAt(s: Sieve, n: nat): (r: bool)
    requires Valid(s) && n <= s.high
    ensures r <==> IsPrime(n)
  {
    !s.notPrime[n]
  }

  /** Iterator: the owning table and a cursor. */
  datatype Itr = Itr(gen: Sieve, current: nat)

  /** The sentinel slot high+1 exists and is clear. */
  predicate HasSentinel(s: Sieve) {
    |s.notPrime| == s.high + 2 && !s.notPrime[s.high + 1]
  }

  lemma ValidHasSentinel(s: Sieve)
    requires Valid(s)
    ensures HasSentinel(s)
  {
  }

  /** Move the cursor forward from `c` while the bit at the cursor is set; the
      clear sentinel bit stops every scan at or before high+1. */
  function ScanFrom(s: Sieve, c: nat): (r: nat)
    requires HasSentinel(s) && c <= s.high + 1
    ensures c <= r <= s.high + 1 && !s.notPrime[r]
    ensures forall k :: c <= k < r ==> s.notPrime[k]
    decreases s.high + 1 - c
  {
    if !s.notPrime[c] then c else ScanFrom(s, c + 1)
  }

  /** `begin()`: the first prime in [low, high], or the sentinel if there is none. */
  function Begin(s: Sieve): (it: Itr)
    requires Valid(s)
    ensures it.gen == s && s.low <= it.current <= s.high + 1
    ensures it.current <= s.high ==> IsPrime(it.current)
    ensures forall k :: s.low <= k < it.current ==> !IsPrime(k)
  {
    Itr(s, ScanFrom(s, s.low))
  }

  /** `end()`: the sentinel position high+1. */
  function End(s: Sieve): (r: Itr)
    ensures r.gen == s && r.current > s.high
    ensures HasSentinel(s) ==> r.current < |s.notPrime| && !s.notPrime[r.current]
  {
    Itr(s, s.high + 1)
  }

  /** `operator++`: step once, then skip set bits. */
  function Next(it: Itr): (r: Itr)
    requires Valid(it.gen) && it.current <= it.gen.high
    ensures r.gen == it.gen && it.current < r.current <= it.gen.high + 1
    ensures r.current <= it.gen.high ==> IsPrime(r.current)
    ensures forall k :: it.current < k < r.current ==> !IsPrime(k)
  {
    Itr(it.gen, ScanFrom(it.gen, it.current + 1))
  }

  /** `operator==`: the same owning object and the same cursor. */
  predicate ItrEq(a: Itr, b: Itr) {
    a.current == b.current && a.gen.id == b.gen.id
  }

  /** An iterator of a table reached by `begin()` and `operator++` equals
      `end()` exactly when no prime of the table is left at or after its
      cursor; an iterator never equals the `end()` of another object, even
      one built over the same range. */
  lemma ItrEqAtEnd(s: Sieve, it: Itr, other: Sieve)
    requires Valid(s) && it.gen == s && s.low <= it.current <= s.high + 1
    requires it.current <= s.high ==> IsPrime(it.current)
    ensures ItrEq(it, End(s)) <==> forall k :: it.current <= k <= s.high ==> !IsPrime(k)
    ensures other.id != s.id ==> !ItrEq(it, End(other))
  {
  }

  lemma EnumerateStep(out: seq<nat>, low: nat, c: nat, c': nat, hi: nat)
    requires c < c' <= hi && IsPrime(c)
    requires forall k :: c < k < c' ==> !IsPrime(k)
    requires out + PrimesIn(c, hi) == PrimesIn(low, hi)
    ensures (out + [c]) + PrimesIn(c', hi) == PrimesIn(low, hi)
  {
    SkipNonPrimes(c + 1, c', hi);
    assert PrimesIn(c, hi) == [c] + PrimesIn(c + 1, hi);
  }

  lemma EnumerateDone(out: seq<nat>, low: nat, hi: nat)
    requires out + PrimesIn(hi, hi) == PrimesIn(low, hi)
    ensures out == PrimesIn(low, hi)
    ensures StrictlyIncreasing(out)
    ensures forall x :: x in out <==> low <= x < hi && IsPrime(x)
  {
    assert out + PrimesIn(hi, hi) == out + [];
    PrimesInSpec(low, hi);
  }

  /** A range-for over the table: collects what `begin()`..`end()` visits. */
  method Enumerate(s: Sieve) returns (out: seq<nat>)
    requires Valid(s)
    ensures out == PrimesIn(s.low, s.high + 1)
    ensures StrictlyIncreasing(out)
    ensures forall x :: x in out <==> s.low <= x <= s.high && IsPrime(x)
  {
    var it := Begin(s);
    SkipNonPrimes(s.low, it.current, s.high + 1);
    out := [];
    while !ItrEq(it, End(s))
      invariant it.gen == s && s.low <= it.current <= s.high + 1
      invariant it.current <= s.high ==> IsPrime(it.current)
      invariant out + PrimesIn(it.current, s.high + 1) == PrimesIn(s.low, s.high + 1)
      decreases s.high + 1 - it.current
    {
      var c := it.current;
      it := Next(it);
      EnumerateStep(out, s.low, c, it.current, s.high + 1);
      out := out + [c];
    }
    EnumerateDone(out, s.low, s.high + 1);
  }
}

=== FILE: sieve_tests.dfy ===
/** The scenarios of prime_number_gen_test.cc that are small enough to be
    decided by the verifier: the table iterated over (1, 20) and (10, 30). */
module SieveTests {
  import opened Primes
  import opened Sieve

  lemma PrimesBelow30()
    ensures IsPrime(2) && IsPrime(3) && IsPrime(5) && IsPrime(7) && IsPrime(11)
    ensures IsPrime(13) && IsPrime(17) && IsPrime(19) && IsPrime(23) && IsPrime(29)
  {
    PrimeByTrial(2);
    PrimeByTrial(3);
    PrimeByTrial(5);
    PrimeByTrial(7);
    PrimeByTrial(11);
    PrimeByTrial(13);
    assert NoDivisorFrom(17, 9);
    PrimeByTrial(17);
    assert NoDivisorFrom(19, 10);
    PrimeByTrial(19);
    assert NoDivisorFrom(23, 12);
    PrimeByTrial(23);
    assert NoDivisorFrom(29, 24);
    assert NoDivisorFrom(29, 18);
    assert NoDivisorFrom(29, 12);
    assert NoDivisorFrom(29, 6);
    PrimeByTrial(29);
  }

  lemma CompositesBelow30()
    ensures !IsPrime(0) && !IsPrime(1) && !IsPrime(4) && !IsPrime(6) && !IsPrime(8) && !IsPrime(9)
    ensures !IsPrime(10) && !IsPrime(12) && !IsPrime(14) && !IsPrime(15) && !IsPrime(16) && !IsPrime(18)
    ensures !IsPrime(20) && !IsPrime(21) && !IsPrime(22) && !IsPrime(24) && !IsPrime(25) && !IsPrime(26)
    ensures !IsPrime(27) && !IsPrime(28) && !IsPrime(30)
  {
    assert Divides(2, 4) && Divides(2, 6) && Divides(2, 8) && Divides(3, 9) && Divides(2, 10);
    assert Divides(2, 12) && Divides(2, 14) && Divides(3, 15) && Divides(2, 16) && Divides(2, 18);
    assert Divides(2, 20) && Divides(3, 21) && Divides(2, 22) && Divides(2, 24) && Divides(5, 25);
    assert Divides(2, 26) && Divides(3, 27) && Divides(2, 28) && Divides(2, 30);
  }

  lemma PrimesBelow30Chunks()
    ensures PrimesIn(1, 6) == [2, 3, 5]
    ensures PrimesIn(6, 11) == [7]
    ensures PrimesIn(10, 11) == []
    ensures PrimesIn(11, 16) == [11, 13]
    ensures PrimesIn(16, 21) == [17, 19]
    ensures PrimesIn(21, 26) == [23]
    ensures PrimesIn(26, 31) == [29]
  {
    PrimesBelow30();
    CompositesBelow30();
  }

  /** The expected lists of the SmallRange and RangeWithStart tests. */
  lemma ExpectedLists()
    ensures PrimesIn(1, 21) == [2, 3, 5, 7, 11, 13, 17, 19]
    ensures PrimesIn(10, 31) == [11, 13, 17, 19, 23, 29]
  {
    PrimesUpTo20();
    PrimesFrom10To30();
  }

  lemma PrimesUpTo20()
    ensures PrimesIn(1, 21) == [2, 3, 5, 7, 11, 13, 17, 19]
  {
    PrimesBelow30Chunks();
    PrimesInSplit(1, 6, 11);
    PrimesInSplit(1, 11, 16);
    PrimesInSplit(1, 16, 21);
  }

  lemma PrimesFrom10To30()
    ensures PrimesIn(10, 31) == [11, 13, 17, 19, 23, 29]
  {
    PrimesBelow30Chunks();
    PrimesInSplit(10, 11, 16);
    PrimesInSplit(10, 16, 21);
    PrimesInSplit(10, 21, 26);
    PrimesInSplit(10, 26, 31);
  }

  /** Table (1, 20) iterated. */
  method SmallRange() returns (primes: seq<nat>)
    ensures primes == [2, 3, 5, 7, 11, 13, 17, 19]
  {
    var g := Construct(1, 20, 0);
    primes := Enumerate(g.value);
    ExpectedLists();
  }

  /** Table (10, 30) iterated. */
  method RangeWithStart() returns (primes: seq<nat>)
    ensures primes == [11, 13, 17, 19, 23, 29]
  {
    var g := Construct(10, 30, 0);
    primes := Enumerate(g.value);
    ExpectedLists();
  }
}

=== FILE: split_sums.dfy ===
/** The January 2026 puzzle (2026-01.cc): enumerating A_n by cut patterns,
    the membership test n in A_x, and the two drivers that sum the answers. */
module SplitSums {
  import opened Primes
  import opened SplitSumsSpec

  function Reverse(s: seq<nat>): (r: seq<nat>)
    ensures |r| == |s|
  {
    seq(|s|, i requires 0 <= i < |s| => s[|s| - 1 - i])
  }

  lemma ReverseSnoc(s: seq<nat>, d: nat)
    ensures Reverse(s + [d]) == [d] + Reverse(s)
  {
  }

  /** The decimal digits of n, most significant first, as `genAn` collects
      them: least significant first, then reversed. */
  method DigitsOf(n: nat) returns (ds: seq<nat>)
    ensures ds == Digits(n)
    ensures Value(ds) == n
    ensures n >= 1 ==> |ds| >= 1
  {
    var m := n;
    var lsb: seq<nat> := [];
    while m > 0
      invariant Digits(n) == Digits(m) + Reverse(lsb)
      decreases m
    {
      ReverseSnoc(lsb, m % 10);
      lsb := lsb + [m % 10];
      m := m / 10;
    }
    ds := Reverse(lsb);
    ValueOfDigits(n);
  }

  /** One pass of the inner loop of `genAn`: the sum of the parts that cut
      pattern mask0 makes of ds. The part in progress is empty at the end. */
  method CutLoop(ds: seq<nat>, mask0: nat) returns (total: nat, sum: nat)
    requires |ds| >= 1 && mask0 < Pow2(|ds| - 1)
    ensures sum == 0
    ensures total == CutSum(ds, mask0, 0)
    ensures total in SplitSet(ds)
  {
    total, sum := 0, 0;
    var mk: nat := mask0;
    for i := 0 to |ds|
      invariant total + CutSum(ds[i..], mk, sum) == CutSum(ds, mask0, 0)
      invariant i < |ds| ==> mk < Pow2(|ds| - 1 - i)
      invariant i == |ds| ==> sum == 0
    {
      assert ds[i..][1..] == ds[i + 1..];
      sum := sum * 10 + ds[i];
      var gate: nat := mk % 2;
      total := total + sum * (1 - gate);
      sum := sum * gate;
      mk := mk / 2;
    }
    assert ds[|ds|..] == [];
    InMaskSums(ds, 0, mask0);
    MaskSumsAreSplitSet(ds);
  }

  /** `genAn`: offers the sums of the cut patterns 2^(nd-1) - 1 down to 0 to f
      and stops at the first one f accepts. `offered` is what f was given. */
  method GenAn(n: nat, f: nat -> bool) returns (found: bool, offered: seq<nat>)
    requires n >= 1
    ensures forall i :: 0 <= i < |offered| ==> offered[i] in A(n)
    ensures found <==> exists x :: x in A(n) && f(x)
    ensures found ==> |offered| >= 1 && f(offered[|offered| - 1])
    ensures forall i :: 0 <= i < |offered| && !(found && i == |offered| - 1) ==> !f(offered[i])
    ensures !found ==> forall x :: x in A(n) <==> x in offered
    ensures InMaskOrder(Digits(n), found, offered)
  {
    var ds := DigitsOf(n);
    found, offered := GenSplits(ds, f);
  }

  /** The loop of `genAn` on the digit list ds. */
  method GenSplits(ds: seq<nat>, f: nat -> bool) returns (found: bool, offered: seq<nat>)
    requires |ds| >= 1
    ensures forall i :: 0 <= i < |offered| ==> offered[i] in SplitSet(ds)
    ensures found <==> exists x :: x in SplitSet(ds) && f(x)
    ensures found ==> |offered| >= 1 && f(offered[|offered| - 1])
    ensures forall i :: 0 <= i < |offered| && !(found && i == |offered| - 1) ==> !f(offered[i])
    ensures !found ==> forall x :: x in SplitSet(ds) <==> x in offered
    ensures InMaskOrder(ds, found, offered)
  {
    var top := Pow2(|ds| - 1);
    var mask := top;
    offered := [];
    while mask > 0
      invariant mask <= top && |offered| == top - mask
      invariant offered == FirstOffers(ds, |offered|)
      invariant forall i :: 0 <= i < |offered| ==> !f(offered[i])
      decreases mask
    {
      var total, sum := CutLoop(ds, mask - 1);
      offered := offered + [total];
      assert offered == FirstOffers(ds, top - mask + 1);
      if f(total) {
        WalkStopped(ds, f, offered);
        return true, offered;
      }
      mask := mask - 1;
    }
    found := false;
    WalkComplete(ds, f, offered);
  }

  /** A walk that stopped on an accepted value offered only split sums, and
      some split sum is accepted. */
  lemma WalkStopped(ds: seq<nat>, f: nat -> bool, offered: seq<nat>)
    requires |ds| >= 1 && 1 <= |offered| <= Pow2(|ds| - 1) && offered == FirstOffers(ds, |offered|)
    requires f(offered[|offered| - 1])
    ensures forall i :: 0 <= i < |offered| ==> offered[i] in SplitSet(ds)
    ensures exists x :: x in SplitSet(ds) && f(x)
  {
    OffersAreSplitSums(ds, |offered|);
    assert offered[|offered| - 1] in SplitSet(ds);
  }

  /** A walk over every pattern that accepted nothing offered exactly the
      split sums, and no split sum is accepted. */
  lemma WalkComplete(ds: seq<nat>, f: nat -> bool, offered: seq<nat>)
    requires |ds| >= 1 && offered == MaskOrder(ds)
    requires forall i :: 0 <= i < |offered| ==> !f(offered[i])
    ensures forall i :: 0 <= i < |offered| ==> offered[i] in SplitSet(ds)
    ensures forall x :: x in SplitSet(ds) <==> x in offered
    ensures !exists x :: x in SplitSet(ds) && f(x)
  {
    MaskOrderIsSplitSet(ds);
  }

  /** The shortcut of `AxContains`: x / n is one of 1, 10, ..., 10^7. */
  function FastPath(x: nat, n: nat): (r: bool)
    requires n >= 1
    ensures r <==> exists k :: 0 <= k <= 7 && x == Shift(n, k)
  {
    FastPathSpec(x, n);
    x % n == 0 && x / n in {1, 10, 100, 1000, 10000, 100000, 1000000, 10000000}
  }

  lemma FastPathSpec(x: nat, n: nat)
    requires n >= 1
    ensures (x % n == 0 && x / n in {1, 10, 100, 1000, 10000, 100000, 1000000, 10000000})
        <==> exists k :: 0 <= k <= 7 && x == Shift(n, k)
  {
    assert Pow10(0) == 1 && Pow10(1) == 10 && Pow10(2) == 100 && Pow10(3) == 1000;
    assert Pow10(4) == 10000 && Pow10(5) == 100000 && Pow10(6) == 1000000 && Pow10(7) == 10000000;
    if x % n == 0 && x / n in {1, 10, 100, 1000, 10000, 100000, 1000000, 10000000} {
      var k :| 0 <= k <= 7 && x / n == Pow10(k);
      ShiftIsProduct(n, k);
      assert x == n * (x / n);
    }
    if exists k :: 0 <= k <= 7 && x == Shift(n, k) {
      var k :| 0 <= k <= 7 && x == Shift(n, k);
      ShiftIsProduct(n, k);
      DivModUnique(x, n, Pow10(k), 0);
    }
  }

  /** `AxContains(x, n)`: whether n is a split sum of x. */
  method AxContains(x: nat, n: nat) returns (r: bool)
    requires x >= 1 && n >= 1
    ensures r <==> n in A(x)
  {
    if FastPath(x, n) {
      var k :| 0 <= k <= 7 && x == Shift(n, k);
      ShiftedContains(n, k);
      return true;
    }
    var offered;
    r, offered := GenAn(x, y => y == n);
  }

  /** A callback that records every value and never stops the walk: the set it
      ends with is A_n. */
  method SplitSums(n: nat) returns (seen: set<nat>)
    requires n >= 1
    ensures seen == A(n)
  {
    var found, offered := GenAn(n, x => false);
    seen := set x | x in offered;
  }

  /** What trying a in A_n adds to the answers: x = n * a when n in A_x. */
  ghost function Gain(n: nat, a: nat): set<nat>
  {
    if n in A(n * a) then {n * a} else {}
  }

  /** Everything the elements of done add, for per-element gains `gain`. */
  ghost function Kept(done: set<nat>, gain: nat -> set<nat>): set<nat>
  {
    set a, x | a in done && x in gain(a) :: x
  }

  lemma KeptAdd(done: set<nat>, gain: nat -> set<nat>, a: nat)
    ensures Kept(done + {a}, gain) == Kept(done, gain) + gain(a)
  {
  }

  /** Over all of A_n, the gains are the answers of n. */
  lemma KeptIsAnswersOf(n: nat, gain: nat -> set<nat>)
    requires forall a {:trigger Gain(n, a)} :: gain(a) == Gain(n, a)
    ensures Kept(A(n), gain) == AnswersOf(n)
  {
    forall x | x in Kept(A(n), gain)
      ensures x in AnswersOf(n)
    {
      var a :| a in A(n) && x in gain(a);
      assert gain(a) == Gain(n, a);
    }
    forall x | x in AnswersOf(n)
      ensures x in Kept(A(n), gain)
    {
      var a := PickAnswer(n, x);
      assert gain(a) == Gain(n, a);
    }
  }

  /** The body of the inner loop of `bruteForce`: x = a * n is kept when
      n in A_x; a value already kept is not looked at again. */
  method TryCandidate(n: nat, a: nat, unique0: set<nat>, ghost gain: nat -> set<nat>) returns (unique: set<nat>)
    requires n >= 1 && a >= 1
    requires forall a' {:trigger Gain(n, a')} :: gain(a') == Gain(n, a')
    ensures unique == unique0 + gain(a)
  {
    assert gain(a) == Gain(n, a);
    unique := unique0;
    var x := n * a;
    if x !in unique {
      MulAtLeast(n, a);
      var ax := SplitSums(x);
      if n in ax {
        unique := unique + {x};
      }
    }
  }

  /** The inner loop of `bruteForce`: every a of A_n is tried, in any order. */
  method TryAll(n: nat, an: set<nat>, unique0: set<nat>, ghost gain: nat -> set<nat>) returns (unique: set<nat>)
    requires n >= 1 && forall a :: a in an ==> a >= 1
    requires forall a {:trigger Gain(n, a)} :: gain(a) == Gain(n, a)
    ensures unique == unique0 + Kept(an, gain)
  {
    unique := unique0;
    var rest := an;
    ghost var done: set<nat> := {};
    while rest != {}
      invariant rest <= an && done == an - rest
      invariant unique == unique0 + Kept(done, gain)
      decreases |rest|
    {
      var a :| a in rest;
      rest := rest - {a};
      KeptAdd(done, gain, a);
      done := done + {a};
      unique := TryCandidate(n, a, unique, gain);
    }
  }

  /** One round of the outer loop of `bruteForce`: every a in A_n is tried
      as x = a * n, and x joins the answers when n in A_x. */
  method AddAnswersOf(n: nat, unique0: set<nat>) returns (unique: set<nat>)
    requires n >= 1
    ensures unique == unique0 + AnswersOf(n)
  {
    var an := SplitSums(n);
    ghost var gain: nat -> set<nat> := a => Gain(n, a);
    forall a | a in an
      ensures a >= 1
    {
      SplitSumsPositive(n, a);
    }
    unique := TryAll(n, an, unique0, gain);
    KeptIsAnswersOf(n, gain);
  }

  /** `bruteForce(N)`: the answers of every n from 1 to N, collected in the
      set `unique` and each added up once. */
  method BruteForce(bigN: nat) returns (total: nat, unique: set<nat>)
    ensures unique == Answers(bigN)
    ensures total == SetSum(unique)
  {
    unique := {};
    for n := 1 to bigN + 1
      invariant unique == Answers(n - 1)
    {
      unique := AddAnswersOf(n, unique);
    }
    total := SumOf(unique);
  }

  /** Adds up the elements of a set, in any order. */
  method SumOf(s: set<nat>) returns (total: nat)
    ensures total == SetSum(s)
  {
    total := 0;
    var rest := s;
    while rest != {}
      invariant rest <= s && total + SetSum(rest) == SetSum(s)
      decreases |rest|
    {
      var x :| x in rest;
      SetSumRemove(rest, x);
      total := total + x;
      rest := rest - {x};
    }
  }

  /** The elements of a sequence. */
  ghost function Elems(s: seq<nat>): set<nat>
  {
    set x | x in s
  }

  /** What a thread of `solve` collects from n on: the sets of
      n, n + T, n + 2T, ... up to N. Thread id starts at n = id + 1. The
      per-n sets are a parameter (they are `AnswersOf`), so that the
      partition argument does not depend on what they contain. */
  ghost function ThreadFrom(n: nat, threads: nat, bigN: nat, sets: nat -> set<nat>): set<nat>
    requires threads >= 1
    decreases if n <= bigN then bigN + 1 - n else 0
  {
    if n > bigN then {} else sets(n) + ThreadFrom(n + threads, threads, bigN, sets)
  }

  /** What threads 0 .. k - 1 collect together. */
  ghost function ThreadsUpTo(k: nat, threads: nat, bigN: nat, sets: nat -> set<nat>): set<nat>
    requires threads >= 1
  {
    if k == 0 then {} else ThreadsUpTo(k - 1, threads, bigN, sets) + ThreadFrom(k, threads, bigN, sets)
  }

  /** The sets of 1 .. N together. */
  ghost function UnionUpTo(bigN: nat, sets: nat -> set<nat>): set<nat>
  {
    if bigN == 0 then {} else UnionUpTo(bigN - 1, sets) + sets(bigN)
  }

  /** The callback body of `solve`, run on each offered a in turn: x = n * a
      is pushed when n in A_x. */
  method PushAnswers(n: nat, offered: seq<nat>) returns (pushed: seq<nat>)
    requires n >= 1
    requires forall i :: 0 <= i < |offered| ==> offered[i] in A(n)
    ensures forall y :: y in pushed <==> exists j :: 0 <= j < |offered| && y == n * offered[j] && n in A(n * offered[j])
  {
    pushed := [];
    for i := 0 to |offered|
      invariant forall y :: y in pushed <==> exists j :: 0 <= j < i && y == n * offered[j] && n in A(n * offered[j])
    {
      var x := n * offered[i];
      SplitSumsPositive(n, offered[i]);
      MulAtLeast(n, offered[i]);
      var c := AxContains(x, n);
      if c {
        pushed := pushed + [x];
      }
    }
  }

  /** The callback of one n in `solve`: every a of A_n, multiplied by n, is
      recorded when n in A_x. */
  method AnswersFor(n: nat, ghost sets: nat -> set<nat>) returns (pushed: seq<nat>)
    requires n >= 1
    requires forall m {:trigger AnswersOf(m)} :: sets(m) == AnswersOf(m)
    ensures Elems(pushed) == sets(n)
  {
    var found, offered := GenAn(n, x => false);
    pushed := PushAnswers(n, offered);
    assert sets(n) == AnswersOf(n);
    forall y | y in AnswersOf(n)
      ensures y in pushed
    {
      var a := PickAnswer(n, y);
      var j :| 0 <= j < |offered| && offered[j] == a;
      assert y == n * offered[j];
    }
  }

  /** The body of thread id of `solve`: n = id + 1, id + 1 + T, ... */
  method RunThread(id: nat, threads: nat, bigN: nat, ghost sets: nat -> set<nat>) returns (found: seq<nat>)
    requires id < threads
    requires forall m {:trigger AnswersOf(m)} :: sets(m) == AnswersOf(m)
    ensures Elems(found) == ThreadFrom(id + 1, threads, bigN, sets)
  {
    found := [];
    var n := id + 1;
    while n <= bigN
      invariant Elems(found) + ThreadFrom(n, threads, bigN, sets) == ThreadFrom(id + 1, threads, bigN, sets)
      decreases bigN + 1 - n
    {
      var pushed := AnswersFor(n, sets);
      assert Elems(found + pushed) == Elems(found) + Elems(pushed);
      found := found + pushed;
      n := n + threads;
    }
  }

  /** A thread only collects the sets of n it reaches. */
  lemma {:induction false} ThreadFromBelow(n: nat, threads: nat, bigN: nat, sets: nat -> set<nat>, x: nat) returns (m: nat)
    requires threads >= 1 && x in ThreadFrom(n, threads, bigN, sets)
    ensures n <= m <= bigN && x in sets(m)
    decreases if n <= bigN then bigN + 1 - n else 0
  {
    if x in sets(n) {
      m := n;
    } else {
      m := ThreadFromBelow(n + threads, threads, bigN, sets, x);
    }
  }

  /** A thread that starts at n reaches n + q * T while that is at most N. */
  lemma {:induction false} ThreadFromHas(n: nat, threads: nat, bigN: nat, sets: nat -> set<nat>, q: nat, x: nat)
    requires threads >= 1 && n + q * threads <= bigN && x in sets(n + q * threads)
    ensures x in ThreadFrom(n, threads, bigN, sets)
    decreases q
  {
    if q > 0 {
      assert n + q * threads == (n + threads) + (q - 1) * threads;
      ThreadFromHas(n + threads, threads, bigN, sets, q - 1, x);
    }
  }

  lemma {:induction false} ThreadsUpToHas(k: nat, j: nat, threads: nat, bigN: nat, sets: nat -> set<nat>, x: nat)
    requires threads >= 1 && 1 <= j <= k && x in ThreadFrom(j, threads, bigN, sets)
    ensures x in ThreadsUpTo(k, threads, bigN, sets)
  {
    if j < k {
      ThreadsUpToHas(k - 1, j, threads, bigN, sets, x);
    }
  }

  lemma {:induction false} ThreadsUpToFrom(k: nat, threads: nat, bigN: nat, sets: nat -> set<nat>, x: nat) returns (j: nat)
    requires threads >= 1 && x in ThreadsUpTo(k, threads, bigN, sets)
    ensures 1 <= j <= k && x in ThreadFrom(j, threads, bigN, sets)
  {
    if x in ThreadFrom(k, threads, bigN, sets) {
      j := k;
    } else {
      j := ThreadsUpToFrom(k - 1, threads, bigN, sets, x);
    }
  }

  lemma {:induction false} UnionUpToHas(bigN: nat, m: nat, sets: nat -> set<nat>, x: nat)
    requires 1 <= m <= bigN && x in sets(m)
    ensures x in UnionUpTo(bigN, sets)
  {
    if m < bigN {
      UnionUpToHas(bigN - 1, m, sets, x);
    }
  }

  lemma {:induction false} UnionUpToFrom(bigN: nat, sets: nat -> set<nat>, x: nat) returns (m: nat)
    requires x in UnionUpTo(bigN, sets)
    ensures 1 <= m <= bigN && x in sets(m)
  {
    if x in sets(bigN) {
      m := bigN;
    } else {
      m := UnionUpToFrom(bigN - 1, sets, x);
    }
  }

  /** Every n from 1 to N is handled by one of the T threads, so together
      they collect the sets of all of them. */
  lemma ThreadsCover(threads: nat, bigN: nat, sets: nat -> set<nat>)
    requires threads >= 1
    ensures ThreadsUpTo(threads, threads, bigN, sets) == UnionUpTo(bigN, sets)
  {
    forall x | x in ThreadsUpTo(threads, threads, bigN, sets)
      ensures x in UnionUpTo(bigN, sets)
    {
      var j := ThreadsUpToFrom(threads, threads, bigN, sets, x);
      var m := ThreadFromBelow(j, threads, bigN, sets, x);
      UnionUpToHas(bigN, m, sets, x);
    }
    forall x | x in UnionUpTo(bigN, sets)
      ensures x in ThreadsUpTo(threads, threads, bigN, sets)
    {
      var m := UnionUpToFrom(bigN, sets, x);
      var q, j := (m - 1) / threads, (m - 1) % threads;
      assert m == (j + 1) + q * threads;
      ThreadFromHas(j + 1, threads, bigN, sets, q, x);
      ThreadsUpToHas(threads, j + 1, threads, bigN, sets, x);
    }
  }

  /** With the answer sets, the union is the answer set of the puzzle. */
  lemma {:induction false} UnionIsAnswers(bigN: nat, sets: nat -> set<nat>)
    requires forall m {:trigger AnswersOf(m)} :: sets(m) == AnswersOf(m)
    ensures UnionUpTo(bigN, sets) == Answers(bigN)
  {
    if bigN > 0 {
      UnionIsAnswers(bigN - 1, sets);
      assert sets(bigN) == AnswersOf(bigN);
    }
  }

  /** The thread-spawning loop of `solve`: thread id records what it finds
      in answers[id]. */
  method RunThreads(threads: nat, bigN: nat, ghost sets: nat -> set<nat>) returns (answers: seq<seq<nat>>)
    requires forall m {:trigger AnswersOf(m)} :: sets(m) == AnswersOf(m)
    ensures |answers| == threads
    ensures forall j :: 0 <= j < threads ==> Elems(answers[j]) == ThreadFrom(j + 1, threads, bigN, sets)
  {
    answers := [];
    for id := 0 to threads
      invariant |answers| == id
      invariant forall j :: 0 <= j < id ==> Elems(answers[j]) == ThreadFrom(j + 1, threads, bigN, sets)
    {
      var found := RunThread(id, threads, bigN, sets);
      answers := answers + [found];
    }
  }

  /** The merge at the end of `solve`: every value found by some thread is
      added once. */
  method Merge(answers: seq<seq<nat>>, threads: nat, bigN: nat, ghost sets: nat -> set<nat>) returns (total: nat)
    requires threads >= 1 && |answers| == threads
    requires forall j :: 0 <= j < threads ==> Elems(answers[j]) == ThreadFrom(j + 1, threads, bigN, sets)
    ensures total == SetSum(ThreadsUpTo(threads, threads, bigN, sets))
  {
    total := 0;
    var unique: set<nat> := {};
    for id := 0 to threads
      invariant unique == ThreadsUpTo(id, threads, bigN, sets)
      invariant total == SetSum(unique)
    {
      unique, total := MergeList(unique, total, answers[id]);
    }
  }

  /** The inner loop of the merge: each element of one thread's list joins
      the set of distinct answers, and the total grows by the new ones. */
  method MergeList(unique: set<nat>, total: nat, list: seq<nat>) returns (grown: set<nat>, sum: nat)
    requires total == SetSum(unique)
    ensures grown == unique + Elems(list) && sum == SetSum(grown)
  {
    grown, sum := unique, total;
    for k := 0 to |list|
      invariant grown == unique + Elems(list[..k])
      invariant sum == SetSum(grown)
    {
      var x := list[k];
      assert Elems(list[..k + 1]) == Elems(list[..k]) + {x} by {
        assert list[..k + 1] == list[..k] + [x];
      }
      if x !in grown {
        SetSumAdd(grown, x);
        sum := sum + x;
        grown := grown + {x};
      }
    }
    assert list[..|list|] == list;
  }


  /** `solve(N, T)`: T threads split the n between them, then the answers
      they found are added up once each. The threads run one after the
      other here. */
  method Solve(bigN: nat, threads: nat) returns (total: nat)
    ensures threads >= 1 ==> total == SetSum(Answers(bigN))
    ensures threads == 0 ==> total == 0
  {
    if threads == 0 {
      return 0;
    }
    ghost var sets: nat -> set<nat> := m => AnswersOf(m);
    var answers := RunThreads(threads, bigN, sets);
    total := Merge(answers, threads, bigN, sets);
    ThreadsCover(threads, bigN, sets);
    UnionIsAnswers(bigN, sets);
  }
}

=== FILE: split_sums_spec.dfy ===
/** Reference definitions for the January 2026 puzzle (2026-01.cc): decimal
    digits, the set A_n of sums obtained by cutting the decimal string of n
    into consecutive parts, and the cut patterns that `genAn` walks through. */
module SplitSumsSpec {
  import opened Primes

  function Pow2(k: nat): (r: nat)
    ensures r >= 1
  {
    if k == 0 then 1 else 2 * Pow2(k - 1)
  }

  function Pow10(k: nat): (r: nat)
    ensures r >= 1
  {
    if k == 0 then 1 else 10 * Pow10(k - 1)
  }

  /** n followed by k zeros, that is n * 10^k. */
  function Shift(n: nat, k: nat): nat
  {
    if k == 0 then n else 10 * Shift(n, k - 1)
  }

  lemma {:induction false} ShiftIsProduct(n: nat, k: nat)
    ensures Shift(n, k) == n * Pow10(k)
    ensures n >= 1 ==> Shift(n, k) >= 1
  {
    if k > 0 {
      ShiftIsProduct(n, k - 1);
      MulTen(n, Pow10(k - 1));
    }
  }

  lemma MulTen(n: nat, p: nat)
    ensures n * (10 * p) == 10 * (n * p)
  {
  }

  lemma {:induction false} ShiftZero(k: nat)
    ensures Shift(0, k) == 0
  {
    if k > 0 {
      ShiftZero(k - 1);
    }
  }

  lemma {:induction false} ShiftAdd(x: nat, y: nat, k: nat)
    ensures Shift(x + y, k) == Shift(x, k) + Shift(y, k)
  {
    if k > 0 {
      ShiftAdd(x, y, k - 1);
    }
  }

  lemma {:induction false} ShiftTen(x: nat, k: nat)
    ensures Shift(10 * x, k) == Shift(x, k + 1)
  {
    if k > 0 {
      ShiftTen(x, k - 1);
    }
  }

  // ---------------------------------------------------------------------------
  // Digits

  /** Decimal digits of n, most significant first; empty for 0. */
  function Digits(n: nat): (ds: seq<nat>)
    ensures forall i :: 0 <= i < |ds| ==> ds[i] < 10
    ensures n >= 1 ==> |ds| >= 1 && ds[0] >= 1
  {
    if n == 0 then [] else Digits(n / 10) + [n % 10]
  }

  /** The number a digit string denotes, most significant digit first. */
  function Value(ds: seq<nat>): nat
  {
    if ds == [] then 0 else Value(ds[..|ds| - 1]) * 10 + ds[|ds| - 1]
  }

  /** Reading the digits of n back gives n. */
  lemma {:induction false} ValueOfDigits(n: nat)
    ensures Value(Digits(n)) == n
  {
    if n > 0 {
      ValueOfDigits(n / 10);
      assert (Digits(n / 10) + [n % 10])[..|Digits(n)| - 1] == Digits(n / 10);
    }
  }

  /** Concatenating digit strings shifts the left one by the length of the right one. */
  lemma {:induction false} ValueAppend(a: seq<nat>, b: seq<nat>)
    ensures Value(a + b) == Shift(Value(a), |b|) + Value(b)
    decreases |b|
  {
    if b != [] {
      var b' := b[..|b| - 1];
      assert (a + b)[..|a + b| - 1] == a + b';
      ValueAppend(a, b');
    } else {
      assert a + b == a;
    }
  }

  lemma ValueSingle(d: nat)
    ensures Value([d]) == d
  {
    assert [d][..0] == [];
  }

  /** A leading digit d contributes d followed by |rest| zeros. */
  lemma ValueCons(d: nat, r: seq<nat>)
    ensures Value([d] + r) == Shift(d, |r|) + Value(r)
  {
    ValueAppend([d], r);
    ValueSingle(d);
  }

  /** A string with a nonzero leading digit denotes a positive number. */
  lemma ValuePositive(ds: seq<nat>)
    requires |ds| >= 1 && ds[0] >= 1
    ensures Value(ds) >= 1
  {
    ValueCons(ds[0], ds[1..]);
    assert [ds[0]] + ds[1..] == ds;
    ShiftIsProduct(ds[0], |ds| - 1);
  }

  /** Appending a zero digit multiplies by 10. */
  lemma DigitsTimesTen(m: nat)
    requires m >= 1
    ensures Digits(10 * m) == Digits(m) + [0]
  {
    DivModUnique(10 * m, 10, m, 0);
  }

  /** Appending k zeros to the decimal string multiplies by 10^k. */
  lemma {:induction false} DigitsShift(n: nat, k: nat)
    requires n >= 1
    ensures Digits(Shift(n, k)) == Digits(n) + Zeros(k)
  {
    if k > 0 {
      DigitsShift(n, k - 1);
      ShiftIsProduct(n, k - 1);
      DigitsTimesTen(Shift(n, k - 1));
      assert Zeros(k) == Zeros(k - 1) + [0];
    }
  }

  function Zeros(k: nat): (z: seq<nat>)
    ensures |z| == k && forall i :: 0 <= i < k ==> z[i] == 0
  {
    seq(k, _ => 0)
  }

  lemma {:induction false} ValueZeros(k: nat)
    ensures Value(Zeros(k)) == 0
  {
    if k > 0 {
      assert Zeros(k)[..k - 1] == Zeros(k - 1);
      ValueZeros(k - 1);
    }
  }

  // ---------------------------------------------------------------------------
  // The split-and-sum sets

  /** All sums obtained by cutting ds into nonempty consecutive parts and
      adding the numbers the parts denote. */
  ghost function SplitSet(ds: seq<nat>): set<nat>
    decreases |ds|
  {
    if ds == [] then {0}
    else set k, t | 1 <= k <= |ds| && t in SplitSet(ds[k..]) :: Value(ds[..k]) + t
  }

  /** A_n of the puzzle. */
  ghost function A(n: nat): set<nat>
  {
    SplitSet(Digits(n))
  }

  /** Every split sum of a positive number is positive. */
  lemma SplitSumsPositive(n: nat, x: nat)
    requires n >= 1 && x in A(n)
    ensures x >= 1
  {
    var ds := Digits(n);
    assert ds != [] && x in SplitSet(ds);
    var k, t :| 1 <= k <= |ds| && t in SplitSet(ds[k..]) && x == Value(ds[..k]) + t;
    ValuePositive(ds[..k]);
  }

  /** n * 10^k splits into n and a run of zeros, so n is in its A. */
  lemma ShiftedContains(n: nat, k: nat)
    requires n >= 1
    ensures n in A(Shift(n, k))
  {
    var d := Digits(n);
    var ds := Digits(Shift(n, k));
    DigitsShift(n, k);
    ValueOfDigits(n);
    assert ds[..|d|] == d && ds[|d|..] == Zeros(k);
    if k == 0 {
      assert Zeros(k) == [];
      assert 0 in SplitSet(Zeros(k));
    } else {
      ValueZeros(k);
      assert Zeros(k)[..k] == Zeros(k) && Zeros(k)[k..] == [];
      assert 0 in SplitSet(Zeros(k)[k..]);
      assert Value(Zeros(k)[..k]) + 0 in SplitSet(Zeros(k));
    }
    assert Value(ds[..|d|]) + 0 in SplitSet(ds);
  }

  // ---------------------------------------------------------------------------
  // Cut patterns

  /** What the inner loop of `genAn` adds to its total over ds, when the part
      in progress already has value `run` and bit i of mk says whether the part
      goes on after digit i (1) or is closed there (0). */
  function CutSum(ds: seq<nat>, mk: nat, run: nat): nat
    decreases |ds|
  {
    if ds == [] then 0
    else
      var s := run * 10 + ds[0];
      if mk % 2 == 0 then s + CutSum(ds[1..], mk / 2, 0) else CutSum(ds[1..], mk / 2, s)
  }

  /** An even pattern closes the part after the first digit. */
  lemma CutSumEven(ds: seq<nat>, m: nat, run: nat)
    requires |ds| >= 1
    ensures CutSum(ds, 2 * m, run) == run * 10 + ds[0] + CutSum(ds[1..], m, 0)
  {
    assert (2 * m) % 2 == 0 && (2 * m) / 2 == m;
  }

  /** An odd pattern carries the first digit over into the next part. */
  lemma CutSumOdd(ds: seq<nat>, m: nat, run: nat)
    requires |ds| >= 1
    ensures CutSum(ds, 2 * m + 1, run) == CutSum(ds[1..], m, run * 10 + ds[0])
  {
    assert (2 * m + 1) % 2 == 1 && (2 * m + 1) / 2 == m;
  }

  /** Sums over all cut patterns whose last bit is 0. */
  ghost function MaskSums(ds: seq<nat>, run: nat): set<nat>
    requires |ds| >= 1
  {
    set mk | 0 <= mk < Pow2(|ds| - 1) :: CutSum(ds, mk, run)
  }

  /** The first k sums `genAn` offers: those of the cut patterns
      2^(d-1) - 1, 2^(d-1) - 2, ..., 2^(d-1) - k, in that order. */
  function FirstOffers(ds: seq<nat>, k: nat): (r: seq<nat>)
    requires |ds| >= 1 && k <= Pow2(|ds| - 1)
    ensures |r| == k
  {
    if k == 0 then [] else FirstOffers(ds, k - 1) + [CutSum(ds, Pow2(|ds| - 1) - k, 0)]
  }

  /** Offer i is the sum of pattern 2^(d-1) - 1 - i. */
  lemma {:induction false} FirstOffersAt(ds: seq<nat>, k: nat, i: nat)
    requires |ds| >= 1 && i < k <= Pow2(|ds| - 1)
    ensures FirstOffers(ds, k)[i] == CutSum(ds, Pow2(|ds| - 1) - 1 - i, 0)
  {
    if i < k - 1 {
      FirstOffersAt(ds, k - 1, i);
    }
  }

  /** All the sums `genAn` offers when nothing stops it, one per pattern. */
  function MaskOrder(ds: seq<nat>): (r: seq<nat>)
    requires |ds| >= 1
    ensures |r| == Pow2(|ds| - 1)
  {
    FirstOffers(ds, Pow2(|ds| - 1))
  }

  /** Every sum offered is a split sum. */
  lemma OffersAreSplitSums(ds: seq<nat>, k: nat)
    requires |ds| >= 1 && k <= Pow2(|ds| - 1)
    ensures forall i :: 0 <= i < k ==> FirstOffers(ds, k)[i] in SplitSet(ds)
  {
    MaskSumsAreSplitSet(ds);
    forall i | 0 <= i < k
      ensures FirstOffers(ds, k)[i] in SplitSet(ds)
    {
      FirstOffersAt(ds, k, i);
      InMaskSums(ds, 0, Pow2(|ds| - 1) - 1 - i);
    }
  }

  /** A walk over the cut patterns that offered `offered` went in `genAn`'s
      order, one sum per pattern, and offered every pattern unless it stopped. */
  predicate InMaskOrder(ds: seq<nat>, stopped: bool, offered: seq<nat>)
    requires |ds| >= 1
  {
    && |offered| <= Pow2(|ds| - 1)
    && offered == FirstOffers(ds, |offered|)
    && (!stopped ==> offered == MaskOrder(ds))
  }

  /** The list of the pattern sums holds exactly the split sums. */
  lemma {:induction false} MaskOrderIsSplitSet(ds: seq<nat>)
    requires |ds| >= 1
    ensures forall x :: x in MaskOrder(ds) <==> x in SplitSet(ds)
  {
    MaskSumsAreSplitSet(ds);
    var order := MaskOrder(ds);
    var m := |order|;
    forall x | x in SplitSet(ds)
      ensures x in order
    {
      var mk := PickMask(ds, 0, x);
      FirstOffersAt(ds, m, m - 1 - mk);
      assert order[m - 1 - mk] == x;
    }
    forall x | x in order
      ensures x in SplitSet(ds)
    {
      var i :| 0 <= i < m && order[i] == x;
      FirstOffersAt(ds, m, i);
      InMaskSums(ds, 0, m - 1 - i);
    }
  }

  lemma InMaskSums(ds: seq<nat>, run: nat, mk: nat)
    requires |ds| >= 1 && mk < Pow2(|ds| - 1)
    ensures CutSum(ds, mk, run) in MaskSums(ds, run)
  {
  }

  lemma PickMask(ds: seq<nat>, run: nat, x: nat) returns (mk: nat)
    requires |ds| >= 1 && x in MaskSums(ds, run)
    ensures mk < Pow2(|ds| - 1) && CutSum(ds, mk, run) == x
  {
    mk :| 0 <= mk < Pow2(|ds| - 1) && CutSum(ds, mk, run) == x;
  }

  /** Sums over all splits of ds whose first part is prefixed by the digits of `run`. */
  ghost function Headed(ds: seq<nat>, run: nat): set<nat>
  {
    set k, t | 1 <= k <= |ds| && t in SplitSet(ds[k..]) :: Shift(run, k) + Value(ds[..k]) + t
  }

  lemma InHeaded(ds: seq<nat>, run: nat, k: nat, t: nat)
    requires 1 <= k <= |ds| && t in SplitSet(ds[k..])
    ensures Shift(run, k) + Value(ds[..k]) + t in Headed(ds, run)
  {
  }

  lemma PickSplit(ds: seq<nat>, run: nat, x: nat) returns (k: nat, t: nat)
    requires x in Headed(ds, run)
    ensures 1 <= k <= |ds| && t in SplitSet(ds[k..]) && x == Shift(run, k) + Value(ds[..k]) + t
  {
    k, t :| 1 <= k <= |ds| && t in SplitSet(ds[k..]) && x == Shift(run, k) + Value(ds[..k]) + t;
  }

  lemma HeadedZero(ds: seq<nat>)
    requires |ds| >= 1
    ensures Headed(ds, 0) == SplitSet(ds)
  {
    forall k: nat | 1 <= k <= |ds|
      ensures Shift(0, k) == 0
    {
      ShiftZero(k);
    }
  }

  /** One leading digit d in front of r, cut right after it or not. */
  lemma HeadedStep(ds: seq<nat>, run: nat, k: nat)
    requires 1 <= k < |ds|
    ensures Shift(run, k + 1) + Value(ds[..k + 1])
              == Shift(run * 10 + ds[0], k) + Value(ds[1..][..k])
    ensures ds[k + 1..] == ds[1..][k..]
  {
    ValueCons(ds[0], ds[1..][..k]);
    assert ds[..k + 1] == [ds[0]] + ds[1..][..k];
    ShiftAdd(run * 10, ds[0], k);
    ShiftTen(run, k);
  }

  lemma MaskSumsSingle(ds: seq<nat>, run: nat)
    requires |ds| == 1
    ensures MaskSums(ds, run) == Headed(ds, run) == {run * 10 + ds[0]}
  {
    var v := run * 10 + ds[0];
    assert CutSum(ds, 0, run) == v by {
      assert ds[1..] == [];
    }
    forall x | x in MaskSums(ds, run)
      ensures x == v
    {
      var mk :| 0 <= mk < Pow2(0) && x == CutSum(ds, mk, run);
    }
    assert v in MaskSums(ds, run);
    assert ds[..1] == ds && ds[1..] == [];
    assert Value(ds) == ds[0] by {
      assert ds[..0] == [];
    }
    assert v == Shift(run, 1) + Value(ds[..1]) + 0;
    assert 0 in SplitSet(ds[1..]);
    assert v in Headed(ds, run);
    forall x | x in Headed(ds, run)
      ensures x == v
    {
      var k, t :| 1 <= k <= |ds| && t in SplitSet(ds[k..]) && x == Shift(run, k) + Value(ds[..k]) + t;
    }
  }

  /** Every cut pattern of ds gives a split of ds. */
  lemma {:induction false} MaskSumsIntoHeaded(ds: seq<nat>, run: nat)
    requires |ds| >= 2
    ensures MaskSums(ds, run) <= Headed(ds, run)
    decreases |ds|, 2
  {
    forall x | x in MaskSums(ds, run)
      ensures x in Headed(ds, run)
    {
      var mk := PickMask(ds, run, x);
      if mk % 2 == 0 {
        EvenPatternIsSplit(ds, run, mk / 2);
      } else {
        OddPatternIsSplit(ds, run, mk / 2);
      }
    }
  }

  lemma {:induction false} EvenPatternIsSplit(ds: seq<nat>, run: nat, m: nat)
    requires |ds| >= 2 && m < Pow2(|ds| - 2)
    ensures CutSum(ds, 2 * m, run) in Headed(ds, run)
    decreases |ds|, 1
  {
    var rest := ds[1..];
    CutSumEven(ds, m, run);
    var t := CutSum(rest, m, 0);
    assert t in SplitSet(rest) by {
      InMaskSums(rest, 0, m);
      MaskSumsAreHeaded(rest, 0);
      HeadedZero(rest);
    }
    CutAfterFirst(ds, run, t);
  }

  lemma {:induction false} OddPatternIsSplit(ds: seq<nat>, run: nat, m: nat)
    requires |ds| >= 2 && m < Pow2(|ds| - 2)
    ensures CutSum(ds, 2 * m + 1, run) in Headed(ds, run)
    decreases |ds|, 1
  {
    var rest, s := ds[1..], run * 10 + ds[0];
    CutSumOdd(ds, m, run);
    var x := CutSum(rest, m, s);
    assert x in Headed(rest, s) by {
      InMaskSums(rest, s, m);
      MaskSumsAreHeaded(rest, s);
    }
    var k, t := PickSplit(rest, s, x);
    HeadedStep(ds, run, k);
    InHeaded(ds, run, k + 1, t);
  }

  /** Cutting right after the first digit. */
  lemma CutAfterFirst(ds: seq<nat>, run: nat, t: nat)
    requires |ds| >= 2 && t in SplitSet(ds[1..])
    ensures run * 10 + ds[0] + t in Headed(ds, run)
  {
    ValueSingle(ds[0]);
    assert ds[..1] == [ds[0]];
    InHeaded(ds, run, 1, t);
  }

  /** A split whose first part is the leading digit alone comes from an even pattern. */
  lemma {:induction false} CutFirst(ds: seq<nat>, run: nat, t: nat)
    requires |ds| >= 2 && t in SplitSet(ds[1..])
    ensures Shift(run, 1) + Value(ds[..1]) + t in MaskSums(ds, run)
    decreases |ds|, 1
  {
    var rest := ds[1..];
    assert t in MaskSums(rest, 0) by {
      MaskSumsAreHeaded(rest, 0);
      HeadedZero(rest);
    }
    var m := PickMask(rest, 0, t);
    CutSumEven(ds, m, run);
    assert Pow2(|ds| - 1) == 2 * Pow2(|rest| - 1);
    InMaskSums(ds, run, 2 * m);
    ValueSingle(ds[0]);
    assert ds[..1] == [ds[0]];
  }

  /** A split whose first part goes on past the leading digit comes from an odd pattern. */
  lemma KeepFirst(ds: seq<nat>, run: nat, k: nat, t: nat)
    requires |ds| >= 2 && 2 <= k <= |ds|
    requires Shift(run * 10 + ds[0], k - 1) + Value(ds[1..][..k - 1]) + t in MaskSums(ds[1..], run * 10 + ds[0])
    ensures Shift(run, k) + Value(ds[..k]) + t in MaskSums(ds, run)
  {
    var rest, s := ds[1..], run * 10 + ds[0];
    var x := Shift(s, k - 1) + Value(rest[..k - 1]) + t;
    var m := PickMask(rest, s, x);
    CutSumOdd(ds, m, run);
    assert Pow2(|ds| - 1) == 2 * Pow2(|rest| - 1);
    InMaskSums(ds, run, 2 * m + 1);
    HeadedStep(ds, run, k - 1);
  }

  /** Every split of ds comes from a cut pattern. */
  lemma {:induction false} HeadedIntoMaskSums(ds: seq<nat>, run: nat)
    requires |ds| >= 2
    ensures Headed(ds, run) <= MaskSums(ds, run)
    decreases |ds|, 2
  {
    forall x | x in Headed(ds, run)
      ensures x in MaskSums(ds, run)
    {
      var k, t := PickSplit(ds, run, x);
      if k == 1 {
        CutFirst(ds, run, t);
      } else {
        LongFirstPart(ds, run, k, t);
      }
    }
  }

  lemma {:induction false} LongFirstPart(ds: seq<nat>, run: nat, k: nat, t: nat)
    requires |ds| >= 2 && 2 <= k <= |ds| && t in SplitSet(ds[k..])
    ensures Shift(run, k) + Value(ds[..k]) + t in MaskSums(ds, run)
    decreases |ds|, 1
  {
    var rest, s := ds[1..], run * 10 + ds[0];
    HeadedStep(ds, run, k - 1);
    assert Shift(s, k - 1) + Value(rest[..k - 1]) + t in MaskSums(rest, s) by {
      InHeaded(rest, s, k - 1, t);
      MaskSumsAreHeaded(rest, s);
    }
    KeepFirst(ds, run, k, t);
  }

  /** The cut patterns below 2^(|ds|-1) give exactly the splits of ds. */
  lemma {:induction false} MaskSumsAreHeaded(ds: seq<nat>, run: nat)
    requires |ds| >= 1
    ensures MaskSums(ds, run) == Headed(ds, run)
    decreases |ds|, 3
  {
    if |ds| == 1 {
      MaskSumsSingle(ds, run);
    } else {
      MaskSumsIntoHeaded(ds, run);
      HeadedIntoMaskSums(ds, run);
    }
  }

  /** The 2^(|ds|-1) patterns `genAn` walks through produce exactly the split sums. */
  lemma MaskSumsAreSplitSet(ds: seq<nat>)
    requires |ds| >= 1
    ensures MaskSums(ds, 0) == SplitSet(ds)
  {
    MaskSumsAreHeaded(ds, 0);
    HeadedZero(ds);
  }

  // ---------------------------------------------------------------------------
  // The answer set of the puzzle and its sum

  /** The x = n * a with a in A_n and n in A_x, for one n. */
  ghost function AnswersOf(n: nat): set<nat>
  {
    set a | a in A(n) && n in A(n * a) :: (n * a) as nat
  }

  /** The x with x in n * A_n and n in A_x for some 1 <= n <= N. */
  ghost function Answers(bigN: nat): set<nat>
  {
    if bigN == 0 then {} else Answers(bigN - 1) + AnswersOf(bigN)
  }

  /** x belongs to the answers of the n with 1 <= n <= N. */
  lemma {:induction false} AnswersHas(bigN: nat, n: nat)
    requires 1 <= n <= bigN
    ensures AnswersOf(n) <= Answers(bigN)
    decreases bigN
  {
    if n < bigN {
      AnswersHas(bigN - 1, n);
      InUnion(AnswersOf(n), Answers(bigN - 1), AnswersOf(bigN), Answers(bigN));
    } else {
      InUnion(AnswersOf(n), AnswersOf(bigN), Answers(bigN - 1), Answers(bigN));
    }
  }

  /** A subset of one part of a union is a subset of the union. */
  lemma InUnion(a: set<nat>, b: set<nat>, c: set<nat>, u: set<nat>)
    requires a <= b && (u == b + c || u == c + b)
    ensures a <= u
  {
  }

  /** Every answer comes from some 1 <= n <= N. */
  lemma AnswersFrom(bigN: nat, x: nat) returns (n: nat)
    requires x in Answers(bigN)
    ensures 1 <= n <= bigN && x in AnswersOf(n)
    decreases bigN
  {
    if x in AnswersOf(bigN) {
      n := bigN;
    } else {
      n := AnswersFrom(bigN - 1, x);
    }
  }

  lemma PickAnswer(n: nat, x: nat) returns (a: nat)
    requires x in AnswersOf(n)
    ensures a in A(n) && x == n * a && n in A(x)
  {
    a :| a in A(n) && n in A(n * a) && x == n * a;
  }

  /** `Answers(N)` is the set the puzzle asks for. */
  lemma AnswersSpec(bigN: nat, x: nat)
    ensures x in Answers(bigN) <==> exists n, a :: 1 <= n <= bigN && a in A(n) && x == n * a && n in A(x)
  {
    if x in Answers(bigN) {
      var n := AnswersFrom(bigN, x);
      var a := PickAnswer(n, x);
    }
    if exists n, a :: 1 <= n <= bigN && a in A(n) && x == n * a && n in A(x) {
      var n, a :| 1 <= n <= bigN && a in A(n) && x == n * a && n in A(x);
      assert x in AnswersOf(n);
      AnswersHas(bigN, n);
    }
  }

  ghost function Pick(s: set<nat>): (x: nat)
    requires s != {}
    ensures x in s
  {
    var x :| x in s; x
  }

  /** The sum of the elements of a finite set. */
  ghost function SetSum(s: set<nat>): nat
    decreases |s|
  {
    if s == {} then 0 else Pick(s) + SetSum(s - {Pick(s)})
  }

  /** The sum does not depend on which element is taken out first. */
  lemma {:induction false} SetSumRemove(s: set<nat>, y: nat)
    requires y in s
    ensures SetSum(s) == y + SetSum(s - {y})
    decreases |s|
  {
    var x := Pick(s);
    if x != y {
      SetSumRemove(s - {x}, y);
      SetSumRemove(s - {y}, x);
      assert s - {x} - {y} == s - {y} - {x};
    }
  }

  /** Adding a new element adds it to the sum. */
  lemma SetSumAdd(s: set<nat>, y: nat)
    requires y !in s
    ensures SetSum(s + {y}) == SetSum(s) + y
  {
    SetSumRemove(s + {y}, y);
    assert s + {y} - {y} == s;
  }
}

=== FILE: split_sums_tests.dfy ===
/** The examples of the January 2026 puzzle statement and of the smallTest
    scenario of 2026-01.cc, decided by the verifier. */
module SplitSumsTests {
  import opened SplitSumsSpec
  import opened SplitSums

  lemma Digits123()
    ensures Digits(123) == [1, 2, 3]
  {
  }

  lemma Digits31658()
    ensures Digits(31658) == [3, 1, 6, 5, 8]
  {
  }

  lemma CutSums123()
    ensures CutSum([1, 2, 3], 0, 0) == 6 && CutSum([1, 2, 3], 1, 0) == 15
    ensures CutSum([1, 2, 3], 2, 0) == 24 && CutSum([1, 2, 3], 3, 0) == 123
  {
    assert [1, 2, 3][1..] == [2, 3] && [2, 3][1..] == [3] && [3][1..] == [];
    assert CutSum([3], 0, 0) == 3;
    assert CutSum([2, 3], 0, 0) == 5;
    assert CutSum([1, 2, 3], 0, 0) == 6;
    assert CutSum([3], 0, 0) == 3;
    assert CutSum([2, 3], 0, 1) == 15;
    assert CutSum([1, 2, 3], 1, 0) == 15;
    assert CutSum([3], 0, 2) == 23;
    assert CutSum([2, 3], 1, 0) == 23;
    assert CutSum([1, 2, 3], 2, 0) == 24;
    assert CutSum([3], 0, 12) == 123;
    assert CutSum([2, 3], 1, 1) == 123;
    assert CutSum([1, 2, 3], 3, 0) == 123;
  }

  lemma CutSums31658Part0()
    ensures CutSum([3, 1, 6, 5, 8], 0, 0) == 23 && CutSum([3, 1, 6, 5, 8], 1, 0) == 50
    ensures CutSum([3, 1, 6, 5, 8], 2, 0) == 32 && CutSum([3, 1, 6, 5, 8], 3, 0) == 329
  {
    assert [3, 1, 6, 5, 8][1..] == [1, 6, 5, 8] && [1, 6, 5, 8][1..] == [6, 5, 8] && [6, 5, 8][1..] == [5, 8] && [5, 8][1..] == [8] && [8][1..] == [];
    assert CutSum([8], 0, 0) == 8;
    assert CutSum([5, 8], 0, 0) == 13;
    assert CutSum([6, 5, 8], 0, 0) == 19;
    assert CutSum([1, 6, 5, 8], 0, 0) == 20;
    assert CutSum([3, 1, 6, 5, 8], 0, 0) == 23;
    assert CutSum([8], 0, 0) == 8;
    assert CutSum([5, 8], 0, 0) == 13;
    assert CutSum([6, 5, 8], 0, 0) == 19;
    assert CutSum([1, 6, 5, 8], 0, 3) == 50;
    assert CutSum([3, 1, 6, 5, 8], 1, 0) == 50;
    assert CutSum([8], 0, 0) == 8;
    assert CutSum([5, 8], 0, 0) == 13;
    assert CutSum([6, 5, 8], 0, 1) == 29;
    assert CutSum([1, 6, 5, 8], 1, 0) == 29;
    assert CutSum([3, 1, 6, 5, 8], 2, 0) == 32;
    assert CutSum([8], 0, 0) == 8;
    assert CutSum([5, 8], 0, 0) == 13;
    assert CutSum([6, 5, 8], 0, 31) == 329;
    assert CutSum([1, 6, 5, 8], 1, 3) == 329;
    assert CutSum([3, 1, 6, 5, 8], 3, 0) == 329;
  }

  lemma CutSums31658Part1()
    ensures CutSum([3, 1, 6, 5, 8], 4, 0) == 77 && CutSum([3, 1, 6, 5, 8], 5, 0) == 104
    ensures CutSum([3, 1, 6, 5, 8], 6, 0) == 176 && CutSum([3, 1, 6, 5, 8], 7, 0) == 3173
  {
    assert [3, 1, 6, 5, 8][1..] == [1, 6, 5, 8] && [1, 6, 5, 8][1..] == [6, 5, 8] && [6, 5, 8][1..] == [5, 8] && [5, 8][1..] == [8] && [8][1..] == [];
    assert CutSum([8], 0, 0) == 8;
    assert CutSum([5, 8], 0, 6) == 73;
    assert CutSum([6, 5, 8], 1, 0) == 73;
    assert CutSum([1, 6, 5, 8], 2, 0) == 74;
    assert CutSum([3, 1, 6, 5, 8], 4, 0) == 77;
    assert CutSum([8], 0, 0) == 8;
    assert CutSum([5, 8], 0, 6) == 73;
    assert CutSum([6, 5, 8], 1, 0) == 73;
    assert CutSum([1, 6, 5, 8], 2, 3) == 104;
    assert CutSum([3, 1, 6, 5, 8], 5, 0) == 104;
    assert CutSum([8], 0, 0) == 8;
    assert CutSum([5, 8], 0, 16) == 173;
    assert CutSum([6, 5, 8], 1, 1) == 173;
    assert CutSum([1, 6, 5, 8], 3, 0) == 173;
    assert CutSum([3, 1, 6, 5, 8], 6, 0) == 176;
    assert CutSum([8], 0, 0) == 8;
    assert CutSum([5, 8], 0, 316) == 3173;
    assert CutSum([6, 5, 8], 1, 31) == 3173;
    assert CutSum([1, 6, 5, 8], 3, 3) == 3173;
    assert CutSum([3, 1, 6, 5, 8], 7, 0) == 3173;
  }

  lemma CutSums31658Part2()
    ensures CutSum([3, 1, 6, 5, 8], 8, 0) == 68 && CutSum([3, 1, 6, 5, 8], 9, 0) == 95
    ensures CutSum([3, 1, 6, 5, 8], 10, 0) == 77 && CutSum([3, 1, 6, 5, 8], 11, 0) == 374
  {
    assert [3, 1, 6, 5, 8][1..] == [1, 6, 5, 8] && [1, 6, 5, 8][1..] == [6, 5, 8] && [6, 5, 8][1..] == [5, 8] && [5, 8][1..] == [8] && [8][1..] == [];
    assert CutSum([8], 0, 5) == 58;
    assert CutSum([5, 8], 1, 0) == 58;
    assert CutSum([6, 5, 8], 2, 0) == 64;
    assert CutSum([1, 6, 5, 8], 4, 0) == 65;
    assert CutSum([3, 1, 6, 5, 8], 8, 0) == 68;
    assert CutSum([8], 0, 5) == 58;
    assert CutSum([5, 8], 1, 0) == 58;
    assert CutSum([6, 5, 8], 2, 0) == 64;
    assert CutSum([1, 6, 5, 8], 4, 3) == 95;
    assert CutSum([3, 1, 6, 5, 8], 9, 0) == 95;
    assert CutSum([8], 0, 5) == 58;
    assert CutSum([5, 8], 1, 0) == 58;
    assert CutSum([6, 5, 8], 2, 1) == 74;
    assert CutSum([1, 6, 5, 8], 5, 0) == 74;
    assert CutSum([3, 1, 6, 5, 8], 10, 0) == 77;
    assert CutSum([8], 0, 5) == 58;
    assert CutSum([5, 8], 1, 0) == 58;
    assert CutSum([6, 5, 8], 2, 31) == 374;
    assert CutSum([1, 6, 5, 8], 5, 3) == 374;
    assert CutSum([3, 1, 6, 5, 8], 11, 0) == 374;
  }

  lemma CutSums31658Part3()
    ensures CutSum([3, 1, 6, 5, 8], 12, 0) == 662 && CutSum([3, 1, 6, 5, 8], 13, 0) == 689
    ensures CutSum([3, 1, 6, 5, 8], 14, 0) == 1661 && CutSum([3, 1, 6, 5, 8], 15, 0) == 31658
  {
    assert [3, 1, 6, 5, 8][1..] == [1, 6, 5, 8] && [1, 6, 5, 8][1..] == [6, 5, 8] && [6, 5, 8][1..] == [5, 8] && [5, 8][1..] == [8] && [8][1..] == [];
    assert CutSum([8], 0, 65) == 658;
    assert CutSum([5, 8], 1, 6) == 658;
    assert CutSum([6, 5, 8], 3, 0) == 658;
    assert CutSum([1, 6, 5, 8], 6, 0) == 659;
    assert CutSum([3, 1, 6, 5, 8], 12, 0) == 662;
    assert CutSum([8], 0, 65) == 658;
    assert CutSum([5, 8], 1, 6) == 658;
    assert CutSum([6, 5, 8], 3, 0) == 658;
    assert CutSum([1, 6, 5, 8], 6, 3) == 689;
    assert CutSum([3, 1, 6, 5, 8], 13, 0) == 689;
    assert CutSum([8], 0, 165) == 1658;
    assert CutSum([5, 8], 1, 16) == 1658;
    assert CutSum([6, 5, 8], 3, 1) == 1658;
    assert CutSum([1, 6, 5, 8], 7, 0) == 1658;
    assert CutSum([3, 1, 6, 5, 8], 14, 0) == 1661;
    assert CutSum([8], 0, 3165) == 31658;
    assert CutSum([5, 8], 1, 316) == 31658;
    assert CutSum([6, 5, 8], 3, 31) == 31658;
    assert CutSum([1, 6, 5, 8], 7, 3) == 31658;
    assert CutSum([3, 1, 6, 5, 8], 15, 0) == 31658;
  }

  lemma MaskSums123(ds: seq<nat>)
    requires ds == [1, 2, 3]
    ensures MaskSums(ds, 0) == {6, 15, 24, 123}
  {
    CutSums123();
    InMaskSums(ds, 0, 0);
    InMaskSums(ds, 0, 1);
    InMaskSums(ds, 0, 2);
    InMaskSums(ds, 0, 3);
    forall x | x in MaskSums(ds, 0)
      ensures x in {6, 15, 24, 123}
    {
      var mk := PickMask(ds, 0, x);
      assert mk == 0 || mk == 1 || mk == 2 || mk == 3;
    }
  }

  /** A_123 = {6, 15, 24, 123}: the statement's own list leaves out 1 + 2 + 3. */
  lemma A123(n: nat)
    requires n == 123
    ensures A(n) == {6, 15, 24, 123}
  {
    Digits123();
    MaskSums123(Digits(n));
    MaskSumsAreSplitSet(Digits(n));
  }

  lemma MaskSums31658(ds: seq<nat>)
    requires ds == [3, 1, 6, 5, 8]
    ensures MaskSums(ds, 0) == {23, 32, 50, 68, 77, 95, 104, 176, 329, 374, 662, 689, 1661, 3173, 31658}
  {
    CutSums31658Part0();
    CutSums31658Part1();
    CutSums31658Part2();
    CutSums31658Part3();
    forall x | x in MaskSums(ds, 0)
      ensures x in {23, 32, 50, 68, 77, 95, 104, 176, 329, 374, 662, 689, 1661, 3173, 31658}
    {
      var mk := PickMask(ds, 0, x);
      assert mk == 0 || mk == 1 || mk == 2 || mk == 3 || mk == 4 || mk == 5 || mk == 6 || mk == 7
        || mk == 8 || mk == 9 || mk == 10 || mk == 11 || mk == 12 || mk == 13 || mk == 14 || mk == 15;
    }
    InMaskSums(ds, 0, 0);
    InMaskSums(ds, 0, 1);
    InMaskSums(ds, 0, 2);
    InMaskSums(ds, 0, 3);
    InMaskSums(ds, 0, 4);
    InMaskSums(ds, 0, 5);
    InMaskSums(ds, 0, 6);
    InMaskSums(ds, 0, 7);
    InMaskSums(ds, 0, 8);
    InMaskSums(ds, 0, 9);
    InMaskSums(ds, 0, 11);
    InMaskSums(ds, 0, 12);
    InMaskSums(ds, 0, 13);
    InMaskSums(ds, 0, 14);
    InMaskSums(ds, 0, 15);
  }

  /** The list of the puzzle statement for n = 31658. */
  lemma A31658(n: nat)
    requires n == 31658
    ensures A(n) == {23, 32, 50, 68, 77, 95, 104, 176, 329, 374, 662, 689, 1661, 3173, 31658}
  {
    Digits31658();
    MaskSums31658(Digits(n));
    MaskSumsAreSplitSet(Digits(n));
  }

  /** genAn(123) with a callback that records and never stops. */
  method Walk123() returns (seen: set<nat>)
    ensures seen == {6, 15, 24, 123}
  {
    var n: nat := 123;
    var found, offered := GenAn(n, x => false);
    seen := set x | x in offered;
    A123(n);
  }

  /** genAn(31658) with a callback that records and never stops. */
  method Walk31658() returns (seen: set<nat>)
    ensures seen == {23, 32, 50, 68, 77, 95, 104, 176, 329, 374, 662, 689, 1661, 3173, 31658}
  {
    var n: nat := 31658;
    var found, offered := GenAn(n, x => false);
    seen := set x | x in offered;
    A31658(n);
  }

  /** The AxContains expectations for x = 123. */
  method Contains123() returns (r6: bool, r15: bool, r24: bool, r123: bool, r124: bool, r125: bool)
    ensures r6 && r15 && r24 && r123 && !r124 && !r125
  {
    var x: nat := 123;
    ghost var s: set<nat> := {6, 15, 24, 123};
    assert 124 !in s && 125 !in s;
    A123(x);
    r6 := AxContains(x, 6);
    r15 := AxContains(x, 15);
    r24 := AxContains(x, 24);
    r123 := AxContains(x, 123);
    r124 := AxContains(x, 124);
    r125 := AxContains(x, 125);
  }

  /** The AxContains expectations for x = 31658: each of the fifteen
      listed sums is found, and the two neighbours of 31658 are not. */
  method Contains31658()
    returns (r23: bool, r32: bool, r50: bool, r68: bool, r77: bool, r95: bool,
             r104: bool, r176: bool, r329: bool, r374: bool, r662: bool, r689: bool,
             r1661: bool, r3173: bool, r31658: bool, r31659: bool, r31657: bool)
    ensures r23 && r32 && r50 && r68 && r77 && r95 && r104 && r176
    ensures r329 && r374 && r662 && r689 && r1661 && r3173 && r31658
    ensures !r31659 && !r31657
  {
    var x: nat := 31658;
    ghost var s: set<nat> := {23, 32, 50, 68, 77, 95, 104, 176, 329, 374, 662, 689, 1661, 3173, 31658};
    assert 31659 !in s && 31657 !in s;
    A31658(x);
    r23 := AxContains(x, 23);
    r32 := AxContains(x, 32);
    r50 := AxContains(x, 50);
    r68 := AxContains(x, 68);
    r77 := AxContains(x, 77);
    r95 := AxContains(x, 95);
    r104 := AxContains(x, 104);
    r176 := AxContains(x, 176);
    r329 := AxContains(x, 329);
    r374 := AxContains(x, 374);
    r662 := AxContains(x, 662);
    r689 := AxContains(x, 689);
    r1661 := AxContains(x, 1661);
    r3173 := AxContains(x, 3173);
    r31658 := AxContains(x, 31658);
    r31659 := AxContains(x, 31659);
    r31657 := AxContains(x, 31657);
  }

  /** The solveTest scenario: the threaded solve agrees with bruteForce, for
      every N and 31 threads. */
  method SolveMatchesBruteForce(bigN: nat) returns (brute: nat, threaded: nat)
    ensures brute == threaded
  {
    var unique;
    brute, unique := BruteForce(bigN);
    threaded := Solve(bigN, 31);
  }
}

=== FILE: substitution.dfy ===
/** The substitution system of 2025-11.py: rules that rewrite every
    character of a string at once, the brute-force expansion, and the walk
    of first characters (`find_first_char`) with its cycle shortcut. */
module Substitution {
  import opened Wrappers

  /** A rule: every occurrence of `from` becomes the string `to`. */
  datatype Rule = Rule(from: char, to: string)

  /** The rules in the order given; a later rule for a character overrides
      an earlier one, as in the dictionary the source builds. */
  type Rules = seq<Rule>

  /** Position of the last of the first `k` rules that rewrites `c`, and 0
      when none does. */
  function LastIndex(rules: Rules, c: char, k: nat): (i: nat)
    requires k <= |rules|
    ensures k >= 1 ==> i < k
  {
    if k == 0 then 0
    else if rules[k - 1].from == c then k - 1
    else LastIndex(rules, c, k - 1)
  }

  /** `LastIndex` finds the last rule for `c`, and falls back to 0. */
  lemma {:induction false} LastIndexSpec(rules: Rules, c: char, k: nat)
    requires k <= |rules|
    ensures (exists t :: 0 <= t < k && rules[t].from == c) ==>
              rules[LastIndex(rules, c, k)].from == c &&
              forall t :: LastIndex(rules, c, k) < t < k ==> rules[t].from != c
    ensures (forall t :: 0 <= t < k ==> rules[t].from != c) ==> LastIndex(rules, c, k) == 0
  {
    if k > 0 && rules[k - 1].from != c {
      LastIndexSpec(rules, c, k - 1);
    }
  }

  /** The id of `c` (the `id_map` table): the position of its last rule, and
      0 for a character without a rule. */
  function Index(rules: Rules, c: char): nat {
    LastIndex(rules, c, |rules|)
  }

  /** `trans_map[c]`: the replacement of the last rule for `c`, or KeyError. */
  function Lookup(rules: Rules, c: char): Result<string> {
    if |rules| >= 1 && rules[Index(rules, c)].from == c then Ok(rules[Index(rules, c)].to)
    else Err(KeyError)
  }

  /** The dictionary built from the rules: a key exists exactly when some
      rule rewrites it, and its value comes from the last such rule. */
  lemma LookupSpec(rules: Rules, c: char)
    ensures Lookup(rules, c).Ok? <==> exists t :: 0 <= t < |rules| && rules[t].from == c
    ensures Lookup(rules, c).Ok? ==>
              exists t :: 0 <= t < |rules| && rules[t].from == c && Lookup(rules, c).value == rules[t].to &&
                forall u :: t < u < |rules| ==> rules[u].from != c
    ensures Lookup(rules, c).Err? ==> Lookup(rules, c).error == KeyError
  {
    LastIndexSpec(rules, c, |rules|);
  }

  predicate Defined(rules: Rules, c: char) {
    Lookup(rules, c).Ok?
  }

  /** The replacement of a character that has a rule. */
  function Image(rules: Rules, c: char): string
    requires Defined(rules, c)
  {
    Lookup(rules, c).value
  }

  /** Every character of `s` has a rule. */
  predicate Covers(rules: Rules, s: string) {
    forall k :: 0 <= k < |s| ==> Defined(rules, s[k])
  }

  /** Every character a rule produces has a rule itself. */
  predicate Closed(rules: Rules) {
    forall t :: 0 <= t < |rules| ==> Covers(rules, rules[t].to)
  }

  /** No rule erases its character (the first-character walk needs one). */
  predicate Growing(rules: Rules) {
    forall t :: 0 <= t < |rules| ==> |rules[t].to| >= 1
  }

  lemma CoversConcat(rules: Rules, a: string, b: string)
    ensures Covers(rules, a + b) <==> Covers(rules, a) && Covers(rules, b)
  {
    if Covers(rules, a) && Covers(rules, b) {
      forall k | 0 <= k < |a + b|
        ensures Defined(rules, (a + b)[k])
      {
        if k >= |a| {
          assert (a + b)[k] == b[k - |a|];
        }
      }
    }
    if Covers(rules, a + b) {
      forall k | 0 <= k < |a|
        ensures Defined(rules, a[k])
      {
        assert (a + b)[k] == a[k];
      }
      forall k | 0 <= k < |b|
        ensures Defined(rules, b[k])
      {
        assert (a + b)[|a| + k] == b[k];
      }
    }
  }

  lemma ImageCovered(rules: Rules, c: char)
    requires Closed(rules) && Defined(rules, c)
    ensures Covers(rules, Image(rules, c))
  {
    assert Covers(rules, rules[Index(rules, c)].to);
  }

  /** One round of the brute force: `"".join(trans_map[ch] for ch in s)`. */
  function Rewrite(rules: Rules, s: string): Result<string> {
    if |s| == 0 then Ok([])
    else
      var head :- Lookup(rules, s[0]);
      var tail :- Rewrite(rules, s[1..]);
      Ok(head + tail)
  }

  /** `bruteforce`: `n` rounds of `Rewrite`. */
  function Expand(rules: Rules, s: string, n: nat): Result<string>
    decreases n
  {
    if n == 0 then Ok(s)
    else
      var t :- Rewrite(rules, s);
      Expand(rules, t, n - 1)
  }

  /** One round on a string whose characters all have rules. */
  function Step(rules: Rules, s: string): string
    requires Covers(rules, s)
  {
    if |s| == 0 then [] else Image(rules, s[0]) + Step(rules, s[1..])
  }

  /** A round keeps a string inside the alphabet of closed rules. */
  lemma {:induction false} StepCovers(rules: Rules, s: string)
    requires Closed(rules) && Covers(rules, s)
    ensures Covers(rules, Step(rules, s))
  {
    if |s| > 0 {
      ImageCovered(rules, s[0]);
      StepCovers(rules, s[1..]);
      CoversConcat(rules, Image(rules, s[0]), Step(rules, s[1..]));
    }
  }

  /** `k` rounds on a string under rules that never leave their alphabet. */
  function Exp(rules: Rules, s: string, k: nat): (r: string)
    requires Closed(rules) && Covers(rules, s)
    ensures Covers(rules, r)
    decreases k
  {
    if k == 0 then s
    else
      StepCovers(rules, s);
      Exp(rules, Step(rules, s), k - 1)
  }

  /** A round fails exactly on a character without a rule. */
  lemma {:induction false} RewriteIsStep(rules: Rules, s: string)
    ensures Covers(rules, s) ==> Rewrite(rules, s) == Ok(Step(rules, s))
    ensures !Covers(rules, s) ==> Rewrite(rules, s) == Err(KeyError)
  {
    if |s| > 0 {
      RewriteIsStep(rules, s[1..]);
      CoversConcat(rules, [s[0]], s[1..]);
      assert s == [s[0]] + s[1..];
    }
  }

  /** The brute force succeeds on closed rules and covered strings, with the
      total expansion as its value. */
  lemma {:induction false} ExpandIsExp(rules: Rules, s: string, n: nat)
    requires Closed(rules) && Covers(rules, s)
    ensures Expand(rules, s, n) == Ok(Exp(rules, s, n))
    decreases n
  {
    if n > 0 {
      RewriteIsStep(rules, s);
      StepCovers(rules, s);
      ExpandIsExp(rules, Step(rules, s), n - 1);
    }
  }

  /** A round distributes over concatenation. */
  lemma {:induction false} StepConcat(rules: Rules, a: string, b: string)
    requires Covers(rules, a) && Covers(rules, b)
    ensures Covers(rules, a + b)
    ensures Step(rules, a + b) == Step(rules, a) + Step(rules, b)
  {
    CoversConcat(rules, a, b);
    if |a| > 0 {
      assert a == [a[0]] + a[1..];
      CoversConcat(rules, [a[0]], a[1..]);
      var rest := a[1..];
      assert (a + b)[0] == a[0] && (a + b)[1..] == rest + b;
      StepConcat(rules, rest, b);
      assert Step(rules, a + b) == Image(rules, a[0]) + Step(rules, rest + b);
      assert Step(rules, a) == Image(rules, a[0]) + Step(rules, rest);
      assert Image(rules, a[0]) + (Step(rules, rest) + Step(rules, b))
          == (Image(rules, a[0]) + Step(rules, rest)) + Step(rules, b);
    } else {
      assert a + b == b;
    }
  }

  /** Expansion distributes over concatenation. */
  lemma {:induction false} ExpConcat(rules: Rules, a: string, b: string, k: nat)
    requires Closed(rules) && Covers(rules, a) && Covers(rules, b)
    ensures Covers(rules, a + b)
    ensures Exp(rules, a + b, k) == Exp(rules, a, k) + Exp(rules, b, k)
    decreases k
  {
    StepConcat(rules, a, b);
    if k > 0 {
      StepCovers(rules, a);
      StepCovers(rules, b);
      ExpConcat(rules, Step(rules, a), Step(rules, b), k - 1);
    }
  }

  /** One more round is one round applied last. */
  lemma {:induction false} ExpLast(rules: Rules, s: string, k: nat)
    requires Closed(rules) && Covers(rules, s)
    ensures Exp(rules, s, k + 1) == Step(rules, Exp(rules, s, k))
    decreases k
  {
    StepCovers(rules, s);
    if k > 0 {
      ExpLast(rules, Step(rules, s), k - 1);
    }
  }

  /** Expanding in two goes. */
  lemma {:induction false} ExpCompose(rules: Rules, s: string, a: nat, b: nat)
    requires Closed(rules) && Covers(rules, s)
    ensures Exp(rules, s, a + b) == Exp(rules, Exp(rules, s, a), b)
    decreases a
  {
    if a > 0 {
      StepCovers(rules, s);
      ExpCompose(rules, Step(rules, s), a - 1, b);
    }
  }

  /** The empty string stays empty. */
  lemma {:induction false} ExpEmpty(rules: Rules, k: nat)
    requires Closed(rules)
    ensures Covers(rules, []) && Exp(rules, [], k) == []
  {
    if k > 0 {
      ExpEmpty(rules, k - 1);
    }
  }

  /** A character's expansion is its replacement's expansion one round later. */
  lemma ExpSingle(rules: Rules, c: char, k: nat)
    requires Closed(rules) && Defined(rules, c)
    ensures Covers(rules, [c]) && Covers(rules, Image(rules, c))
    ensures Exp(rules, [c], k + 1) == Exp(rules, Image(rules, c), k)
  {
    ImageCovered(rules, c);
    assert [c][1..] == [];
    assert Step(rules, [c]) == Image(rules, c) + Step(rules, []);
    assert Image(rules, c) + [] == Image(rules, c);
  }

  /** The loop of `bruteforce`'s list comprehension and join. */
  method RewriteLoop(rules: Rules, s: string) returns (r: Result<string>)
    ensures r == Rewrite(rules, s)
  {
    var out := "";
    var i := 0;
    assert s[0..] == s;
    PrefixedEmpty(Rewrite(rules, s));
    while i < |s|
      invariant 0 <= i <= |s|
      invariant Rewrite(rules, s) == Prefixed(out, Rewrite(rules, s[i..]))
    {
      assert s[i..][0] == s[i] && s[i..][1..] == s[i + 1..];
      RewriteCons(rules, out, s[i..]);
      var head := Lookup(rules, s[i]);
      if head.Err? {
        return Err(KeyError);
      }
      out := out + head.value;
      i := i + 1;
    }
    assert s[i..] == [];
    assert out + [] == out;
    return Ok(out);
  }

  /** `out` put in front of a successful result. */
  function Prefixed(out: string, r: Result<string>): Result<string> {
    if r.Ok? then Ok(out + r.value) else r
  }

  lemma PrefixedEmpty(r: Result<string>)
    ensures Prefixed("", r) == r
  {
    if r.Ok? {
      assert "" + r.value == r.value;
    }
  }

  /** Taking the first character's replacement out of a round. */
  lemma RewriteCons(rules: Rules, out: string, s: string)
    requires |s| >= 1
    ensures Lookup(rules, s[0]).Err? ==> Prefixed(out, Rewrite(rules, s)) == Err(KeyError)
    ensures Lookup(rules, s[0]).Ok? ==>
              Prefixed(out, Rewrite(rules, s)) == Prefixed(out + Lookup(rules, s[0]).value, Rewrite(rules, s[1..]))
  {
    var head := Lookup(rules, s[0]);
    var tail := Rewrite(rules, s[1..]);
    if head.Ok? && tail.Ok? {
      assert out + (head.value + tail.value) == (out + head.value) + tail.value;
    }
  }

  /** `bruteforce`: `n` rounds, failing where a round fails. */
  method BruteForce(rules: Rules, s0: string, n: nat) returns (r: Result<string>)
    ensures r == Expand(rules, s0, n)
  {
    var s := s0;
    var i := 0;
    while i < n
      invariant 0 <= i <= n
      invariant Expand(rules, s0, n) == Expand(rules, s, n - i)
    {
      var next := RewriteLoop(rules, s);
      if next.Err? {
        return next;
      }
      s := next.value;
      i := i + 1;
    }
    return Ok(s);
  }

  /** The first character after `m` rounds, following first characters only:
      `trans_map[ch][0]` repeated, which raises KeyError on a character
      without a rule and IndexError on an empty replacement. */
  function FirstCharAfter(rules: Rules, c: char, m: nat): Result<char>
    decreases m
  {
    if m == 0 then Ok(c)
    else
      var img :- Lookup(rules, c);
      if |img| == 0 then Err(IndexError)
      else FirstCharAfter(rules, img[0], m - 1)
  }

  /** Continue a walk from where a first walk ended. */
  function ThenAfter(rules: Rules, r: Result<char>, m: nat): Result<char> {
    if r.Ok? then FirstCharAfter(rules, r.value, m) else r
  }

  lemma {:induction false} AfterCompose(rules: Rules, c: char, a: nat, b: nat)
    ensures FirstCharAfter(rules, c, a + b) == ThenAfter(rules, FirstCharAfter(rules, c, a), b)
    decreases a
  {
    if a > 0 {
      var img := Lookup(rules, c);
      if img.Ok? && |img.value| > 0 {
        AfterCompose(rules, img.value[0], a - 1, b);
      }
    }
  }

  /** Going round a cycle through `c` any number of times changes nothing. */
  lemma {:induction false} AfterCycles(rules: Rules, c: char, period: nat, q: nat, rem: nat)
    requires FirstCharAfter(rules, c, period) == Ok(c)
    ensures FirstCharAfter(rules, c, q * period + rem) == FirstCharAfter(rules, c, rem)
  {
    if q > 0 {
      assert q * period + rem == period + ((q - 1) * period + rem);
      AfterCompose(rules, c, period, (q - 1) * period + rem);
      AfterCycles(rules, c, period, q - 1, rem);
    }
  }

  /** On a cycle of length `period` through `c`, only `m % period` matters. */
  lemma AfterPeriodic(rules: Rules, c: char, period: nat, m: nat)
    requires period >= 1 && FirstCharAfter(rules, c, period) == Ok(c)
    ensures FirstCharAfter(rules, c, m) == FirstCharAfter(rules, c, m % period)
  {
    assert m == (m / period) * period + m % period;
    AfterCycles(rules, c, period, m / period, m % period);
  }

  /** A character met at rounds `t` and `steps` lies on a cycle of length
      `steps - t`, so the rounds still to go may be taken modulo it. */
  lemma CycleShortcut(rules: Rules, start: char, ch: char, t: nat, steps: nat, left: nat)
    requires t < steps
    requires FirstCharAfter(rules, start, t) == Ok(ch) && FirstCharAfter(rules, start, steps) == Ok(ch)
    ensures FirstCharAfter(rules, ch, left) == FirstCharAfter(rules, ch, left % (steps - t))
  {
    CycleFound(rules, start, ch, t, steps - t);
    AfterPeriodic(rules, ch, steps - t, left);
  }

  /** A character met again `period` rounds later returns after `period`. */
  lemma CycleFound(rules: Rules, start: char, ch: char, t: nat, period: nat)
    requires FirstCharAfter(rules, start, t) == Ok(ch)
    requires FirstCharAfter(rules, start, t + period) == Ok(ch)
    ensures FirstCharAfter(rules, ch, period) == Ok(ch)
  {
    AfterCompose(rules, start, t, period);
  }

  /** Every character in `seen` was met at the round it is mapped to. */
  ghost predicate Visited(rules: Rules, start: char, seen: map<char, nat>, steps: nat) {
    forall c :: c in seen ==> seen[c] <= steps && FirstCharAfter(rules, start, seen[c]) == Ok(c)
  }

  /** One round of the walk: from `ch`, met at round `steps`, to the first
      character of its replacement. */
  lemma WalkStep(rules: Rules, start: char, ch: char, steps: nat, left: nat)
    requires FirstCharAfter(rules, start, steps) == Ok(ch)
    requires left >= 1
    requires Lookup(rules, ch).Ok? && |Lookup(rules, ch).value| >= 1
    ensures FirstCharAfter(rules, start, steps + 1) == Ok(Lookup(rules, ch).value[0])
    ensures FirstCharAfter(rules, ch, left) == FirstCharAfter(rules, Lookup(rules, ch).value[0], left - 1)
  {
    AfterCompose(rules, start, steps, 1);
  }

  /** The rounds left only shrink when taken modulo the cycle length. */
  lemma ModAtMost(a: nat, d: nat)
    requires d >= 1
    ensures a % d <= a
  {
    if a >= d {
      assert a == (a / d) * d + a % d;
      assert a / d >= 1;
      assert (a / d) * d >= d;
    }
  }

  /** The record of the walk stays valid one round later, with or without
      the character met in that round. */
  lemma WalkOn(rules: Rules, start: char, seen: map<char, nat>, steps: nat, ch: char)
    requires Visited(rules, start, seen, steps)
    requires FirstCharAfter(rules, start, steps + 1) == Ok(ch)
    ensures Visited(rules, start, seen, steps + 1)
    ensures ch in seen ==> seen[ch] < steps + 1 && FirstCharAfter(rules, start, seen[ch]) == Ok(ch)
    ensures ch !in seen ==> Visited(rules, start, seen[ch := steps + 1], steps + 1)
  {
  }

  /** `find_first_char`: the walk with the shortcut that, once a character
      repeats, reduces the remaining rounds modulo the cycle length. */
  method FindFirstChar(rules: Rules, s0: string, n: nat) returns (r: Result<char>)
    ensures |s0| == 0 ==> r == Err(IndexError)
    ensures |s0| >= 1 ==> r == FirstCharAfter(rules, s0[0], n)
  {
    if |s0| == 0 {
      return Err(IndexError);
    }
    var steps: nat := 0;
    var ch := s0[0];
    var seen: map<char, nat> := map[ch := 0];
    var left: nat := n;
    while left > 0
      invariant FirstCharAfter(rules, s0[0], n) == FirstCharAfter(rules, ch, left)
      invariant FirstCharAfter(rules, s0[0], steps) == Ok(ch)
      invariant Visited(rules, s0[0], seen, steps)
      decreases left
    {
      var img := Lookup(rules, ch);
      if img.Err? {
        return Err(KeyError);
      }
      if |img.value| == 0 {
        return Err(IndexError);
      }
      WalkStep(rules, s0[0], ch, steps, left);
      WalkOn(rules, s0[0], seen, steps, img.value[0]);
      steps := steps + 1;
      left := left - 1;
      ch := img.value[0];
      if ch in seen {
        var t := seen[ch];
        CycleShortcut(rules, s0[0], ch, t, steps, left);
        ModAtMost(left, steps - t);
        left := left % (steps - t);
      } else {
        seen := seen[ch := steps];
      }
    }
    return Ok(ch);
  }

  /** Under rules that never erase, the expansion's first character is the
      end of the walk of first characters. */
  lemma {:induction false} ExpFirst(rules: Rules, s: string, k: nat)
    requires Closed(rules) && Growing(rules) && Covers(rules, s) && |s| >= 1
    ensures |Exp(rules, s, k)| >= 1
    ensures FirstCharAfter(rules, s[0], k) == Ok(Exp(rules, s, k)[0])
    decreases k
  {
    if k > 0 {
      StepCovers(rules, s);
      var img := Image(rules, s[0]);
      assert |img| >= 1 by {
        assert img == rules[Index(rules, s[0])].to;
      }
      assert Step(rules, s)[0] == img[0];
      ExpFirst(rules, Step(rules, s), k - 1);
    }
  }
}

=== FILE: wrappers.dfy ===
/** Failure-compatible result type shared by the models: the source aborts,
    raises or hits an assertion where this model returns `Err`. */
module Wrappers {

  /** The ways the modelled code can stop without a value. */
  datatype Error =
    | RangeCheckFailed    // a CHECK_GT on constructor arguments fails
    | ValueError          // Python ValueError
    | IndexError          // Python IndexError (e.g. `x[0]` on an empty list)
    | KeyError            // Python KeyError (a dictionary has no such key)
    | AssertionError      // Python `assert` fails

  datatype Result<+T> = Ok(value: T) | Err(error: Error) {

    predicate IsFailure() {
      Err?
    }

    function PropagateFailure<U>(): Result<U>
      requires Err?
    {
      Err(error)
    }

    function Extract(): T
      requires Ok?
    {
      value
    }
  }
}
